=== FILE: README.md ===
# NuGetPulse core, modelled in Dafny

NuGetPulse scans .NET solutions for NuGet package references. It builds a
dependency graph with version-conflict detection, scores package health and
shows package statistics. This project models the pure core of that system
as immutable Dafny datatypes and total functions, and proves what the code
promises about them.

- **Graph builder** (`GraphModel`, `GraphBuilder`, `GraphProperties`,
  `Versions`): `DependencyGraphBuilder.Build` builds one package node per
  case-insensitively distinct `name||version` key. It adds one project node
  per case-insensitively distinct project file and one direct edge per
  reference. Conflict detection then covers each multi-version package: its
  severity, its suggested version, its sorted version list, node marking and
  pairwise conflict edges. The quirks are kept as written; lemmas exhibit
  them:
  - edges duplicate when references duplicate;
  - project nodes are typed as root packages;
  - an edge target can name no node;
  - a name ending in `|` splits wrongly.
- **Scanner** (`Scanner`): the element-to-reference rules of the three file
  scans, the path guards, the supported-file test, and the directory scan.
  The directory scan catches per-file failures and de-duplicates by
  (name, version, source file).
- **Health score** (`HealthScores`): the four component tiers of
  `HealthScore.Compute`, their weighted composite, and the status bands.
- **Package statistics** (`Stats`): the page's own five-tier score, the three
  band labels, and the top and recent version lists.
- **OSV mapping** (`Osv`): severity parsing and the record-to-entry mapping.
- **NuGet service post-processing** (`NuGetService`): bar widths relative to
  the most downloaded version, framework-moniker normalisation, and the
  framework list.

Library behaviour the code relies on is modelled in `Text`, `Seqs` and
`Numeric`:
- `Text`: ASCII case folding, `Trim`, `Split` and `Replace`.
- `Seqs`: `Distinct`, `DistinctBy`, a stable `OrderBy` and `Where`.
- `Numeric`: unchecked 32- and 64-bit arithmetic and truncating division.

Services the code calls but cannot be defined here are parameters:
- `Path.GetFileName` in the graph builder;
- `string.GetHashCode` (randomised per process);
- the culture-sensitive string order;
- the clock;
- the rounding of the composite score.

File contents arrive as already-parsed element lists. A file's absence or
malformed XML is one of the `XmlFile` cases.

## Model

| member | source | states |
|---|---|---|
| PackageModels.Fact | src/NuGetPulse.Core/Models/PackageReference.cs:22-33 | A reference built from name, version and project file carries exactly those three values. The other fields keep their defaults: a `PackageReference` kind, not centrally managed, no source file, a project-file source |
| GraphModel.DefaultOptions | src/NuGetPulse.Graph/Models/DependencyGraph.cs:84 | Conflict highlighting is on by default |
| GraphModel.RootPackageCount | src/NuGetPulse.Graph/Models/DependencyGraph.cs:19 | The root-package count is at most the node count, and equals it exactly when every node is a root package |
| GraphModel.RootCountAll | src/NuGetPulse.Graph/Models/DependencyGraph.cs:19 | Counting root packages gives the length of the node list exactly when all nodes are root packages |
| GraphModel.SeverityLabel | src/NuGetPulse.Graph/Models/DependencyGraph.cs:57-63 | 3, 2 and 1 map to High, Medium and Low, each label only from its number; every other severity maps to Unknown |
| Versions.TrimTrailingNul | src/NuGetPulse.Graph/DependencyGraphBuilder.cs:156 | The run of NUL characters that `int.TryParse` tolerates at the end is exactly the maximal all-NUL suffix: what is kept is a prefix not ending in NUL |
| Versions.TryParseInt32 | src/NuGetPulse.Graph/DependencyGraphBuilder.cs:156 | `int.TryParse` succeeds only with a value in the 32-bit range |
| Versions.TrailingNulIgnored | src/NuGetPulse.Graph/DependencyGraphBuilder.cs:156 | Appending a NUL never changes whether or to what a string parses |
| Versions.TrailingNulExamples | src/NuGetPulse.Graph/DependencyGraphBuilder.cs:156 | `"1\0"` and `"1 \0"` parse to 1; `"1\0 "` fails, since white space may not follow the NULs |
| Versions.ParseSinglePart | src/NuGetPulse.Graph/DependencyGraphBuilder.cs:154-156 | A version with no `-` and no `.` has exactly one component, its parsed value |
| Versions.TrailingNulSameSeverity | src/NuGetPulse.Graph/DependencyGraphBuilder.cs:150-174 | Versions `1\0` and `1` are rated 1: they parse to the same components |
| Versions.DecimalRoundTrip | src/NuGetPulse.Graph/DependencyGraphBuilder.cs:156 | Parsing the decimal text of any in-range natural number gives that number back |
| Versions.ParseVersion | src/NuGetPulse.Graph/DependencyGraphBuilder.cs:155-156 | A version parses to between one and three numeric components |
| Versions.ParseVersionLength | src/NuGetPulse.Graph/DependencyGraphBuilder.cs:155-156 | The number of components is one more than the dots before the first `-`, capped at three |
| Versions.RowFlags | src/NuGetPulse.Graph/DependencyGraphBuilder.cs:164-170 | The inner loop raises the major flag iff some later version differs in the major component. It raises the minor flag iff some later version agrees on the major component and differs in the minor one |
| Versions.PairFlags | src/NuGetPulse.Graph/DependencyGraphBuilder.cs:159-171 | The double loop's flags are exactly "some pair differs in major" and "some pair differs in minor but not major" |
| Versions.AnyMajorDiffSplit | src/NuGetPulse.Graph/DependencyGraphBuilder.cs:162-171 | A major difference among all pairs is one from the first version or one among the rest |
| Versions.AnyMinorOnlyDiffSplit | src/NuGetPulse.Graph/DependencyGraphBuilder.cs:162-171 | The same decomposition for minor-only differences |
| Versions.CalculateSeverity | src/NuGetPulse.Graph/DependencyGraphBuilder.cs:150-174 | Severity is 0 iff there is at most one version, and in {1,2,3} otherwise. It is 3 iff some pair differs in the major component. It is 2 iff none does but some pair with two components each differs in the minor one. Otherwise it is 1 |
| Versions.MaxIgnoreCase | src/NuGetPulse.Graph/DependencyGraphBuilder.cs:113 | The suggested version is a member of the set, and no member is above it under ordinal-ignore-case order. Every member before it ranks strictly below it, so ties keep the first |
| Versions.SuggestedVersionExample | src/NuGetPulse.Graph/DependencyGraphBuilder.cs:113 | Among 1.0.0, 1.2.0 and 1.10.0 the suggestion is 1.2.0, because the order compares text, not numbers |
| GraphBuilder.PackageNode | src/NuGetPulse.Graph/DependencyGraphBuilder.cs:32-51 | A package node is a root package without a conflict. It carries the name and version split from the group key, and its id is `name_version` |
| GraphBuilder.PackageNodes | src/NuGetPulse.Graph/DependencyGraphBuilder.cs:30-52 | One package node per group, in group order |
| GraphBuilder.IndexOfName | src/NuGetPulse.Graph/DependencyGraphBuilder.cs:37 | The case-insensitive dictionary lookup finds an entry whose key equals the name ignoring case, or reports that none does |
| GraphBuilder.VersionMapOf | src/NuGetPulse.Graph/DependencyGraphBuilder.cs:37-39 | The name-to-versions map has case-insensitively distinct keys, holds every group's name, and has no repeated version in an entry. Each entry's versions are exactly the versions of the groups whose name equals the key ignoring case |
| GraphBuilder.VersionMapKeys | src/NuGetPulse.Graph/DependencyGraphBuilder.cs:37-39 | Every key is the spelling of the first group whose name equals it ignoring case, and every entry lists at least one version, so the map holds no entry that no group added |
| GraphBuilder.VersionsNamedAppend | src/NuGetPulse.Graph/DependencyGraphBuilder.cs:37-39 | One more group adds its version to the version set of every name it matches ignoring case, and to no other |
| GraphBuilder.VersionMapStep | src/NuGetPulse.Graph/DependencyGraphBuilder.cs:37-39 | One `Add` step keeps all four map invariants |
| GraphBuilder.AddVersionDistinct | src/NuGetPulse.Graph/DependencyGraphBuilder.cs:37-39 | Adding a version keeps the map's names pairwise different ignoring case and each version set free of duplicates |
| GraphBuilder.AddVersionContents | src/NuGetPulse.Graph/DependencyGraphBuilder.cs:37-39 | After an `Add`, each entry holds exactly the versions of the groups named like it, ignoring case |
| GraphBuilder.ProjectFiles | src/NuGetPulse.Graph/DependencyGraphBuilder.cs:55-58 | The project-file list is the first spelling of each case-insensitively distinct file, in first-seen order |
| GraphBuilder.ProjectNode | src/NuGetPulse.Graph/DependencyGraphBuilder.cs:62-72 | A project node is typed as a root package, has no conflict and an empty version, and has the file-name-and-hash id |
| GraphBuilder.ProjectNodes | src/NuGetPulse.Graph/DependencyGraphBuilder.cs:60-72 | One project node per listed file, in order |
| GraphBuilder.DirectEdge | src/NuGetPulse.Graph/DependencyGraphBuilder.cs:78-86 | A direct edge runs from the project node to the reference's own `name_version` and is not a conflict edge |
| GraphBuilder.ProjectEdges | src/NuGetPulse.Graph/DependencyGraphBuilder.cs:75-87 | A project gets one edge per reference whose file equals it ignoring case, duplicates included. Every such reference has its edge, and every edge comes from one |
| GraphBuilder.DirectEdges | src/NuGetPulse.Graph/DependencyGraphBuilder.cs:60-88 | The direct edges are exactly the union of every listed project's edges |
| GraphBuilder.PhaseA | src/NuGetPulse.Graph/DependencyGraphBuilder.cs:26-88 | Before detection every node is an unmarked root package, every edge is a non-conflict direct edge, and there are no conflicts |
| GraphBuilder.MatchingIdsCount | src/NuGetPulse.Graph/DependencyGraphBuilder.cs:105-108 | There is one conflicting node id per root-package node whose package id equals the name ignoring case. The matching node with `r` matching nodes before it supplies the `r`-th id, so the ids keep node order |
| GraphBuilder.MatchingIdsSupplied | src/NuGetPulse.Graph/DependencyGraphBuilder.cs:105-108 | Every conflicting node id belongs to a matching node at the corresponding rank; the list holds no other id |
| GraphBuilder.MatchingIdsTwo | src/NuGetPulse.Graph/DependencyGraphBuilder.cs:105-110 | More than one id exactly when at least two root-package nodes have a package id equal to the name ignoring case |
| GraphBuilder.MarkConflict | src/NuGetPulse.Graph/DependencyGraphBuilder.cs:126-130 | Marking sets the flag and severity on exactly the root-package nodes whose package id matches ignoring case, and leaves every other node unchanged |
| GraphBuilder.ConflictEdge | src/NuGetPulse.Graph/DependencyGraphBuilder.cs:137-144 | A conflict edge runs between the two given nodes with type Conflict and the conflict flag set |
| GraphBuilder.RowEdges | src/NuGetPulse.Graph/DependencyGraphBuilder.cs:135-145 | The inner loop adds one conflict edge from the node to each later node, in order |
| GraphBuilder.PairEdges | src/NuGetPulse.Graph/DependencyGraphBuilder.cs:133-146 | k conflicting nodes get exactly k(k-1)/2 conflict edges, one for every ordered pair i < j |
| GraphBuilder.ConflictForContents | src/NuGetPulse.Graph/DependencyGraphBuilder.cs:112-122 | The entry names the package and lists the matched node ids. Its severity is the calculated one, in {1,2,3}. Its versions are a permutation of the set, sorted when the culture order is a total preorder. The suggestion is an ordinal-ignore-case maximum of the set |
| GraphBuilder.DetectOne | src/NuGetPulse.Graph/DependencyGraphBuilder.cs:103-147 | An entry with one version or at most one matching node leaves the graph unchanged. Otherwise it marks the matching nodes, appends the pair edges, and records the conflict under the name |
| GraphProperties.MatchingIdsShape | src/NuGetPulse.Graph/DependencyGraphBuilder.cs:105-108 | Node matching reads only fields that marking does not change |
| GraphProperties.DetectOneShape | src/NuGetPulse.Graph/DependencyGraphBuilder.cs:126-130 | One detection step keeps each node's identity fields and so the matches of every name |
| GraphProperties.DetectShape | src/NuGetPulse.Graph/DependencyGraphBuilder.cs:103-147 | The whole pass keeps node identities and matches |
| GraphProperties.ConflictTailTransitive | src/NuGetPulse.Graph/DependencyGraphBuilder.cs:137 | Appending only conflict edges, twice, appends only conflict edges |
| GraphProperties.DetectOneEdges | src/NuGetPulse.Graph/DependencyGraphBuilder.cs:133-146 | One step keeps the old edges as a prefix and appends only conflict edges |
| GraphProperties.DetectEdges | src/NuGetPulse.Graph/DependencyGraphBuilder.cs:103-147 | The whole pass keeps the direct edges as a prefix and appends only conflict edges |
| GraphProperties.DetectKeys | src/NuGetPulse.Graph/DependencyGraphBuilder.cs:103-124 | A name is recorded iff it was already recorded or it is the key of an entry with more than one version and more than one matching node |
| GraphProperties.DetectOneConflicts | src/NuGetPulse.Graph/DependencyGraphBuilder.cs:115-124 | One step records the entry's conflict and keeps every other recorded conflict |
| GraphProperties.DetectValues | src/NuGetPulse.Graph/DependencyGraphBuilder.cs:103-124 | After the pass each qualifying entry's conflict is the one built from its versions and the original matches; other conflicts are kept |
| GraphProperties.DetectRecorded | src/NuGetPulse.Graph/DependencyGraphBuilder.cs:103-124 | Each qualifying name ends up with the conflict built from its versions and the nodes that matched it before the pass |
| GraphProperties.DetectKept | src/NuGetPulse.Graph/DependencyGraphBuilder.cs:103-124 | A name that has no entry in the version map keeps the conflict it had |
| GraphProperties.DetectUntouched | src/NuGetPulse.Graph/DependencyGraphBuilder.cs:126-130 | A node that no qualifying entry matches is unchanged by the pass |
| GraphProperties.DetectMarked | src/NuGetPulse.Graph/DependencyGraphBuilder.cs:126-130 | A node matched by a qualifying entry ends marked with that entry's severity |
| GraphProperties.CoveredSplit | src/NuGetPulse.Graph/DependencyGraphBuilder.cs:75-76 | With distinct files, the references covered by a file list split into those of its first file and those of the rest |
| GraphProperties.DirectEdgesCount | src/NuGetPulse.Graph/DependencyGraphBuilder.cs:60-88 | With distinct files, the direct edges number exactly the references the files cover |
| GraphProperties.CoveredAll | src/NuGetPulse.Graph/DependencyGraphBuilder.cs:55-58 | When every reference's file is listed, all references are covered |
| GraphProperties.ProjectFilesDistinct | src/NuGetPulse.Graph/DependencyGraphBuilder.cs:55-58 | The project files are pairwise distinct ignoring case |
| GraphProperties.RepresentativeFileListed | src/NuGetPulse.Graph/DependencyGraphBuilder.cs:55-58 | Every reference's file is listed, in its first-seen spelling |
| GraphProperties.ListedIsRepresentative | src/NuGetPulse.Graph/DependencyGraphBuilder.cs:55-58 | The listed file matching a reference is that reference's first-seen spelling |
| GraphProperties.BuildEmpty | src/NuGetPulse.Graph/DependencyGraphBuilder.cs:16-95 | No references give a graph with no nodes, edges or conflicts, whatever the options |
| GraphProperties.BuildDefaultOptions | src/NuGetPulse.Graph/DependencyGraphBuilder.cs:20 | Omitted options behave as default options, with highlighting on |
| GraphProperties.BuildNodeCount | src/NuGetPulse.Graph/DependencyGraphBuilder.cs:26-72 | The node count is the number of case-insensitively distinct `name||version` keys plus the number of case-insensitively distinct project files |
| GraphProperties.BuildAllRoot | src/NuGetPulse.Graph/DependencyGraphBuilder.cs:47 | Every node, project nodes included, counts as a root package |
| GraphProperties.DirectEdgeCount | src/NuGetPulse.Graph/DependencyGraphBuilder.cs:60-88 | There is one direct edge per input reference, with no de-duplication |
| GraphProperties.DirectEdgesComplete | src/NuGetPulse.Graph/DependencyGraphBuilder.cs:60-88 | Each reference has its direct edge from its project's node, and that project node exists |
| GraphProperties.DirectEdgesSound | src/NuGetPulse.Graph/DependencyGraphBuilder.cs:60-88 | Every direct edge is the edge of some input reference |
| GraphProperties.BuildWithoutHighlight | src/NuGetPulse.Graph/DependencyGraphBuilder.cs:91-92 | With highlighting off there are no conflicts, no conflict edges and no marked nodes |
| GraphProperties.BuildConflicts | src/NuGetPulse.Graph/DependencyGraphBuilder.cs:103-124 | With highlighting on, a name has a conflict entry iff some version-map key with more than one version is that name and at least two root-package nodes match it ignoring case |
| GraphProperties.BuildConflictsForward | src/NuGetPulse.Graph/DependencyGraphBuilder.cs:103-124 | A recorded conflict has a qualifying entry |
| GraphProperties.BuildConflictsBackward | src/NuGetPulse.Graph/DependencyGraphBuilder.cs:103-124 | A qualifying entry is recorded |
| GraphProperties.BuildEdges | src/NuGetPulse.Graph/DependencyGraphBuilder.cs:91-92 | Detection keeps the direct edges and only appends conflict edges |
| GraphProperties.BuildConflictEntry | src/NuGetPulse.Graph/DependencyGraphBuilder.cs:115-124 | A qualifying entry's conflict in the built graph is the one built from its versions and matching nodes |
| GraphProperties.BuildConflictNodes | src/NuGetPulse.Graph/DependencyGraphBuilder.cs:126-130 | A node matching a qualifying entry is marked with that entry's severity |
| GraphProperties.BuildHasDirectEdge | src/NuGetPulse.Graph/DependencyGraphBuilder.cs:75-87 | Each reference's direct edge is in the built graph, whatever the options |
| GraphProperties.BuildKeepsShape | src/NuGetPulse.Graph/DependencyGraphBuilder.cs:91-92 | Detection changes only the conflict fields of nodes |
| GraphProperties.BuildEdgeIntoReference | src/NuGetPulse.Graph/DependencyGraphBuilder.cs:78 | Some edge targets each reference's own `name_version` |
| GraphProperties.CaseVariantsOneGroup | src/NuGetPulse.Graph/DependencyGraphBuilder.cs:26-28 | `A 1.0` and `a 1.0` form one group, which keeps the first spelling |
| GraphProperties.CaseVariantNodeId | src/NuGetPulse.Graph/DependencyGraphBuilder.cs:32-35 | That group's node id is `A_1.0` |
| GraphProperties.CaseVariantSecondId | src/NuGetPulse.Graph/DependencyGraphBuilder.cs:78 | The second reference's edge target is `a_1.0` |
| GraphProperties.CaseVariantNodes | src/NuGetPulse.Graph/DependencyGraphBuilder.cs:41-72 | The graph of those two references has only the `A_1.0` node and project nodes |
| GraphBuilder.Build | src/NuGetPulse.Graph/DependencyGraphBuilder.cs:16-95 | The reference definition of the builder: phase A (nodes and edges), then conflict detection when highlighting is on. It is characterised by `GraphProperties.BuildEmpty`, `BuildDefaultOptions`, `BuildNodeCount`, `BuildNodeOrigin` and the edge and conflict lemmas below |
| GraphBuilder.DetectConflicts | src/NuGetPulse.Graph/DependencyGraphBuilder.cs:103-147 | The reference definition of the detection loop: one detection step per name-to-versions entry, in order. `GraphProperties.DetectShape`, `DetectEdges` and `DetectKeys` state that it keeps the nodes apart from their conflict flags, only appends conflict edges, and records a conflict exactly for the entries with more than one version and more than one matching node |
| GraphProperties.BuildNodeOrigin | src/NuGetPulse.Graph/DependencyGraphBuilder.cs:41-72 | Every node of a built graph has the id of one group's package node or of one listed project file's node |
| GraphProperties.OneGroupNodes | src/NuGetPulse.Graph/DependencyGraphBuilder.cs:41-72 | With a single group, every node is that group's node or a project node, whose id starts with `project_` |
| GraphProperties.CaseVariantNoNode | src/NuGetPulse.Graph/DependencyGraphBuilder.cs:41-72 | No node has the id `a_1.0` |
| GraphProperties.EdgeTargetCanMissNode | src/NuGetPulse.Graph/DependencyGraphBuilder.cs:78 | So an edge of that graph targets an id no node has |
| GraphProperties.SplitKeyNameEndingInBar | src/NuGetPulse.Graph/DependencyGraphBuilder.cs:32-34 | A name ending in a bar mis-splits: name `A` plus a bar, with version `1.0`, becomes name `A` and a version starting with the bar |
| Text.UpperCaseMap | src/NuGetPulse.Security/OsvClient.cs:89 | Upper-casing turns each lower-case ASCII letter into its upper-case letter, 32 code units lower, and keeps every other character |
| Text.LowerCaseMap | src/NuGetPulse.Web/Services/NuGetService.cs:145 | Lower-casing turns each upper-case ASCII letter into its lower-case letter, 32 code units higher, and keeps every other character |
| Text.CaseMapsAgree | src/NuGetPulse.Web/Services/NuGetService.cs:145 | A lower-cased string equals the original ignoring case, and lower-casing an upper-cased string gives the lower-cased original |
| Text.LowerCaseFixed | src/NuGetPulse.Web/Services/NuGetService.cs:145 | A lower-cased string is lower case, and lower-casing a lower-case string changes nothing |
| Text.OrdinalLessIrreflexive | src/NuGetPulse.Graph/DependencyGraphBuilder.cs:113 | No string is ordinally below itself |
| Text.OrdinalLessTransitive | src/NuGetPulse.Graph/DependencyGraphBuilder.cs:113 | Ordinal order is transitive |
| Text.OrdinalLessTotal | src/NuGetPulse.Graph/DependencyGraphBuilder.cs:113 | Any two different strings are ordered one way or the other |
| Text.LessIgnoreCaseTransitive | src/NuGetPulse.Graph/DependencyGraphBuilder.cs:113 | Ordinal-ignore-case order is transitive |
| Text.Trim | src/NuGetPulse.Scanner/PackageScanner.cs:41-42 | `Trim` returns a slice with only white space cut from both ends, and the result neither starts nor ends with white space |
| Text.TrimBlank | src/NuGetPulse.Scanner/PackageScanner.cs:38-41 | A trimmed string is empty iff the string is all white space |
| Text.TrimUnpadded | src/NuGetPulse.Scanner/PackageScanner.cs:37 | Trimming a string without surrounding white space, such as `CPM`, changes nothing |
| Text.ReplaceAll | src/NuGetPulse.Web/Services/NuGetService.cs:147-150 | The reference definition of `string.Replace` with a non-empty pattern: a left-to-right scan that replaces every non-overlapping occurrence. It is characterised by `Text.ReplaceAtStart`, `Text.ReplaceLeading`, `Text.ReplaceAbsent` and `Text.ReplaceAllLowerCase` |
| Text.ReplaceAtStart | src/NuGetPulse.Web/Services/NuGetService.cs:147-150 | Replacing a pattern in a string that starts with it yields a string starting with the replacement |
| Text.ReplaceAbsent | src/NuGetPulse.Web/Services/NuGetService.cs:147-150 | Replacing a pattern that does not occur changes nothing |
| Text.ReplaceAllLowerCase | src/NuGetPulse.Web/Services/NuGetService.cs:147-150 | Replacing with lower-case text in a lower-case string keeps it lower case |
| Text.SplitChar | src/NuGetPulse.Graph/DependencyGraphBuilder.cs:155 | `Split(c)` gives one more part than there are separators, and no part contains the separator |
| Text.SplitCharAbsent | src/NuGetPulse.Graph/DependencyGraphBuilder.cs:155 | A string without the separator splits into itself |
| Text.SplitCharJoin | src/NuGetPulse.Graph/DependencyGraphBuilder.cs:155 | Joining the parts with the separator gives back the string |
| Text.SplitOnce | src/NuGetPulse.Graph/DependencyGraphBuilder.cs:32-34 | `Split` of the key at the double-bar separator, at most two parts, cuts at the first separator, with none before it, or returns the whole string when there is none |
| Text.SplitOnceAt | src/NuGetPulse.Graph/DependencyGraphBuilder.cs:32-34 | With the first separator at k, the parts are the text before k and the text after the separator |
| Seqs.DistinctBy | src/NuGetPulse.Scanner/PackageScanner.cs:143-145 | `DistinctBy` leaves no two elements with equal keys and keeps every key of the input. Each element kept is the first one with its key, in input order |
| Seqs.DistinctByCard | src/NuGetPulse.Graph/DependencyGraphBuilder.cs:26-28 | The number of groups is the number of distinct keys |
| Seqs.SortBy | src/NuGetPulse.Graph/DependencyGraphBuilder.cs:118 | Sorting returns a permutation of its input |
| Seqs.SortBySorted | src/NuGetPulse.Graph/DependencyGraphBuilder.cs:118 | Under a total preorder the result is sorted |
| Seqs.Filter | src/NuGetPulse.Web/Services/NuGetService.cs:97 | `Where` keeps a sub-multiset whose elements all satisfy the predicate, as many as satisfy it |
| Seqs.FilterMembers | src/NuGetPulse.Web/Services/NuGetService.cs:97 | A value survives `Where` iff it was present and satisfies the predicate |
| Seqs.DistinctMembers | src/NuGetPulse.Web/Services/NuGetService.cs:98 | `Distinct` keeps exactly the values present, each once |
| Seqs.FilterMap | src/NuGetPulse.Scanner/PackageScanner.cs:34-48 | The scan loop emits at most one reference per element, each from some element |
| Seqs.FilterMapAppend | src/NuGetPulse.Scanner/PackageScanner.cs:34-48 | The loop over two element runs is the loop over the first followed by the loop over the second |
| Numeric.Wrap32 | src/NuGetPulse.Core/Models/HealthScore.cs:66 | An unchecked `int` result is the one 32-bit value congruent to the exact result modulo 2^32, and equals the exact result when that is in range |
| Numeric.Wrap64 | src/NuGetPulse.Web/Services/NuGetService.cs:91 | The same for `long` modulo 2^64 |
| Numeric.TruncDiv | src/NuGetPulse.Web/Services/NuGetService.cs:91 | C# division leaves a remainder smaller than the divisor in magnitude, with the dividend's sign |
| Numeric.DivideBounded | src/NuGetPulse.Web/Services/NuGetService.cs:91 | A value in [0, c·b] divided by b lies in [0, c], and is c at the top |
| Scanner.LastIndexOf | src/NuGetPulse.Scanner/PackageScanner.cs:151-152 | The last occurrence of a character is found, or there is none |
| Scanner.FileName | src/NuGetPulse.Scanner/PackageScanner.cs:152 | The file name is the part of the path after the last separator: it ends the path and contains no separator |
| Scanner.NameExtension | src/NuGetPulse.Scanner/PackageScanner.cs:151 | The extension is empty or a dot and at least one character ending the name, with no later dot |
| Scanner.DirectoryPrefix | src/NuGetPulse.Scanner/PackageScanner.cs:119 | The directory part of a combined path is empty or ends in a separator |
| Scanner.CombineFileName | src/NuGetPulse.Scanner/PackageScanner.cs:119 | The file name of a directory combined with a plain name is that name |
| Scanner.SuffixIsExtension | src/NuGetPulse.Scanner/PackageScanner.cs:151 | A name ending in `.xyz` ignoring case has exactly that suffix as its extension |
| Scanner.ExtensionIsSuffix | src/NuGetPulse.Scanner/PackageScanner.cs:151 | An extension equal to `.xyz` ignoring case ends the name |
| Scanner.ExtensionMatches | src/NuGetPulse.Scanner/PackageScanner.cs:151 | A path's extension equals `.xyz` ignoring case iff its file name ends in `.xyz` ignoring case |
| Scanner.IsSupportedProjectFile | src/NuGetPulse.Scanner/PackageScanner.cs:150-152 | The reference definition of the supported-file test: extension `.csproj` or `.fsproj`, or file name `packages.config`, ignoring case. `Scanner.SupportedProjectFileByName` restates it on the raw name |
| Scanner.SupportedProjectFileByName | src/NuGetPulse.Scanner/PackageScanner.cs:150-152 | A file is supported iff its name ends in `.csproj` or `.fsproj`, or is `packages.config`, all ignoring case |
| Scanner.ValidateFile | src/NuGetPulse.Scanner/PackageScanner.cs:154-160 | A blank path is an invalid argument. A missing file is not found. Anything else passes |
| Scanner.ProjectEntry | src/NuGetPulse.Scanner/PackageScanner.cs:36-47 | An element yields a reference iff its `Include` is present and not blank. The name is the trimmed `Include`. The version is the trimmed `Version` attribute, else the trimmed child element, else `CPM`. The entry is a project-file `PackageReference` for this path |
| Scanner.ConfigEntry | src/NuGetPulse.Scanner/PackageScanner.cs:63-74 | A `package` element yields a reference iff `id` and `version` are both present and not blank. The reference carries both trimmed, with the packages.config kind and source |
| Scanner.PropsEntry | src/NuGetPulse.Scanner/PackageScanner.cs:91-103 | A `PackageVersion` element yields a reference iff `Include` and `Version` are both present and not blank. The reference is centrally managed, from Directory.Packages.props |
| Scanner.ProjectEntries | src/NuGetPulse.Scanner/PackageScanner.cs:34-48 | A project scan yields at most one reference per element. Each is named, from this path, a `PackageReference`, not centrally managed |
| Scanner.ConfigEntries | src/NuGetPulse.Scanner/PackageScanner.cs:61-75 | A packages.config scan yields at most one reference per element, each with non-empty name and version and the packages.config kind |
| Scanner.PropsEntries | src/NuGetPulse.Scanner/PackageScanner.cs:89-104 | Every Directory.Packages.props reference is centrally managed with source type DirectoryPackagesProps; at most one per element |
| Scanner.ProjectEntriesInOrder | src/NuGetPulse.Scanner/PackageScanner.cs:34-48 | The project scan keeps element order: it distributes over concatenation and maps a single element to its entry |
| Scanner.ConfigEntriesInOrder | src/NuGetPulse.Scanner/PackageScanner.cs:61-75 | The same for packages.config |
| Scanner.PropsEntriesInOrder | src/NuGetPulse.Scanner/PackageScanner.cs:89-104 | The same for Directory.Packages.props |
| Scanner.ScanProjectFile | src/NuGetPulse.Scanner/PackageScanner.cs:23-52 | A blank path, or an existing unsupported file, is an invalid argument. A missing file is not found. Malformed XML fails. The scan succeeds exactly for a supported parsed file, with that file's entries |
| Scanner.ScanPackagesConfig | src/NuGetPulse.Scanner/PackageScanner.cs:54-79 | The same error cases without the extension test. The scan succeeds exactly for a non-blank path to a parsed file, and success yields the file's entries |
| Scanner.ScanDirectoryPackagesProps | src/NuGetPulse.Scanner/PackageScanner.cs:81-108 | The same error cases. The scan succeeds exactly for a non-blank path to a parsed file, and success yields the file's central entries |
| Scanner.CaughtAppend | src/NuGetPulse.Scanner/PackageScanner.cs:126-140 | Scanning files with per-file failures caught distributes over the file list |
| Scanner.ScanDirectory | src/NuGetPulse.Scanner/PackageScanner.cs:110-146 | A missing directory fails, and malformed central props fail. Otherwise the scan succeeds, with results distinct by (name, version, source file). Every key of the gathered results is kept, each by its first occurrence, in first-occurrence order |
| Scanner.SkipsFailingProjectFile | src/NuGetPulse.Scanner/PackageScanner.cs:129-130 | A project file whose scan fails contributes nothing and does not stop the directory scan |
| Scanner.AppendsProjectFile | src/NuGetPulse.Scanner/PackageScanner.cs:126-131 | A supported parsed project file contributes exactly its entries, after those of the earlier files |
| HealthScores.Status | src/NuGetPulse.Core/Models/HealthScore.cs:27-32 | Healthy iff score ≥ 80, Warning iff 60 ≤ score < 80, Critical iff score < 60 |
| HealthScores.StatusMonotone | src/NuGetPulse.Core/Models/HealthScore.cs:27-32 | A higher score never has a worse status |
| HealthScores.DownloadsScore | src/NuGetPulse.Core/Models/HealthScore.cs:42-50 | The downloads tier is one of 5, 20, 40, 60, 80, 100: 100 iff at least 10 million, 5 iff under 1000 |
| HealthScores.DownloadsScoreMonotone | src/NuGetPulse.Core/Models/HealthScore.cs:42-50 | More downloads never lower the tier |
| HealthScores.AgeScore | src/NuGetPulse.Core/Models/HealthScore.cs:54-62 | The age tier is one of 10, 30, 50, 70, 85, 100: 100 iff at most 30 days, 10 iff over 730 |
| HealthScores.FreshnessScore | src/NuGetPulse.Core/Models/HealthScore.cs:53-63 | No publish date scores a neutral 50; otherwise it is the age tier of the elapsed days |
| HealthScores.AgeScoreNonIncreasing | src/NuGetPulse.Core/Models/HealthScore.cs:54-62 | An older release never scores fresher |
| HealthScores.VulnerabilityScore | src/NuGetPulse.Core/Models/HealthScore.cs:66 | In unchecked `int` arithmetic the tier is never negative |
| HealthScores.VulnerabilityScoreExact | src/NuGetPulse.Core/Models/HealthScore.cs:66 | Without overflow the tier is max(0, 100 − 25·count), within [0, 100]. It is 100 iff there are no vulnerabilities and 0 iff there are at least four |
| HealthScores.VulnerabilityScoreMonotone | src/NuGetPulse.Core/Models/HealthScore.cs:66 | More vulnerabilities never raise the tier, without overflow |
| HealthScores.VulnerabilityScoreNegative | src/NuGetPulse.Core/Models/HealthScore.cs:66 | A negative count scores above 100 |
| HealthScores.VulnerabilityScoreWraps | src/NuGetPulse.Core/Models/HealthScore.cs:66 | 171,798,692 vulnerabilities wrap `count * 25` to 4 and score 96 |
| HealthScores.DeprecationScore | src/NuGetPulse.Core/Models/HealthScore.cs:69 | The deprecation tier is 0 iff deprecated and 100 iff not |
| HealthScores.WeightedBounds | src/NuGetPulse.Core/Models/HealthScore.cs:71-75 | The weights sum to one, so components in [0, 100] give a composite in [0, 100] |
| HealthScores.Compute | src/NuGetPulse.Core/Models/HealthScore.cs:35-87 | The result echoes the count and the deprecation flag. Its components are the four tiers, and the score is the rounded weighted sum of those components |
| HealthScores.ComputeInRange | src/NuGetPulse.Core/Models/HealthScore.cs:71-86 | With a count that does not overflow and rounding to nearest, the overall score lies in [0, 100] |
| Stats.DownloadPoints | src/NuGetPulse.Web/Models/PackageStats.cs:66-73 | The downloads tier is one of 5, 10, 20, 30, 40: 40 iff at least a million, 5 iff under 1000 |
| Stats.VersionCountPoints | src/NuGetPulse.Web/Models/PackageStats.cs:76-83 | The version-count tier is one of 0, 5, 10, 15, 20: 0 iff fewer than two versions, 20 iff at least twenty |
| Stats.RecencyPoints | src/NuGetPulse.Web/Models/PackageStats.cs:86-97 | No publish date contributes 0. Otherwise the tier is 20 iff published within 90 days (three 30-day months) |
| Stats.PresencePoints | src/NuGetPulse.Web/Models/PackageStats.cs:100-103 | An optional text adds 10 iff it is present and non-empty, else 0 |
| Stats.HealthScore | src/NuGetPulse.Web/Models/PackageStats.cs:61-106 | The page's score lies in [5, 100] |
| Stats.HealthScoreIsTierSum | src/NuGetPulse.Web/Models/PackageStats.cs:61-106 | The score is exactly the sum of the five tiers; the cap at 100 never binds |
| Stats.ProjectUrlAddsTen | src/NuGetPulse.Web/Models/PackageStats.cs:100 | Giving a package without one a project URL raises its score by exactly 10 |
| Stats.LicenseAddsTen | src/NuGetPulse.Web/Models/PackageStats.cs:103 | Giving a package without one a license raises its score by exactly 10 |
| Stats.HealthLabel | src/NuGetPulse.Web/Models/PackageStats.cs:22-28 | Each label is given exactly on its band: ≥ 80, 60–79, 40–59, below 40 |
| Stats.HealthBadgeClass | src/NuGetPulse.Web/Models/PackageStats.cs:30-36 | Each badge class is given exactly on the same bands |
| Stats.HealthBarClass | src/NuGetPulse.Web/Models/PackageStats.cs:38-44 | Each bar class is given exactly on the same bands |
| Stats.LabelsAgree | src/NuGetPulse.Web/Models/PackageStats.cs:22-44 | Two scores share a label iff they share a badge iff they share a bar class |
| Stats.MoreDownloadsPreorder | src/NuGetPulse.Web/Models/PackageStats.cs:55 | "At least as many downloads" is a total preorder |
| Stats.TopVersions | src/NuGetPulse.Web/Models/PackageStats.cs:54-55 | The top list has min(5, n) versions, in non-increasing downloads. Together with the versions left out it is a permutation of all versions, and none left out has more downloads than one listed |
| Stats.RecentVersions | src/NuGetPulse.Web/Models/PackageStats.cs:58-59 | The recent list is the last min(6, n) versions, in their original order |
| Osv.ParseSeverity | src/NuGetPulse.Security/OsvClient.cs:88-96 | Each level is returned iff the label equals its name ignoring case |
| Osv.ParseSeverityUnknown | src/NuGetPulse.Security/OsvClient.cs:88-96 | Unknown is returned iff there is no label or the label is none of the four names |
| Osv.FirstOrNull | src/NuGetPulse.Security/OsvClient.cs:79-82 | `FirstOrDefault` of a null or empty list is null, and otherwise the first element |
| Osv.SeveritySource | src/NuGetPulse.Security/OsvClient.cs:79 | A database-specific severity takes precedence over the first severity entry's score |
| Osv.MapVulnerability | src/NuGetPulse.Security/OsvClient.cs:74-85 | A null id or summary becomes empty, and null aliases become an empty list. The severity is parsed from its source, and the CVSS score is the first entry's. The reference URL is the first reference's, and null when there are no references or the first one is null. Details and dates are copied |
| Osv.MapVulnerabilities | src/NuGetPulse.Security/OsvClient.cs:70-86 | Null or empty input maps to no entries. Otherwise there is one entry per record, in order |
| Osv.MapVulnerabilitiesAppend | src/NuGetPulse.Security/OsvClient.cs:74-85 | Mapping distributes over concatenation, so record order is kept |
| NuGetService.MaxDownloads | src/NuGetPulse.Web/Services/NuGetService.cs:88 | The maximum is some version's download count and no version exceeds it |
| NuGetService.BarWidth | src/NuGetPulse.Web/Services/NuGetService.cs:91 | A width always fits in an `int`, whatever the overflow, and a version with no downloads gets 0. `BarWidthBounds` and `BarWidthOverflow` state the range |
| NuGetService.BarWidthBounds | src/NuGetPulse.Web/Services/NuGetService.cs:91 | Without overflow, a width is in [0, 100], and a version at the maximum gets 100 |
| NuGetService.BarWidthOverflow | src/NuGetPulse.Web/Services/NuGetService.cs:91 | A version at a maximum of 10^17 downloads overflows `long` and gets −84 |
| NuGetService.NormalizeBarWidths | src/NuGetPulse.Web/Services/NuGetService.cs:86-92 | Versions and download counts are kept. With a positive maximum each width is `downloads * 100 / max` in machine arithmetic. With no versions or a maximum ≤ 0 the list is unchanged |
| NuGetService.BarWidthsInRange | src/NuGetPulse.Web/Services/NuGetService.cs:86-92 | With non-negative counts and no overflow every width lies in [0, 100], and every version at the maximum gets 100 |
| NuGetService.NormalizeFramework | src/NuGetPulse.Web/Services/NuGetService.cs:142-153 | Null or empty gives "". The result is always lower case. An input not starting with `.net` comes back lower-cased and otherwise unchanged. A `.net` input becomes a name starting with `net` |
| NuGetService.NormalizeFrameworkRules | src/NuGetPulse.Web/Services/NuGetService.cs:145-151 | The first matching rule applies, in the order `.netcoreapp`, `.netstandard`, `.netframework`, `.net`. Its prefix becomes `netcoreapp`, `netstandard`, `net` or `net`, and every later occurrence of the prefix is replaced too |
| NuGetService.Rewrite | src/NuGetPulse.Web/Services/NuGetService.cs:147-150 | Each rewrite rule yields a lower-case result starting with `net` |
| NuGetService.NormalizeFrameworkIdempotent | src/NuGetPulse.Web/Services/NuGetService.cs:142-153 | Normalising a normalised moniker changes nothing |
| NuGetService.NormalizeReplacesEveryOccurrence | src/NuGetPulse.Web/Services/NuGetService.cs:150 | `Replace` rewrites every occurrence: `.NET.net` becomes `netnet` |
| NuGetService.NormalizeFrameworkExample | src/NuGetPulse.Web/Services/NuGetService.cs:149 | `.NETFramework4.5` becomes `net4.5` |
| NuGetService.NormalizedAll | src/NuGetPulse.Web/Services/NuGetService.cs:96 | Every dependency group's framework is normalised, in order |
| NuGetService.PipelineMembers | src/NuGetPulse.Web/Services/NuGetService.cs:95-100 | A name is listed iff it is non-empty and some group normalises to it |
| NuGetService.PipelineShape | src/NuGetPulse.Web/Services/NuGetService.cs:95-100 | The list has no duplicates, and is sorted under a total preorder |
| NuGetService.Frameworks | src/NuGetPulse.Web/Services/NuGetService.cs:95-100 | No groups give an empty list. Otherwise the list is exactly the non-empty normalised frameworks, each once, sorted under a total preorder |

## Left out

- File and directory enumeration, `File.Exists`, reading files and XML
  parsing are inputs. A file is `Missing`, `Malformed` or a parsed element
  list, and a directory is a `DirectoryListing`.
- XML namespaces: elements arrive already selected by name.
- `Directory.EnumerateFiles` with its `*.csproj`, `*.fsproj` and
  `packages.config` patterns is not modelled. The listing supplies the
  project and packages.config files in enumeration order.
- Cancellation, logging, async and concurrency are not modelled: they do not
  change results.
- HTTP and JSON plumbing, the DTO deserialisation, persistence, export, file
  storage, dependency injection, the web pages and their scripts are not part
  of this model.
- `FormattedDownloads`: floating-point formatting for display only.
- Floating point:
  - `TotalDays` and the month division are exact `real`s;
  - `Math.Round` of the composite health score is a parameter `round`;
  - `ComputeInRange` assumes only that `round` lands within half a unit.
- The clock `DateTime.UtcNow` is a parameter `now`. Timestamps in OSV
  records are opaque integers.
- `Path.GetFileName` and `string.GetHashCode` in project node ids are
  parameters of the graph builder; node-id uniqueness is not claimed.
- The scanner's paths use `/` as the only separator, and `Path.Combine` with
  an absolute second part is not modelled.
- The culture-sensitive `OrderBy(v => v)` is an abstract `le`.
  - GraphBuilder.ConflictForContents: sortedness of `Versions` is claimed only when `le` is a total preorder.
  - NuGetService.Frameworks: likewise for the framework list.
- The order of the graph's `Conflicts` dictionary is not modelled. It is a
  map keyed by package name; the insertion order in which the detection
  pass records conflicts is not kept.
- Case-insensitive comparison and `ToUpperInvariant`/`ToLowerInvariant` fold
  ASCII letters only. The culture-sensitive `StartsWith` in
  `NormalizeFramework` is ordinal.
- A null path, or a null element inside the vulnerability and alias lists
  or inside a package's `DependencyGroups`, cannot be expressed: those lists
  are sequences of values. On a null dependency group the source throws a
  `NullReferenceException` at NuGetService.cs:96; `NuGetService.Frameworks`
  has no such error path.
- Versions.TryParseInt32: `int.TryParse` reads the current culture's
  `NegativeSign` and `PositiveSign`; the model fixes them to `-` and `+`.
  Under a culture whose negative sign is U+2212 the source reads `−1` as -1,
  where the model gives 0.
- Versions.MaxIgnoreCase: strings are modelled as sequences of Unicode scalar
  values, not UTF-16 code units, so ordinal order is by code point. It
  differs from .NET's code-unit order only between a supplementary-plane
  character (a surrogate pair, whose first unit is U+D800–U+DBFF) and a
  character in U+E000–U+FFFF; on such versions the suggested version can
  differ. The same holds for the `Text.OrdinalLess` lemmas.
- Stats.TopVersions: the stable order of equal-download versions is not
  claimed; the contract states the count, the order and the selection.
- HealthScores.VulnerabilityScore: the contract alone gives only
  non-negativity. The exact value is stated by `VulnerabilityScoreExact` for
  counts up to 85,899,345, where `count * 25` does not overflow.
- NuGetService.BarWidthBounds: claimed only when `max * 100` fits in a
  `long`; `BarWidthOverflow` shows the result beyond that.
- The `||` split of the grouping key is modelled as written, with no
  precondition excluding names that contain `|`. `SplitKeyNameEndingInBar`
  shows the mis-split.

=== FILE: graph_builder.dfy ===
/**
 * `DependencyGraphBuilder.Build`: one package node per case-insensitively
 * distinct `name||version` key, one project node per case-insensitively
 * distinct project file, one direct edge per input reference, then (when
 * enabled) conflict detection over the per-name version sets.
 */
module GraphBuilder {
  import opened Wrappers
  import opened Text
  import opened Seqs
  import opened PackageModels
  import opened GraphModel
  import opened Versions

  /** Services of the runtime the builder calls and this model does not
      define: `Path.GetFileName`, the hexadecimal `string.GetHashCode()`
      (randomised per process) and the culture-sensitive default string
      order, given as "less than or equal". */
  datatype Platform = Platform(
    fileName: string -> string,
    hashHex: string -> string,
    cultureLe: (string, string) -> bool)

  // ---------------------------------------------------------------------------
  // Phase A: package nodes

  /** The grouping key `$"{PackageName}||{Version}"`. */
  function GroupKey(p: PackageReference): string {
    p.packageName + "||" + p.version
  }

  /** The grouping key as `OrdinalIgnoreCase` compares it. */
  function FoldedGroupKey(p: PackageReference): string {
    Upper(GroupKey(p))
  }

  /** One reference per group, the first of each, in order of first
      appearance (`GroupBy(...)` keeps the first element's key). */
  function Groups(facts: seq<PackageReference>): seq<PackageReference> {
    DistinctBy(facts, FoldedGroupKey)
  }

  /** Name and version read back from a group key with `Split("||", 2)`. */
  function SplitKey(key: string): (string, string) {
    var parts := SplitOnce(key, "||");
    (parts.0, parts.1.GetOr(""))
  }

  function NameOf(group: PackageReference): string {
    SplitKey(GroupKey(group)).0
  }

  function VersionOf(group: PackageReference): string {
    SplitKey(GroupKey(group)).1
  }

  /** The id of the package node for a name and version. */
  function PackageNodeId(name: string, version: string): string {
    name + "_" + version
  }

  /** The node of one group; it takes the casing and project file of the
      group's first reference. */
  function PackageNode(group: PackageReference): (n: DependencyNode)
    ensures n.nodeType == RootPackage && !n.hasConflict && n.conflictSeverity == 0
    ensures n.packageId == NameOf(group) && n.version == VersionOf(group)
    ensures n.id == PackageNodeId(n.packageId, n.version)
  {
    var name := NameOf(group);
    var version := VersionOf(group);
    DependencyNode(PackageNodeId(name, version), name, version, name + " " + version,
      RootPackage, Some(group.projectFile), false, 0)
  }

  function PackageNodes(groups: seq<PackageReference>): (ns: seq<DependencyNode>)
    ensures |ns| == |groups|
    ensures forall i :: 0 <= i < |ns| ==> ns[i] == PackageNode(groups[i])
  {
    seq(|groups|, i requires 0 <= i < |groups| => PackageNode(groups[i]))
  }

  // ---------------------------------------------------------------------------
  // Phase A: the per-name version sets

  /** `packageVersionMap`: package name (first-seen casing, compared
      case-insensitively) to its versions (an ordinal `HashSet`), in
      insertion order. */
  type VersionMap = seq<(string, seq<string>)>

  /** No two names of the map are equal ignoring case. */
  ghost predicate NamesDistinct(m: VersionMap) {
    forall i, j :: 0 <= i < j < |m| ==> !EqIgnoreCase(m[i].0, m[j].0)
  }

  /** The index of the entry whose name equals `name` ignoring case. */
  function IndexOfName(m: VersionMap, name: string): (r: Option<nat>)
    ensures r.Some? ==> r.value < |m| && EqIgnoreCase(m[r.value].0, name)
    ensures r.None? ==> forall i :: 0 <= i < |m| ==> !EqIgnoreCase(m[i].0, name)
    decreases |m|
  {
    if |m| == 0 then None
    else if EqIgnoreCase(m[0].0, name) then Some(0)
    else
      match IndexOfName(m[1..], name)
      case None => None
      case Some(i) => Some(i + 1)
  }

  /** Adds one version under a name: a name not yet present (ignoring case)
      gets a new entry in its own spelling, and a version already in the
      entry's set is not added twice. */
  function AddVersion(m: VersionMap, name: string, version: string): VersionMap {
    match IndexOfName(m, name)
    case None => m + [(name, [version])]
    case Some(i) =>
      var vs := m[i].1;
      m[i := (m[i].0, if version in vs then vs else vs + [version])]
  }

  /** The versions of the groups whose name equals `name` ignoring case. */
  ghost function VersionsNamed(groups: seq<PackageReference>, name: string): set<string> {
    set i | 0 <= i < |groups| && EqIgnoreCase(NameOf(groups[i]), name) :: VersionOf(groups[i])
  }

  /** The version map filled from the groups, in order. */
  function VersionMapOf(groups: seq<PackageReference>): (m: VersionMap)
    ensures NamesDistinct(m)
    ensures forall i :: 0 <= i < |m| ==> NoDuplicates(m[i].1)
    ensures forall i :: 0 <= i < |m| ==> (set v | v in m[i].1) == VersionsNamed(groups, m[i].0)
    ensures forall g :: 0 <= g < |groups| ==> IndexOfName(m, NameOf(groups[g])).Some?
    decreases |groups|
  {
    if |groups| == 0 then []
    else
      var init := groups[..|groups| - 1];
      var last := groups[|groups| - 1];
      var m0 := VersionMapOf(init);
      assert groups == init + [last];
      VersionMapStep(init, last, m0);
      AddVersion(m0, NameOf(last), VersionOf(last))
  }

  lemma VersionsNamedAppend(init: seq<PackageReference>, last: PackageReference, name: string)
    ensures VersionsNamed(init + [last], name)
      == VersionsNamed(init, name) + (if EqIgnoreCase(NameOf(last), name) then {VersionOf(last)} else {})
  {
    var gs := init + [last];
    forall v | v in VersionsNamed(gs, name)
      ensures v in VersionsNamed(init, name) + (if EqIgnoreCase(NameOf(last), name) then {VersionOf(last)} else {})
    {
      var i :| 0 <= i < |gs| && EqIgnoreCase(NameOf(gs[i]), name) && VersionOf(gs[i]) == v;
      if i < |init| { assert gs[i] == init[i]; }
    }
    forall v | v in VersionsNamed(init, name) ensures v in VersionsNamed(gs, name) {
      var i :| 0 <= i < |init| && EqIgnoreCase(NameOf(init[i]), name) && VersionOf(init[i]) == v;
      assert gs[i] == init[i];
    }
    assert gs[|init|] == last;
  }

  lemma VersionMapStep(init: seq<PackageReference>, last: PackageReference, m0: VersionMap)
    requires NamesDistinct(m0)
    requires forall i :: 0 <= i < |m0| ==> NoDuplicates(m0[i].1)
    requires forall i :: 0 <= i < |m0| ==> (set v | v in m0[i].1) == VersionsNamed(init, m0[i].0)
    requires forall g :: 0 <= g < |init| ==> IndexOfName(m0, NameOf(init[g])).Some?
    ensures var m := AddVersion(m0, NameOf(last), VersionOf(last));
      && NamesDistinct(m)
      && (forall i :: 0 <= i < |m| ==> NoDuplicates(m[i].1))
      && (forall i :: 0 <= i < |m| ==> (set v | v in m[i].1) == VersionsNamed(init + [last], m[i].0))
      && (forall g :: 0 <= g < |init + [last]| ==> IndexOfName(m, NameOf((init + [last])[g])).Some?)
  {
    AddVersionDistinct(m0, NameOf(last), VersionOf(last));
    AddVersionContents(init, last, m0);
    AddVersionIndexes(init, last, m0);
  }

  /** Adding a version keeps names distinct and version lists free of
      duplicates. */
  lemma AddVersionDistinct(m0: VersionMap, name: string, version: string)
    requires NamesDistinct(m0)
    requires forall i :: 0 <= i < |m0| ==> NoDuplicates(m0[i].1)
    ensures NamesDistinct(AddVersion(m0, name, version))
    ensures forall i :: 0 <= i < |AddVersion(m0, name, version)| ==> NoDuplicates(AddVersion(m0, name, version)[i].1)
  {
    var m := AddVersion(m0, name, version);
    match IndexOfName(m0, name) {
      case None =>
        assert forall i :: 0 <= i < |m0| ==> m[i] == m0[i];
        assert m[|m0|] == (name, [version]);
      case Some(k) =>
        assert forall i :: 0 <= i < |m| ==> m[i].0 == m0[i].0;
        assert forall i :: 0 <= i < |m| && i != k ==> m[i] == m0[i];
        var vs := m0[k].1;
        if version !in vs {
          assert m[k].1 == vs + [version];
          assert forall i :: 0 <= i < |vs| ==> m[k].1[i] == vs[i] != version;
        }
    }
  }

  /** After adding the version of `last`, each entry lists exactly the
      versions of the groups named like it. */
  lemma AddVersionContents(init: seq<PackageReference>, last: PackageReference, m0: VersionMap)
    requires NamesDistinct(m0)
    requires forall i :: 0 <= i < |m0| ==> (set v | v in m0[i].1) == VersionsNamed(init, m0[i].0)
    requires forall g :: 0 <= g < |init| ==> IndexOfName(m0, NameOf(init[g])).Some?
    ensures var m := AddVersion(m0, NameOf(last), VersionOf(last));
      forall i :: 0 <= i < |m| ==> (set v | v in m[i].1) == VersionsNamed(init + [last], m[i].0)
  {
    var m := AddVersion(m0, NameOf(last), VersionOf(last));
    forall i | 0 <= i < |m| ensures (set v | v in m[i].1) == VersionsNamed(init + [last], m[i].0) {
      AddVersionEntry(init, last, m0, i);
    }
  }

  /** One entry of the map after adding the version of `last`. */
  lemma AddVersionEntry(init: seq<PackageReference>, last: PackageReference, m0: VersionMap, i: nat)
    requires NamesDistinct(m0)
    requires forall i :: 0 <= i < |m0| ==> (set v | v in m0[i].1) == VersionsNamed(init, m0[i].0)
    requires forall g :: 0 <= g < |init| ==> IndexOfName(m0, NameOf(init[g])).Some?
    requires i < |AddVersion(m0, NameOf(last), VersionOf(last))|
    ensures var m := AddVersion(m0, NameOf(last), VersionOf(last));
      (set v | v in m[i].1) == VersionsNamed(init + [last], m[i].0)
  {
    var name := NameOf(last);
    var version := VersionOf(last);
    var m := AddVersion(m0, name, version);
    VersionsNamedAppend(init, last, m[i].0);
    match IndexOfName(m0, name) {
      case None =>
        if i == |m0| {
          assert m[i] == (name, [version]);
          assert VersionsNamed(init, name) == {} by {
            forall g | 0 <= g < |init| ensures !EqIgnoreCase(NameOf(init[g]), name) {
              var k := IndexOfName(m0, NameOf(init[g])).value;
              assert EqIgnoreCase(m0[k].0, NameOf(init[g]));
            }
          }
        } else {
          assert m[i] == m0[i];
          assert !EqIgnoreCase(m0[i].0, name);
        }
      case Some(k) =>
        if i != k {
          assert m[i] == m0[i];
          assert !EqIgnoreCase(m0[i].0, m0[k].0);
        }
    }
  }

  /** `key` is the name of some group, spelled as the first group whose
      name equals it ignoring case spells it. */
  ghost predicate FirstSpelling(groups: seq<PackageReference>, key: string) {
    exists g :: 0 <= g < |groups| && key == NameOf(groups[g])
      && forall h :: 0 <= h < g ==> !EqIgnoreCase(NameOf(groups[h]), key)
  }

  /** Every entry of the version map is keyed by the first-seen spelling of
      a group name and lists at least one version: the map holds no entry
      that no group put there. */
  lemma {:induction false} VersionMapKeys(groups: seq<PackageReference>)
    ensures forall i :: 0 <= i < |VersionMapOf(groups)| ==>
      |VersionMapOf(groups)[i].1| > 0 && FirstSpelling(groups, VersionMapOf(groups)[i].0)
    decreases |groups|
  {
    if |groups| > 0 {
      var init := groups[..|groups| - 1];
      var last := groups[|groups| - 1];
      assert groups == init + [last];
      var m0 := VersionMapOf(init);
      VersionMapKeys(init);
      var m := VersionMapOf(groups);
      assert m == AddVersion(m0, NameOf(last), VersionOf(last));
      forall i | 0 <= i < |m| ensures |m[i].1| > 0 && FirstSpelling(groups, m[i].0) {
        AddVersionKey(init, last, m0, i);
      }
    }
  }

  /** One entry of the map after adding the version of `last` keeps a
      first-seen key and a non-empty version list. */
  lemma AddVersionKey(init: seq<PackageReference>, last: PackageReference, m0: VersionMap, i: nat)
    requires forall j :: 0 <= j < |m0| ==> |m0[j].1| > 0 && FirstSpelling(init, m0[j].0)
    requires forall g :: 0 <= g < |init| ==> IndexOfName(m0, NameOf(init[g])).Some?
    requires i < |AddVersion(m0, NameOf(last), VersionOf(last))|
    ensures var m := AddVersion(m0, NameOf(last), VersionOf(last));
      |m[i].1| > 0 && FirstSpelling(init + [last], m[i].0)
  {
    AddVersionShape(m0, NameOf(last), VersionOf(last), i);
    if i < |m0| {
      FirstSpellingExtends(init, last, m0[i].0);
    } else {
      FirstSpellingNew(init, last, m0);
    }
  }

  /** Adding a version renames no entry and shortens no version list; an
      entry it appends holds the name and the one version. */
  lemma AddVersionShape(m0: VersionMap, name: string, version: string, i: nat)
    requires i < |AddVersion(m0, name, version)|
    ensures var m := AddVersion(m0, name, version);
      && (i < |m0| ==> m[i].0 == m0[i].0 && |m[i].1| >= |m0[i].1|)
      && (i >= |m0| ==> i == |m0| && IndexOfName(m0, name).None? && m[i] == (name, [version]))
  {
  }

  /** A name the map does not hold yet is spelled by no earlier group, so
      `last` spells it first. */
  lemma FirstSpellingNew(init: seq<PackageReference>, last: PackageReference, m0: VersionMap)
    requires forall g :: 0 <= g < |init| ==> IndexOfName(m0, NameOf(init[g])).Some?
    requires IndexOfName(m0, NameOf(last)).None?
    ensures FirstSpelling(init + [last], NameOf(last))
  {
    var gs := init + [last];
    var name := NameOf(last);
    forall h | 0 <= h < |init| ensures !EqIgnoreCase(NameOf(gs[h]), name) {
      assert gs[h] == init[h];
      var k := IndexOfName(m0, NameOf(init[h])).value;
      assert EqIgnoreCase(m0[k].0, NameOf(init[h]));
    }
    assert gs[|init|] == last;
  }

  /** A first-seen spelling stays first-seen when a group is appended. */
  lemma FirstSpellingExtends(init: seq<PackageReference>, last: PackageReference, key: string)
    requires FirstSpelling(init, key)
    ensures FirstSpelling(init + [last], key)
  {
    var gs := init + [last];
    var g :| 0 <= g < |init| && key == NameOf(init[g])
      && forall h :: 0 <= h < g ==> !EqIgnoreCase(NameOf(init[h]), key);
    assert gs[g] == init[g];
    assert forall h :: 0 <= h < g ==> gs[h] == init[h];
  }

  /** After adding the version of `last`, every group so far, `last`
      included, has an entry. */
  lemma AddVersionIndexes(init: seq<PackageReference>, last: PackageReference, m0: VersionMap)
    requires forall g :: 0 <= g < |init| ==> IndexOfName(m0, NameOf(init[g])).Some?
    ensures var m := AddVersion(m0, NameOf(last), VersionOf(last));
      forall g :: 0 <= g < |init + [last]| ==> IndexOfName(m, NameOf((init + [last])[g])).Some?
  {
    var name := NameOf(last);
    var m := AddVersion(m0, name, VersionOf(last));
    var gs := init + [last];
    forall g | 0 <= g < |gs| ensures IndexOfName(m, NameOf(gs[g])).Some? {
      if g < |init| {
        assert gs[g] == init[g];
        var k := IndexOfName(m0, NameOf(init[g])).value;
        assert m[k].0 == m0[k].0;
      } else {
        assert gs[g] == last;
        match IndexOfName(m0, name) {
          case None => assert m[|m0|].0 == name;
          case Some(k) => assert m[k].0 == m0[k].0;
        }
      }
    }
  }

  // ---------------------------------------------------------------------------
  // Phase A: project nodes and direct edges

  /** A project file as `OrdinalIgnoreCase` compares it. */
  function FoldedFile(p: PackageReference): string {
    Upper(p.projectFile)
  }

  /** The project files of the references, each file once ignoring case, in
      the spelling and at the position of its first appearance. */
  function ProjectFiles(facts: seq<PackageReference>): (files: seq<string>)
    ensures |files| == |DistinctBy(facts, FoldedFile)|
    ensures forall i :: 0 <= i < |files| ==> files[i] == DistinctBy(facts, FoldedFile)[i].projectFile
  {
    var reps := DistinctBy(facts, FoldedFile);
    seq(|reps|, i requires 0 <= i < |reps| => reps[i].projectFile)
  }

  /** The first-seen spelling of the project file of `p`: the file whose
      project node the edge of `p` leaves from. */
  function RepresentativeFile(facts: seq<PackageReference>, p: PackageReference): string
    requires p in facts
  {
    assert FoldedFile(p) in KeySet(facts, FoldedFile) by {
      var i :| 0 <= i < |facts| && facts[i] == p;
    }
    facts[FirstIndex(facts, FoldedFile, FoldedFile(p))].projectFile
  }

  function ProjectNodeId(env: Platform, file: string): string {
    "project_" + env.fileName(file) + "_" + env.hashHex(file)
  }

  /** The node of one project file; it is typed `RootPackage` as well. */
  function ProjectNode(env: Platform, file: string): (n: DependencyNode)
    ensures n.nodeType == RootPackage && !n.hasConflict && n.conflictSeverity == 0
    ensures n.id == ProjectNodeId(env, file) && n.version == ""
  {
    DependencyNode(ProjectNodeId(env, file), env.fileName(file), "", env.fileName(file),
      RootPackage, Some(file), false, 0)
  }

  function ProjectNodes(env: Platform, files: seq<string>): (ns: seq<DependencyNode>)
    ensures |ns| == |files|
    ensures forall i :: 0 <= i < |ns| ==> ns[i] == ProjectNode(env, files[i])
  {
    seq(|files|, i requires 0 <= i < |files| => ProjectNode(env, files[i]))
  }

  /** The `Direct` edge a reference contributes, leaving the node `source`
      and entering the id spelled from the reference's own casing. */
  function DirectEdge(source: string, p: PackageReference): (e: DependencyEdge)
    ensures e.source == source && e.target == PackageNodeId(p.packageName, p.version)
    ensures e.edgeType == Direct && !e.isConflict
  {
    var target := PackageNodeId(p.packageName, p.version);
    DependencyEdge(source + "_to_" + target, source, target, Direct, false)
  }

  predicate SameFile(p: PackageReference, file: string) {
    EqIgnoreCase(p.projectFile, file)
  }

  /** Number of references whose project file equals `file` ignoring case. */
  function FileCount(facts: seq<PackageReference>, file: string): nat
    decreases |facts|
  {
    if |facts| == 0 then 0
    else (if SameFile(facts[0], file) then 1 else 0) + FileCount(facts[1..], file)
  }

  /** The edges of one project node: one per reference in that file, in input
      order, duplicates included. */
  function ProjectEdges(source: string, facts: seq<PackageReference>, file: string): (es: seq<DependencyEdge>)
    ensures |es| == FileCount(facts, file)
    ensures forall e :: e in es ==> exists p :: p in facts && SameFile(p, file) && e == DirectEdge(source, p)
    ensures forall p :: p in facts && SameFile(p, file) ==> DirectEdge(source, p) in es
    decreases |facts|
  {
    if |facts| == 0 then []
    else
      var rest := ProjectEdges(source, facts[1..], file);
      assert forall p :: p in facts ==> p == facts[0] || p in facts[1..];
      (if SameFile(facts[0], file) then [DirectEdge(source, facts[0])] else []) + rest
  }

  /** The direct edges of all project nodes, project by project. */
  function DirectEdges(env: Platform, facts: seq<PackageReference>, files: seq<string>): (es: seq<DependencyEdge>)
    ensures forall e :: e in es ==> exists k :: (0 <= k < |files|
      && e in ProjectEdges(ProjectNodeId(env, files[k]), facts, files[k]))
    ensures forall k :: 0 <= k < |files| ==>
      forall e :: e in ProjectEdges(ProjectNodeId(env, files[k]), facts, files[k]) ==> e in es
    decreases |files|
  {
    if |files| == 0 then []
    else ProjectEdges(ProjectNodeId(env, files[0]), facts, files[0]) + DirectEdges(env, facts, files[1..])
  }

  /** The graph before conflict detection. */
  function PhaseA(facts: seq<PackageReference>, env: Platform): (g: DependencyGraph)
    ensures forall i :: 0 <= i < |g.nodes| ==>
      g.nodes[i].nodeType == RootPackage && !g.nodes[i].hasConflict && g.nodes[i].conflictSeverity == 0
    ensures forall e :: e in g.edges ==> e.edgeType == Direct && !e.isConflict
    ensures g.conflicts == map[]
  {
    var files := ProjectFiles(facts);
    DependencyGraph(
      PackageNodes(Groups(facts)) + ProjectNodes(env, files),
      DirectEdges(env, facts, files),
      map[])
  }

  // ---------------------------------------------------------------------------
  // Phase B: conflicts

  /** A node is swept into the conflict of `name` when it is typed
      `RootPackage` and its package id equals `name` ignoring case. */
  predicate Matches(n: DependencyNode, name: string) {
    EqIgnoreCase(n.packageId, name) && n.nodeType == RootPackage
  }

  /** The ids of the nodes matching `name`, in node order. */
  function MatchingIds(ns: seq<DependencyNode>, name: string): (ids: seq<string>)
    ensures |ids| <= |ns|
    decreases |ns|
  {
    if |ns| == 0 then []
    else (if Matches(ns[0], name) then [ns[0].id] else []) + MatchingIds(ns[1..], name)
  }

  /** The number of nodes among the first `hi` that match `name`. */
  ghost function MatchCount(ns: seq<DependencyNode>, name: string, hi: nat): nat
    requires hi <= |ns|
    decreases hi
  {
    if hi == 0 then 0
    else MatchCount(ns, name, hi - 1) + (if Matches(ns[hi - 1], name) then 1 else 0)
  }

  lemma {:induction false} MatchCountMonotone(ns: seq<DependencyNode>, name: string, a: nat, b: nat)
    requires a <= b <= |ns|
    ensures MatchCount(ns, name, a) <= MatchCount(ns, name, b)
    ensures a < b && Matches(ns[a], name) ==> MatchCount(ns, name, a) < MatchCount(ns, name, b)
    decreases b - a
  {
    if a < b {
      MatchCountMonotone(ns, name, a, b - 1);
    }
  }

  /** The `r`-th id of `MatchingIds` comes from a matching node with exactly
      `r` matching nodes before it. */
  ghost predicate IdSupplied(ns: seq<DependencyNode>, name: string, r: int) {
    0 <= r < |MatchingIds(ns, name)|
    && exists i :: (0 <= i < |ns| && Matches(ns[i], name) && MatchCount(ns, name, i) == r
                    && ns[i].id == MatchingIds(ns, name)[r])
  }

  /** `MatchingIds` lists one id per matching node, in node order: the
      matching node with `r` matching nodes before it supplies the `r`-th
      id. */
  lemma MatchingIdsCount(ns: seq<DependencyNode>, name: string)
    ensures |MatchingIds(ns, name)| == MatchCount(ns, name, |ns|)
    ensures forall i :: 0 <= i < |ns| && Matches(ns[i], name) ==>
      MatchCount(ns, name, i) < |MatchingIds(ns, name)|
      && MatchingIds(ns, name)[MatchCount(ns, name, i)] == ns[i].id
  {
    var ids := MatchingIds(ns, name);
    assert ns[0..] == ns;
    MatchingIdsFromLength(ns, name, 0);
    forall i | 0 <= i < |ns| && Matches(ns[i], name)
      ensures MatchCount(ns, name, i) < |ids| && ids[MatchCount(ns, name, i)] == ns[i].id
    {
      MatchingIdsFromAt(ns, name, 0, i);
    }
  }

  /** Every id of `MatchingIds` is supplied by a matching node, so the list
      holds nothing else. */
  lemma MatchingIdsSupplied(ns: seq<DependencyNode>, name: string)
    ensures forall r :: 0 <= r < |MatchingIds(ns, name)| ==> IdSupplied(ns, name, r)
  {
    assert ns[0..] == ns;
    assert MatchCount(ns, name, 0) == 0;
    forall r | 0 <= r < |MatchingIds(ns, name)| ensures IdSupplied(ns, name, r) {
      var i := MatchingIdsSource(ns, name, 0, r);
    }
  }

  /** Two or more ids exactly when two or more nodes match: the condition
      under which a name is recorded as a conflict. */
  lemma MatchingIdsTwo(ns: seq<DependencyNode>, name: string)
    ensures |MatchingIds(ns, name)| > 1 <==>
      exists i, j :: 0 <= i < j < |ns| && Matches(ns[i], name) && Matches(ns[j], name)
  {
    var ids := MatchingIds(ns, name);
    assert ns[0..] == ns;
    MatchingIdsFromLength(ns, name, 0);
    if |ids| > 1 {
      var i0 := MatchingIdsSource(ns, name, 0, 0);
      var i1 := MatchingIdsSource(ns, name, 0, 1);
      if i1 < i0 {
        MatchCountMonotone(ns, name, i1, i0);
        assert false;
      }
      assert i0 != i1;
      assert 0 <= i0 < i1 < |ns| && Matches(ns[i0], name) && Matches(ns[i1], name);
    }
    if exists i, j :: 0 <= i < j < |ns| && Matches(ns[i], name) && Matches(ns[j], name) {
      var i, j :| 0 <= i < j < |ns| && Matches(ns[i], name) && Matches(ns[j], name);
      MatchCountMonotone(ns, name, i, j);
      MatchingIdsFromAt(ns, name, 0, j);
      assert MatchCount(ns, name, 0) == 0;
    }
  }

  /** The number of ids from the suffix at `k` is the number of matching
      nodes there. */
  lemma {:induction false} MatchingIdsFromLength(ns: seq<DependencyNode>, name: string, k: nat)
    requires k <= |ns|
    ensures |MatchingIds(ns[k..], name)| == MatchCount(ns, name, |ns|) - MatchCount(ns, name, k)
    decreases |ns| - k
  {
    if k < |ns| {
      MatchingIdsFromLength(ns, name, k + 1);
      assert ns[k..][1..] == ns[k + 1..];
    }
  }

  /** A matching node at or after `k` supplies the id at its rank counted
      from `k`. */
  lemma {:induction false} MatchingIdsFromAt(ns: seq<DependencyNode>, name: string, k: nat, i: nat)
    requires k <= i < |ns| && Matches(ns[i], name)
    ensures MatchCount(ns, name, k) <= MatchCount(ns, name, i)
      < MatchCount(ns, name, k) + |MatchingIds(ns[k..], name)|
    ensures MatchingIds(ns[k..], name)[MatchCount(ns, name, i) - MatchCount(ns, name, k)] == ns[i].id
    decreases i - k
  {
    assert ns[k..][1..] == ns[k + 1..];
    if k < i {
      MatchingIdsFromAt(ns, name, k + 1, i);
    }
  }

  /** The node supplying the `r`-th id from the suffix at `k`. */
  lemma {:induction false} MatchingIdsSource(ns: seq<DependencyNode>, name: string, k: nat, r: nat) returns (i: nat)
    requires k <= |ns| && r < |MatchingIds(ns[k..], name)|
    ensures k <= i < |ns| && Matches(ns[i], name)
    ensures MatchCount(ns, name, i) == MatchCount(ns, name, k) + r && ns[i].id == MatchingIds(ns[k..], name)[r]
    decreases |ns| - k
  {
    assert ns[k..][1..] == ns[k + 1..];
    var hit := Matches(ns[k], name);
    assert MatchCount(ns, name, k + 1) == MatchCount(ns, name, k) + (if hit then 1 else 0);
    if hit && r == 0 {
      i := k;
    } else {
      i := MatchingIdsSource(ns, name, k + 1, if hit then r - 1 else r);
    }
  }

  /** The node with its conflict flags set. */
  function Marked(n: DependencyNode, severity: int): DependencyNode {
    n.(hasConflict := true, conflictSeverity := severity)
  }

  /** Sets the conflict flags of every node matching `name`. */
  function MarkConflict(ns: seq<DependencyNode>, name: string, severity: int): (r: seq<DependencyNode>)
    ensures |r| == |ns|
    ensures forall i :: 0 <= i < |ns| ==>
      r[i] == if Matches(ns[i], name) then Marked(ns[i], severity) else ns[i]
  {
    seq(|ns|, i requires 0 <= i < |ns| => if Matches(ns[i], name) then Marked(ns[i], severity) else ns[i])
  }

  function ConflictEdge(a: string, b: string): (e: DependencyEdge)
    ensures e.source == a && e.target == b && e.edgeType == Conflict && e.isConflict
  {
    DependencyEdge("conflict_" + a + "_to_" + b, a, b, Conflict, true)
  }

  /** The conflict edges from `a` to every later node. */
  function RowEdges(a: string, rest: seq<string>): (es: seq<DependencyEdge>)
    ensures |es| == |rest|
    ensures forall j :: 0 <= j < |rest| ==> es[j] == ConflictEdge(a, rest[j])
  {
    seq(|rest|, j requires 0 <= j < |rest| => ConflictEdge(a, rest[j]))
  }

  /** The two nested loops: a conflict edge for every pair `i < j`. */
  function PairEdges(ids: seq<string>): (es: seq<DependencyEdge>)
    ensures 2 * |es| == |ids| * (|ids| - 1)
    ensures forall e :: e in es ==> e.edgeType == Conflict && e.isConflict
    ensures forall i, j :: 0 <= i < j < |ids| ==> ConflictEdge(ids[i], ids[j]) in es
    decreases |ids|
  {
    if |ids| == 0 then []
    else
      var row := RowEdges(ids[0], ids[1..]);
      var rest := PairEdges(ids[1..]);
      var k := |ids|;
      assert 2 * (k - 1) + (k - 1) * (k - 2) == k * (k - 1);
      forall i, j | 0 <= i < j < k ensures ConflictEdge(ids[i], ids[j]) in row + rest {
        if i == 0 {
          assert row[j - 1] == ConflictEdge(ids[0], ids[j]);
        } else {
          assert ids[i] == ids[1..][i - 1] && ids[j] == ids[1..][j - 1];
        }
      }
      row + rest
  }

  /** The conflict entry recorded for a name whose matching node ids are
      `ids`. */
  function ConflictFor(name: string, versions: seq<string>, ids: seq<string>, env: Platform): ConflictInfo
    requires |versions| > 1
  {
    ConflictInfo(name, SortBy(versions, env.cultureLe), ids, CalculateSeverity(versions),
      Some(MaxIgnoreCase(versions)))
  }

  /** A conflict entry names its package and matching nodes, carries a
      severity between 1 and 3, the versions reordered, and a suggested
      version that is one of them and no smaller than any ignoring case;
      under a total order the versions are sorted. */
  lemma ConflictForContents(name: string, versions: seq<string>, ids: seq<string>, env: Platform)
    requires |versions| > 1
    ensures var c := ConflictFor(name, versions, ids, env);
      && c.packageId == name && c.nodeIds == ids
      && c.severity in {1, 2, 3} && c.severity == CalculateSeverity(versions)
      && multiset(c.versions) == multiset(versions)
      && c.suggestedVersion.Some? && c.suggestedVersion.value in versions
      && (forall v :: v in versions ==> !LessIgnoreCase(c.suggestedVersion.value, v))
      && (Seqs.Total(env.cultureLe) && Seqs.Transitive(env.cultureLe) ==> SortedBy(c.versions, env.cultureLe))
  {
    if Seqs.Total(env.cultureLe) && Seqs.Transitive(env.cultureLe) {
      SortBySorted(versions, env.cultureLe);
    }
  }

  /** Whether the loop body records a conflict for this entry. */
  predicate Records(ns: seq<DependencyNode>, entry: (string, seq<string>)) {
    |entry.1| > 1 && |MatchingIds(ns, entry.0)| > 1
  }

  /** One iteration of the conflict loop, for one version-map entry. */
  function DetectOne(g: DependencyGraph, entry: (string, seq<string>), env: Platform): (r: DependencyGraph)
    ensures !Records(g.nodes, entry) ==> r == g
    ensures Records(g.nodes, entry) ==>
      var ids := MatchingIds(g.nodes, entry.0);
      && r.nodes == MarkConflict(g.nodes, entry.0, CalculateSeverity(entry.1))
      && r.edges == g.edges + PairEdges(ids)
      && r.conflicts == g.conflicts[entry.0 := ConflictFor(entry.0, entry.1, ids, env)]
  {
    var (name, versions) := entry;
    if |versions| <= 1 then g
    else
      var ids := MatchingIds(g.nodes, name);
      if |ids| <= 1 then g
      else
        var severity := CalculateSeverity(versions);
        DependencyGraph(
          MarkConflict(g.nodes, name, severity),
          g.edges + PairEdges(ids),
          g.conflicts[name := ConflictFor(name, versions, ids, env)])
  }

  /** `DetectConflicts`: the loop body applied to every entry, in order. */
  function DetectConflicts(g: DependencyGraph, m: VersionMap, env: Platform): DependencyGraph
    decreases |m|
  {
    if |m| == 0 then g else DetectConflicts(DetectOne(g, m[0], env), m[1..], env)
  }

  /** `Build(packages, options)`; a null `options` means the defaults. */
  function Build(facts: seq<PackageReference>, options: Option<DependencyGraphOptions>, env: Platform): DependencyGraph {
    var opts := options.GetOr(DefaultOptions());
    var g := PhaseA(facts, env);
    if opts.highlightConflicts then DetectConflicts(g, VersionMapOf(Groups(facts)), env) else g
  }
}

=== FILE: graph_model.dfy ===
/** The dependency graph value: nodes, edges, detected version conflicts and
    the derived counts, plus the builder's options. */
module GraphModel {
  import opened Wrappers
  import Seqs

  datatype NodeType = RootPackage | DirectDependency | TransitiveDependency | ConflictNode

  datatype EdgeType = Direct | Transitive | Conflict

  /** A graph node. `hasConflict` and `conflictSeverity` are the two fields the
      builder sets after creating the node; icon, download count and
      verification flag are never set by the builder and are omitted. */
  datatype DependencyNode = DependencyNode(
    id: string,
    packageId: string,
    version: string,
    nodeLabel: string,
    nodeType: NodeType,
    projectFile: Option<string>,
    hasConflict: bool,
    conflictSeverity: int)

  /** A graph edge; the version range is never set by the builder and is
      omitted. */
  datatype DependencyEdge = DependencyEdge(
    id: string,
    source: string,
    target: string,
    edgeType: EdgeType,
    isConflict: bool)

  /** One package referenced at several versions. Severity: 1 = patch,
      2 = minor, 3 = major. */
  datatype ConflictInfo = ConflictInfo(
    packageId: string,
    versions: seq<string>,
    nodeIds: seq<string>,
    severity: int,
    suggestedVersion: Option<string>)

  /** The graph. Conflicts are keyed by package name with the dictionary's
      default (ordinal, case-sensitive) key comparison. */
  datatype DependencyGraph = DependencyGraph(
    nodes: seq<DependencyNode>,
    edges: seq<DependencyEdge>,
    conflicts: map<string, ConflictInfo>)

  /** Builder options; `highlightConflicts` is on unless switched off. */
  datatype DependencyGraphOptions = DependencyGraphOptions(highlightConflicts: bool)

  /** The options a `new DependencyGraphOptions()` has. */
  function DefaultOptions(): (o: DependencyGraphOptions)
    ensures o.highlightConflicts
  {
    DependencyGraphOptions(true)
  }

  function EmptyGraph(): DependencyGraph {
    DependencyGraph([], [], map[])
  }

  function NodeCount(g: DependencyGraph): nat {
    |g.nodes|
  }

  function EdgeCount(g: DependencyGraph): nat {
    |g.edges|
  }

  function ConflictCount(g: DependencyGraph): nat {
    |g.conflicts|
  }

  predicate IsRootPackage(n: DependencyNode) {
    n.nodeType == RootPackage
  }

  /** Number of nodes typed `RootPackage`. */
  function RootPackageCount(g: DependencyGraph): (k: nat)
    ensures k <= NodeCount(g)
    ensures k == NodeCount(g) <==> forall i :: 0 <= i < |g.nodes| ==> IsRootPackage(g.nodes[i])
  {
    RootCountAll(g.nodes);
    Seqs.CountWhere(g.nodes, IsRootPackage)
  }

  lemma {:induction false} RootCountAll(ns: seq<DependencyNode>)
    ensures Seqs.CountWhere(ns, IsRootPackage) == |ns|
        <==> forall i :: 0 <= i < |ns| ==> IsRootPackage(ns[i])
    decreases |ns|
  {
    if |ns| > 0 {
      RootCountAll(ns[1..]);
      if !IsRootPackage(ns[0]) {
        assert Seqs.CountWhere(ns[1..], IsRootPackage) <= |ns[1..]|;
      } else {
        assert forall i :: 1 <= i < |ns| ==> ns[i] == ns[1..][i - 1];
      }
    }
  }

  /** The label shown for a conflict's severity. */
  function SeverityLabel(severity: int): (text: string)
    ensures severity == 3 <==> text == "High"
    ensures severity == 2 <==> text == "Medium"
    ensures severity == 1 <==> text == "Low"
    ensures severity !in {1, 2, 3} <==> text == "Unknown"
  {
    match severity
    case 3 => "High"
    case 2 => "Medium"
    case 1 => "Low"
    case _ => "Unknown"
  }
}

=== FILE: graph_properties.dfy ===
/**
 * What `DependencyGraphBuilder.Build` guarantees: how many nodes and direct
 * edges it creates and which ones, what the conflict pass changes, and for
 * which package names it records a conflict.
 */
module GraphProperties {
  import opened Wrappers
  import opened Text
  import opened Seqs
  import opened PackageModels
  import opened GraphModel
  import opened Versions
  import opened GraphBuilder

  // ---------------------------------------------------------------------------
  // The conflict pass keeps everything but the conflict flags

  /** A node with its conflict flags cleared: what marking cannot change. */
  function Shape(n: DependencyNode): DependencyNode {
    n.(hasConflict := false, conflictSeverity := 0)
  }

  ghost predicate SameShape(a: seq<DependencyNode>, b: seq<DependencyNode>) {
    |a| == |b| && forall i :: 0 <= i < |a| ==> Shape(a[i]) == Shape(b[i])
  }

  /** Which nodes match a name does not depend on their conflict flags. */
  lemma {:induction false} MatchingIdsShape(a: seq<DependencyNode>, b: seq<DependencyNode>, name: string)
    requires SameShape(a, b)
    ensures MatchingIds(a, name) == MatchingIds(b, name)
    decreases |a|
  {
    if |a| > 0 {
      assert Shape(a[0]) == Shape(b[0]);
      assert SameShape(a[1..], b[1..]) by {
        forall i | 0 <= i < |a| - 1 ensures Shape(a[1..][i]) == Shape(b[1..][i]) {
          assert Shape(a[i + 1]) == Shape(b[i + 1]);
        }
      }
      MatchingIdsShape(a[1..], b[1..], name);
    }
  }

  /** One loop iteration changes only conflict flags of nodes, so it leaves
      every name's matching nodes as they were. */
  lemma DetectOneShape(g: DependencyGraph, entry: (string, seq<string>), env: Platform)
    ensures SameShape(DetectOne(g, entry, env).nodes, g.nodes)
    ensures forall name :: MatchingIds(DetectOne(g, entry, env).nodes, name) == MatchingIds(g.nodes, name)
  {
    var r := DetectOne(g, entry, env);
    assert SameShape(r.nodes, g.nodes);
    forall name ensures MatchingIds(r.nodes, name) == MatchingIds(g.nodes, name) {
      MatchingIdsShape(r.nodes, g.nodes, name);
    }
  }

  /** The conflict pass keeps the number of nodes and everything about them
      except the conflict flags. */
  lemma {:induction false} DetectShape(g: DependencyGraph, m: VersionMap, env: Platform)
    ensures SameShape(DetectConflicts(g, m, env).nodes, g.nodes)
    ensures forall name :: MatchingIds(DetectConflicts(g, m, env).nodes, name) == MatchingIds(g.nodes, name)
    decreases |m|
  {
    if |m| > 0 {
      var g1 := DetectOne(g, m[0], env);
      DetectOneShape(g, m[0], env);
      DetectShape(g1, m[1..], env);
    }
  }

  /** `b` is `a` followed by conflict edges only. */
  ghost predicate ConflictTail(a: seq<DependencyEdge>, b: seq<DependencyEdge>) {
    |a| <= |b| && b[..|a|] == a
    && forall j :: |a| <= j < |b| ==> b[j].edgeType == Conflict && b[j].isConflict
  }

  lemma ConflictTailTransitive(a: seq<DependencyEdge>, b: seq<DependencyEdge>, c: seq<DependencyEdge>)
    requires ConflictTail(a, b) && ConflictTail(b, c)
    ensures ConflictTail(a, c)
  {
    assert c[..|a|] == c[..|b|][..|a|];
    forall j | |a| <= j < |b| ensures c[j] == b[j] {
      assert c[..|b|][j] == c[j];
    }
  }

  lemma DetectOneEdges(g: DependencyGraph, entry: (string, seq<string>), env: Platform)
    ensures ConflictTail(g.edges, DetectOne(g, entry, env).edges)
  {
    var r := DetectOne(g, entry, env);
    if Records(g.nodes, entry) {
      var pe := PairEdges(MatchingIds(g.nodes, entry.0));
      assert r.edges == g.edges + pe;
      forall j | |g.edges| <= j < |r.edges| ensures r.edges[j].edgeType == Conflict && r.edges[j].isConflict {
        assert r.edges[j] == pe[j - |g.edges|];
        assert pe[j - |g.edges|] in pe;
      }
    }
  }

  /** The conflict pass appends to the edges and appends only conflict
      edges. */
  lemma {:induction false} DetectEdges(g: DependencyGraph, m: VersionMap, env: Platform)
    ensures ConflictTail(g.edges, DetectConflicts(g, m, env).edges)
    decreases |m|
  {
    if |m| > 0 {
      var g1 := DetectOne(g, m[0], env);
      DetectOneEdges(g, m[0], env);
      DetectEdges(g1, m[1..], env);
      ConflictTailTransitive(g.edges, g1.edges, DetectConflicts(g1, m[1..], env).edges);
    } else {
      assert g.edges[..|g.edges|] == g.edges;
    }
  }

  // ---------------------------------------------------------------------------
  // Which names get a conflict

  /** Entry `k` of the version map records a conflict against the nodes `ns`. */
  ghost predicate RecordedAt(ns: seq<DependencyNode>, m: VersionMap, k: int) {
    0 <= k < |m| && Records(ns, m[k])
  }

  /** The pass adds exactly the names of the entries that have more than one
      version and more than one matching node. */
  lemma {:induction false} DetectKeys(g: DependencyGraph, m: VersionMap, env: Platform)
    ensures forall name :: (name in DetectConflicts(g, m, env).conflicts
      <==> name in g.conflicts || exists k :: RecordedAt(g.nodes, m, k) && m[k].0 == name)
    decreases |m|
  {
    if |m| > 0 {
      var g1 := DetectOne(g, m[0], env);
      DetectOneShape(g, m[0], env);
      DetectKeys(g1, m[1..], env);
      forall name ensures name in DetectConflicts(g, m, env).conflicts
        <==> name in g.conflicts || exists k :: RecordedAt(g.nodes, m, k) && m[k].0 == name
      {
        if exists k :: RecordedAt(g1.nodes, m[1..], k) && m[1..][k].0 == name {
          var k :| RecordedAt(g1.nodes, m[1..], k) && m[1..][k].0 == name;
          assert RecordedAt(g.nodes, m, k + 1);
        }
        if exists k :: RecordedAt(g.nodes, m, k) && m[k].0 == name {
          var k :| RecordedAt(g.nodes, m, k) && m[k].0 == name;
          if k > 0 {
            assert RecordedAt(g1.nodes, m[1..], k - 1);
          }
        }
      }
    }
  }

  /** Two entries of a version map never share a name. */
  lemma NamesDistinctOrdinal(m: VersionMap)
    requires NamesDistinct(m)
    ensures forall i, j :: 0 <= i < j < |m| ==> m[i].0 != m[j].0
  {
  }

  /** One loop iteration writes only the entry of its own name. */
  lemma DetectOneConflicts(g: DependencyGraph, entry: (string, seq<string>), env: Platform)
    ensures var r := DetectOne(g, entry, env);
      Records(g.nodes, entry) ==>
        entry.0 in r.conflicts
        && r.conflicts[entry.0] == ConflictFor(entry.0, entry.1, MatchingIds(g.nodes, entry.0), env)
    ensures var r := DetectOne(g, entry, env);
      forall name :: name in g.conflicts && name != entry.0 ==>
        name in r.conflicts && r.conflicts[name] == g.conflicts[name]
  {
  }

  /** Each recorded name maps to the entry built from its versions and from
      the nodes matching it before the pass; every other name keeps its
      entry. */
  lemma DetectValues(g: DependencyGraph, m: VersionMap, env: Platform)
    requires NamesDistinct(m)
    ensures var r := DetectConflicts(g, m, env);
      forall k :: RecordedAt(g.nodes, m, k) ==>
        m[k].0 in r.conflicts
        && r.conflicts[m[k].0] == ConflictFor(m[k].0, m[k].1, MatchingIds(g.nodes, m[k].0), env)
    ensures var r := DetectConflicts(g, m, env);
      forall name :: name in g.conflicts && (forall k :: 0 <= k < |m| ==> m[k].0 != name) ==>
        name in r.conflicts && r.conflicts[name] == g.conflicts[name]
  {
    DetectRecorded(g, m, env);
    DetectKept(g, m, env);
  }

  /** The entries after the first of a map with distinct names have distinct
      names too. */
  lemma NamesDistinctTail(m: VersionMap)
    requires |m| > 0 && NamesDistinct(m)
    ensures NamesDistinct(m[1..])
  {
    var rest := m[1..];
    forall i, j | 0 <= i < j < |rest| ensures !EqIgnoreCase(rest[i].0, rest[j].0) {
      assert rest[i] == m[i + 1] && rest[j] == m[j + 1];
    }
  }

  /** Each recorded name maps to the entry built from its versions and from
      the nodes matching it before the pass. */
  lemma {:induction false} DetectRecorded(g: DependencyGraph, m: VersionMap, env: Platform)
    requires NamesDistinct(m)
    ensures var r := DetectConflicts(g, m, env);
      forall k :: RecordedAt(g.nodes, m, k) ==>
        m[k].0 in r.conflicts
        && r.conflicts[m[k].0] == ConflictFor(m[k].0, m[k].1, MatchingIds(g.nodes, m[k].0), env)
    decreases |m|
  {
    if |m| > 0 {
      var g1 := DetectOne(g, m[0], env);
      var rest := m[1..];
      var r := DetectConflicts(g1, rest, env);
      assert r == DetectConflicts(g, m, env);
      DetectOneShape(g, m[0], env);
      DetectOneConflicts(g, m[0], env);
      NamesDistinctTail(m);
      DetectRecorded(g1, rest, env);
      DetectKept(g1, rest, env);
      NamesDistinctOrdinal(m);
      forall k | RecordedAt(g.nodes, m, k)
        ensures m[k].0 in r.conflicts
        ensures r.conflicts[m[k].0] == ConflictFor(m[k].0, m[k].1, MatchingIds(g.nodes, m[k].0), env)
      {
        if k == 0 {
          forall k' | 0 <= k' < |rest| ensures rest[k'].0 != m[0].0 {
            assert rest[k'] == m[k' + 1];
          }
        } else {
          assert rest[k - 1] == m[k];
          assert RecordedAt(g1.nodes, rest, k - 1);
        }
      }
    }
  }

  /** A name of no entry keeps the conflict it had before the pass. */
  lemma {:induction false} DetectKept(g: DependencyGraph, m: VersionMap, env: Platform)
    ensures var r := DetectConflicts(g, m, env);
      forall name :: name in g.conflicts && (forall k :: 0 <= k < |m| ==> m[k].0 != name) ==>
        name in r.conflicts && r.conflicts[name] == g.conflicts[name]
    decreases |m|
  {
    if |m| > 0 {
      var g1 := DetectOne(g, m[0], env);
      var rest := m[1..];
      var r := DetectConflicts(g1, rest, env);
      assert r == DetectConflicts(g, m, env);
      DetectOneConflicts(g, m[0], env);
      DetectKept(g1, rest, env);
      forall name | name in g.conflicts && (forall k :: 0 <= k < |m| ==> m[k].0 != name)
        ensures name in r.conflicts && r.conflicts[name] == g.conflicts[name]
      {
        assert m[0].0 != name;
        forall k | 0 <= k < |rest| ensures rest[k].0 != name {
          assert rest[k] == m[k + 1];
        }
      }
    }
  }

  /** A node that matches no recorded name leaves the pass unchanged. */
  lemma {:induction false} DetectUntouched(g: DependencyGraph, m: VersionMap, env: Platform, i: nat)
    requires i < |g.nodes|
    requires forall k :: RecordedAt(g.nodes, m, k) ==> !Matches(g.nodes[i], m[k].0)
    ensures i < |DetectConflicts(g, m, env).nodes| && DetectConflicts(g, m, env).nodes[i] == g.nodes[i]
    decreases |m|
  {
    if |m| > 0 {
      var g1 := DetectOne(g, m[0], env);
      var rest := m[1..];
      DetectOneShape(g, m[0], env);
      assert !RecordedAt(g.nodes, m, 0) || !Matches(g.nodes[i], m[0].0);
      assert g1.nodes[i] == g.nodes[i];
      forall k | RecordedAt(g1.nodes, rest, k) ensures !Matches(g1.nodes[i], rest[k].0) {
        assert rest[k] == m[k + 1];
        assert RecordedAt(g.nodes, m, k + 1);
      }
      DetectUntouched(g1, rest, env, i);
    }
  }

  /** A node matching the first name of a map with distinct names matches
      none of the later ones. */
  lemma MatchesNoLaterEntry(n: DependencyNode, m: VersionMap)
    requires |m| > 0 && NamesDistinct(m) && Matches(n, m[0].0)
    ensures forall k :: 0 <= k < |m| - 1 ==> !Matches(n, m[1..][k].0)
  {
    forall k | 0 <= k < |m| - 1 ensures !Matches(n, m[1..][k].0) {
      assert m[1..][k] == m[k + 1];
      assert !EqIgnoreCase(m[0].0, m[k + 1].0);
    }
  }

  /** What one loop iteration does to one node. */
  lemma DetectOneNode(g: DependencyGraph, entry: (string, seq<string>), env: Platform, i: nat)
    requires i < |g.nodes|
    ensures i < |DetectOne(g, entry, env).nodes|
    ensures DetectOne(g, entry, env).nodes[i]
      == if Records(g.nodes, entry) && Matches(g.nodes[i], entry.0)
         then Marked(g.nodes[i], CalculateSeverity(entry.1)) else g.nodes[i]
  {
  }

  /** A node matching a recorded name leaves the pass flagged with that
      name's severity. */
  lemma {:induction false} DetectMarked(g: DependencyGraph, m: VersionMap, env: Platform, i: nat, k: nat)
    requires NamesDistinct(m)
    requires i < |g.nodes| && RecordedAt(g.nodes, m, k) && Matches(g.nodes[i], m[k].0)
    ensures i < |DetectConflicts(g, m, env).nodes|
      && DetectConflicts(g, m, env).nodes[i] == Marked(g.nodes[i], CalculateSeverity(m[k].1))
    decreases |m|
  {
    var g1 := DetectOne(g, m[0], env);
    var rest := m[1..];
    DetectOneNode(g, m[0], env, i);
    if k == 0 {
      MatchesNoLaterEntry(g1.nodes[i], m);
      DetectUntouched(g1, rest, env, i);
    } else {
      assert rest[k - 1] == m[k];
      assert !EqIgnoreCase(m[0].0, m[k].0);
      DetectOneShape(g, m[0], env);
      assert RecordedAt(g1.nodes, rest, k - 1);
      NamesDistinctTail(m);
      DetectMarked(g1, rest, env, i, k - 1);
    }
  }

  // ---------------------------------------------------------------------------
  // Direct edges

  /** Project files no two of which are equal ignoring case. */
  ghost predicate FilesDistinct(files: seq<string>) {
    forall i, j :: 0 <= i < j < |files| ==> !EqIgnoreCase(files[i], files[j])
  }

  ghost predicate Covered(p: PackageReference, files: seq<string>) {
    exists k :: 0 <= k < |files| && SameFile(p, files[k])
  }

  /** Number of references whose project file is one of `files`. */
  ghost function CoveredCount(facts: seq<PackageReference>, files: seq<string>): nat
    decreases |facts|
  {
    if |facts| == 0 then 0
    else (if Covered(facts[0], files) then 1 else 0) + CoveredCount(facts[1..], files)
  }

  /** With distinct files, a reference is in the first file or in the rest,
      never both. */
  lemma {:induction false} CoveredSplit(facts: seq<PackageReference>, files: seq<string>)
    requires |files| > 0 && FilesDistinct(files)
    ensures CoveredCount(facts, files) == FileCount(facts, files[0]) + CoveredCount(facts, files[1..])
    decreases |facts|
  {
    if |facts| > 0 {
      CoveredSplit(facts[1..], files);
      var p := facts[0];
      if Covered(p, files[1..]) {
        var k :| 0 <= k < |files[1..]| && SameFile(p, files[1..][k]);
        assert files[1..][k] == files[k + 1];
        assert !SameFile(p, files[0]) by {
          assert !EqIgnoreCase(files[0], files[k + 1]);
        }
        assert Covered(p, files);
      } else if SameFile(p, files[0]) {
        assert Covered(p, files);
      } else {
        forall k | 0 <= k < |files| ensures !SameFile(p, files[k]) {
          if k > 0 { assert files[k] == files[1..][k - 1]; }
        }
      }
    }
  }

  /** One edge per covered reference. */
  lemma {:induction false} DirectEdgesCount(env: Platform, facts: seq<PackageReference>, files: seq<string>)
    requires FilesDistinct(files)
    ensures |DirectEdges(env, facts, files)| == CoveredCount(facts, files)
    decreases |files|
  {
    if |files| == 0 {
      CoveredNone(facts, files);
    } else {
      CoveredSplit(facts, files);
      DirectEdgesCount(env, facts, files[1..]);
    }
  }

  lemma {:induction false} CoveredNone(facts: seq<PackageReference>, files: seq<string>)
    requires |files| == 0
    ensures CoveredCount(facts, files) == 0
    decreases |facts|
  {
    if |facts| > 0 {
      CoveredNone(facts[1..], files);
    }
  }

  lemma {:induction false} CoveredAll(facts: seq<PackageReference>, files: seq<string>)
    requires forall i :: 0 <= i < |facts| ==> Covered(facts[i], files)
    ensures CoveredCount(facts, files) == |facts|
    decreases |facts|
  {
    if |facts| > 0 {
      assert forall i :: 0 <= i < |facts| - 1 ==> facts[1..][i] == facts[i + 1];
      CoveredAll(facts[1..], files);
    }
  }

  /** The project files of a graph are distinct ignoring case. */
  lemma ProjectFilesDistinct(facts: seq<PackageReference>)
    ensures FilesDistinct(ProjectFiles(facts))
  {
    var reps := DistinctBy(facts, FoldedFile);
    var files := ProjectFiles(facts);
    forall i, j | 0 <= i < j < |files| ensures !EqIgnoreCase(files[i], files[j]) {
      assert FoldedFile(reps[i]) != FoldedFile(reps[j]);
    }
  }

  /** The representative file of a reference is among the project files and
      equals the reference's file ignoring case. */
  lemma RepresentativeFileListed(facts: seq<PackageReference>, p: PackageReference)
    requires p in facts
    ensures exists k :: (0 <= k < |ProjectFiles(facts)|
      && ProjectFiles(facts)[k] == RepresentativeFile(facts, p)
      && SameFile(p, ProjectFiles(facts)[k]))
  {
    var reps := DistinctBy(facts, FoldedFile);
    var files := ProjectFiles(facts);
    var i0 :| 0 <= i0 < |facts| && facts[i0] == p;
    assert FoldedFile(p) in KeySet(facts, FoldedFile);
    assert FoldedFile(p) in KeySet(reps, FoldedFile);
    var k :| 0 <= k < |reps| && FoldedFile(reps[k]) == FoldedFile(p);
    assert files[k] == reps[k].projectFile;
  }

  /** A project file whose spelling equals a reference's file ignoring case
      is that reference's representative file. */
  lemma ListedIsRepresentative(facts: seq<PackageReference>, p: PackageReference, k: int)
    requires p in facts && 0 <= k < |ProjectFiles(facts)| && SameFile(p, ProjectFiles(facts)[k])
    ensures ProjectFiles(facts)[k] == RepresentativeFile(facts, p)
  {
    var reps := DistinctBy(facts, FoldedFile);
    assert FoldedFile(reps[k]) == FoldedFile(p);
  }

  // ---------------------------------------------------------------------------
  // Build

  /** `Build([])` is the empty graph, with or without conflict detection. */
  lemma BuildEmpty(options: Option<DependencyGraphOptions>, env: Platform)
    ensures Build([], options, env) == EmptyGraph()
  {
    assert DistinctBy([], FoldedGroupKey) == [];
    assert DistinctBy([], FoldedFile) == [];
  }

  /** A null options object behaves as the default options. */
  lemma BuildDefaultOptions(facts: seq<PackageReference>, env: Platform)
    ensures Build(facts, None, env) == Build(facts, Some(DependencyGraphOptions(true)), env)
  {
  }

  /** One node per case-insensitive `name||version` key and one per
      case-insensitive project file, whatever the options. */
  lemma BuildNodeCount(facts: seq<PackageReference>, options: Option<DependencyGraphOptions>, env: Platform)
    ensures NodeCount(Build(facts, options, env))
      == |KeySet(facts, FoldedGroupKey)| + |KeySet(facts, FoldedFile)|
  {
    DistinctByCard(facts, FoldedGroupKey);
    DistinctByCard(facts, FoldedFile);
    DetectShape(PhaseA(facts, env), VersionMapOf(Groups(facts)), env);
  }

  /** Every node of a built graph is typed `RootPackage`, project nodes
      included. */
  lemma BuildAllRoot(facts: seq<PackageReference>, options: Option<DependencyGraphOptions>, env: Platform)
    ensures RootPackageCount(Build(facts, options, env)) == NodeCount(Build(facts, options, env))
  {
    var g0 := PhaseA(facts, env);
    var g := Build(facts, options, env);
    DetectShape(g0, VersionMapOf(Groups(facts)), env);
    forall i | 0 <= i < |g.nodes| ensures IsRootPackage(g.nodes[i]) {
      assert Shape(g.nodes[i]) == Shape(g0.nodes[i]);
    }
  }

  /** Before conflicts, there is exactly one direct edge per input reference,
      duplicates included. */
  lemma DirectEdgeCount(facts: seq<PackageReference>, env: Platform)
    ensures |PhaseA(facts, env).edges| == |facts|
  {
    var files := ProjectFiles(facts);
    ProjectFilesDistinct(facts);
    DirectEdgesCount(env, facts, files);
    forall i | 0 <= i < |facts| ensures Covered(facts[i], files) {
      RepresentativeFileListed(facts, facts[i]);
    }
    CoveredAll(facts, files);
  }

  /** Every reference has its direct edge, leaving the node of its
      first-seen project file spelling, and that project node exists. */
  lemma DirectEdgesComplete(facts: seq<PackageReference>, env: Platform, p: PackageReference)
    requires p in facts
    ensures DirectEdge(ProjectNodeId(env, RepresentativeFile(facts, p)), p) in PhaseA(facts, env).edges
    ensures ProjectNode(env, RepresentativeFile(facts, p)) in PhaseA(facts, env).nodes
  {
    var files := ProjectFiles(facts);
    RepresentativeFileListed(facts, p);
    var k :| 0 <= k < |files| && files[k] == RepresentativeFile(facts, p) && SameFile(p, files[k]);
    DirectEdgeListed(env, facts, files, k, p);
    ProjectNodeListed(facts, env, k);
  }

  /** A reference in a listed file has its edge among the direct edges. */
  lemma DirectEdgeListed(env: Platform, facts: seq<PackageReference>, files: seq<string>, k: nat, p: PackageReference)
    requires k < |files| && p in facts && SameFile(p, files[k])
    ensures DirectEdge(ProjectNodeId(env, files[k]), p) in DirectEdges(env, facts, files)
  {
    assert DirectEdge(ProjectNodeId(env, files[k]), p) in ProjectEdges(ProjectNodeId(env, files[k]), facts, files[k]);
  }

  /** Every listed project file has its node in the graph. */
  lemma ProjectNodeListed(facts: seq<PackageReference>, env: Platform, k: nat)
    requires k < |ProjectFiles(facts)|
    ensures ProjectNode(env, ProjectFiles(facts)[k]) in PhaseA(facts, env).nodes
  {
    ProjectNodeAfter(PackageNodes(Groups(facts)), env, ProjectFiles(facts), k);
  }

  /** The project nodes follow the package nodes, one per listed file. */
  lemma ProjectNodeAfter(packageNodes: seq<DependencyNode>, env: Platform, files: seq<string>, k: nat)
    requires k < |files|
    ensures ProjectNode(env, files[k]) in packageNodes + ProjectNodes(env, files)
  {
    assert (packageNodes + ProjectNodes(env, files))[|packageNodes| + k] == ProjectNode(env, files[k]);
  }

  /** Every direct edge is the edge of some reference. */
  lemma DirectEdgesSound(facts: seq<PackageReference>, env: Platform, e: DependencyEdge)
    requires e in PhaseA(facts, env).edges
    ensures exists p :: p in facts && e == DirectEdge(ProjectNodeId(env, RepresentativeFile(facts, p)), p)
  {
    var files := ProjectFiles(facts);
    assert e in DirectEdges(env, facts, files);
    var k :| 0 <= k < |files| && e in ProjectEdges(ProjectNodeId(env, files[k]), facts, files[k]);
    var p :| p in facts && SameFile(p, files[k]) && e == DirectEdge(ProjectNodeId(env, files[k]), p);
    ListedIsRepresentative(facts, p, k);
  }

  /** With detection switched off there are no conflicts, no conflict edges
      and no flagged nodes. */
  lemma BuildWithoutHighlight(facts: seq<PackageReference>, env: Platform)
    ensures var g := Build(facts, Some(DependencyGraphOptions(false)), env);
      && ConflictCount(g) == 0
      && (forall e :: e in g.edges ==> !e.isConflict && e.edgeType == Direct)
      && (forall i :: 0 <= i < |g.nodes| ==> !g.nodes[i].hasConflict && g.nodes[i].conflictSeverity == 0)
  {
  }

  /** The condition under which `Build` records a conflict for `name`: the
      name has an entry in the version map, its group versions (an ordinal
      set) number more than one, and more than one `RootPackage` node
      matches it ignoring case. */
  ghost predicate ConflictExpected(facts: seq<PackageReference>, env: Platform, name: string) {
    var m := VersionMapOf(Groups(facts));
    && (exists k :: 0 <= k < |m| && m[k].0 == name)
    && |VersionsNamed(Groups(facts), name)| > 1
    && |MatchingIds(PhaseA(facts, env).nodes, name)| > 1
  }

  /** With detection on, the graph records a conflict for a name exactly when
      that condition holds. */
  lemma BuildConflicts(facts: seq<PackageReference>, env: Platform, name: string)
    ensures name in Build(facts, Some(DependencyGraphOptions(true)), env).conflicts
      <==> ConflictExpected(facts, env, name)
  {
    var g0 := PhaseA(facts, env);
    var m := VersionMapOf(Groups(facts));
    var g := DetectConflicts(g0, m, env);
    assert g == Build(facts, Some(DependencyGraphOptions(true)), env);
    if name in g.conflicts {
      BuildConflictsForward(facts, env, name);
    }
    if ConflictExpected(facts, env, name) {
      BuildConflictsBackward(facts, env, name);
    }
  }

  lemma BuildConflictsForward(facts: seq<PackageReference>, env: Platform, name: string)
    requires name in DetectConflicts(PhaseA(facts, env), VersionMapOf(Groups(facts)), env).conflicts
    ensures ConflictExpected(facts, env, name)
  {
    var g0 := PhaseA(facts, env);
    var m := VersionMapOf(Groups(facts));
    DetectKeys(g0, m, env);
    var k :| RecordedAt(g0.nodes, m, k) && m[k].0 == name;
    NoDuplicatesCard(m[k].1);
  }

  lemma BuildConflictsBackward(facts: seq<PackageReference>, env: Platform, name: string)
    requires ConflictExpected(facts, env, name)
    ensures name in DetectConflicts(PhaseA(facts, env), VersionMapOf(Groups(facts)), env).conflicts
  {
    var g0 := PhaseA(facts, env);
    var m := VersionMapOf(Groups(facts));
    DetectKeys(g0, m, env);
    var k :| 0 <= k < |m| && m[k].0 == name;
    NoDuplicatesCard(m[k].1);
    assert RecordedAt(g0.nodes, m, k);
  }

  /** With detection on, the direct edges come first and every edge after
      them is a conflict edge. */
  lemma BuildEdges(facts: seq<PackageReference>, env: Platform)
    ensures ConflictTail(PhaseA(facts, env).edges, Build(facts, Some(DependencyGraphOptions(true)), env).edges)
  {
    var g0 := PhaseA(facts, env);
    var m := VersionMapOf(Groups(facts));
    DetectEdges(g0, m, env);
    assert Build(facts, Some(DependencyGraphOptions(true)), env) == DetectConflicts(g0, m, env);
  }

  /** A recorded conflict is the entry built from its name's versions and
      from the ids of the nodes matching it; `ConflictForContents` says what
      that entry holds. */
  lemma BuildConflictEntry(facts: seq<PackageReference>, env: Platform, k: nat)
    requires k < |VersionMapOf(Groups(facts))|
    requires Records(PhaseA(facts, env).nodes, VersionMapOf(Groups(facts))[k])
    ensures var entry := VersionMapOf(Groups(facts))[k];
      var g := Build(facts, Some(DependencyGraphOptions(true)), env);
      && entry.0 in g.conflicts
      && g.conflicts[entry.0] == ConflictFor(entry.0, entry.1, MatchingIds(PhaseA(facts, env).nodes, entry.0), env)
  {
    var g0 := PhaseA(facts, env);
    var m := VersionMapOf(Groups(facts));
    var g := DetectConflicts(g0, m, env);
    assert g == Build(facts, Some(DependencyGraphOptions(true)), env);
    assert RecordedAt(g0.nodes, m, k);
    DetectValues(g0, m, env);
  }

  /** Every node matching a recorded conflict's name is flagged with the
      conflict's severity and otherwise unchanged. */
  lemma BuildConflictNodes(facts: seq<PackageReference>, env: Platform, k: nat, i: nat)
    requires k < |VersionMapOf(Groups(facts))|
    requires Records(PhaseA(facts, env).nodes, VersionMapOf(Groups(facts))[k])
    requires i < |PhaseA(facts, env).nodes| && Matches(PhaseA(facts, env).nodes[i], VersionMapOf(Groups(facts))[k].0)
    ensures var g := Build(facts, Some(DependencyGraphOptions(true)), env);
      i < |g.nodes|
      && g.nodes[i] == Marked(PhaseA(facts, env).nodes[i], CalculateSeverity(VersionMapOf(Groups(facts))[k].1))
  {
    var g0 := PhaseA(facts, env);
    var m := VersionMapOf(Groups(facts));
    var g := DetectConflicts(g0, m, env);
    assert g == Build(facts, Some(DependencyGraphOptions(true)), env);
    assert RecordedAt(g0.nodes, m, k);
    DetectMarked(g0, m, env, i, k);
  }

  // ---------------------------------------------------------------------------
  // Documented behaviour on concrete inputs

  /** Two references differing only in the casing of the name form one
      group, represented by the first. */
  lemma CaseVariantsOneGroup(facts: seq<PackageReference>)
    requires facts == [Fact("A", "1.0", "p"), Fact("a", "1.0", "q")]
    ensures Groups(facts) == [facts[0]]
  {
    var groups := Groups(facts);
    var k0 := FoldedGroupKey(facts[0]);
    assert GroupKey(facts[0]) == "A||1.0" && GroupKey(facts[1]) == "a||1.0";
    assert UpperChar('a') == 'A';
    assert FoldedGroupKey(facts[1]) == k0;
    assert KeySet(facts, FoldedGroupKey) == {k0};
    DistinctByCard(facts, FoldedGroupKey);
    assert FoldedGroupKey(groups[0]) in KeySet(facts, FoldedGroupKey);
    assert FirstIndex(facts, FoldedGroupKey, k0) == 0;
  }

  /** The package node of the group `A 1.0` has the id `A_1.0`. */
  lemma CaseVariantNodeId(p: PackageReference)
    requires p == Fact("A", "1.0", "p")
    ensures PackageNode(p).id == "A_1.0"
  {
    var key := "A||1.0";
    assert GroupKey(p) == key;
    assert key[1..3] == "||";
    assert !ContainsAt(key, "||", 0) by {
      assert key[0..2][0] == 'A';
    }
    SplitOnceAt(key, "||", 1);
    assert key[..1] == "A" && key[3..] == "1.0";
  }

  /** The conflict pass keeps every direct edge: each reference's edge is in
      the built graph whatever the options. */
  lemma BuildHasDirectEdge(facts: seq<PackageReference>, options: Option<DependencyGraphOptions>,
                           env: Platform, p: PackageReference)
    requires p in facts
    ensures DirectEdge(ProjectNodeId(env, RepresentativeFile(facts, p)), p) in Build(facts, options, env).edges
  {
    var g0 := PhaseA(facts, env);
    var m := VersionMapOf(Groups(facts));
    DirectEdgesComplete(facts, env, p);
    var e := DirectEdge(ProjectNodeId(env, RepresentativeFile(facts, p)), p);
    assert e in g0.edges;
    DetectEdges(g0, m, env);
    var g1 := DetectConflicts(g0, m, env);
    var j :| 0 <= j < |g0.edges| && g0.edges[j] == e;
    assert g1.edges[..|g0.edges|][j] == e;
    assert e in g1.edges;
    assert Build(facts, options, env) == if options.GetOr(DefaultOptions()).highlightConflicts then g1 else g0;
  }

  /** The built graph's nodes are the nodes before the conflict pass, up to
      their conflict flags. */
  lemma BuildKeepsShape(facts: seq<PackageReference>, options: Option<DependencyGraphOptions>, env: Platform)
    ensures SameShape(Build(facts, options, env).nodes, PhaseA(facts, env).nodes)
  {
    DetectShape(PhaseA(facts, env), VersionMapOf(Groups(facts)), env);
  }

  /** In the example the nodes are `A_1.0` and project nodes, whose ids
      start with `p`. */
  lemma CaseVariantNodes(facts: seq<PackageReference>, env: Platform, n: DependencyNode)
    requires facts == [Fact("A", "1.0", "p"), Fact("a", "1.0", "q")]
    requires n in Build(facts, None, env).nodes
    ensures n.id == "A_1.0" || (|n.id| > 0 && n.id[0] == 'p')
  {
    CaseVariantsOneGroup(facts);
    CaseVariantNodeId(facts[0]);
    OneGroupNodes(facts, None, env, n);
  }

  /** With a single group, every node is that group's package node or a
      project node. */
  lemma OneGroupNodes(facts: seq<PackageReference>, options: Option<DependencyGraphOptions>,
                      env: Platform, n: DependencyNode)
    requires |Groups(facts)| == 1
    requires n in Build(facts, options, env).nodes
    ensures n.id == PackageNode(Groups(facts)[0]).id || (|n.id| > 0 && n.id[0] == 'p')
  {
    var groups := Groups(facts);
    var files := ProjectFiles(facts);
    BuildNodeOrigin(facts, options, env, n);
    if exists k :: 0 <= k < |files| && n.id == ProjectNodeId(env, files[k]) {
      var k :| 0 <= k < |files| && n.id == ProjectNodeId(env, files[k]);
      ProjectNodeIdHead(env, files[k]);
    } else {
      var k :| 0 <= k < |groups| && n.id == PackageNode(groups[k]).id;
      assert k == 0;
    }
  }

  /** A project node's id starts with `p`, from its `project_` prefix. */
  lemma ProjectNodeIdHead(env: Platform, file: string)
    ensures |ProjectNodeId(env, file)| > 0 && ProjectNodeId(env, file)[0] == 'p'
  {
  }

  /** Every node of a built graph carries the id of a group's package node or
      of a listed project file's node. */
  lemma BuildNodeOrigin(facts: seq<PackageReference>, options: Option<DependencyGraphOptions>,
                        env: Platform, n: DependencyNode)
    requires n in Build(facts, options, env).nodes
    ensures (exists k :: 0 <= k < |Groups(facts)| && n.id == PackageNode(Groups(facts)[k]).id)
      || (exists k :: 0 <= k < |ProjectFiles(facts)| && n.id == ProjectNodeId(env, ProjectFiles(facts)[k]))
  {
    var g0 := PhaseA(facts, env);
    var g := Build(facts, options, env);
    BuildKeepsShape(facts, options, env);
    var i :| 0 <= i < |g.nodes| && g.nodes[i] == n;
    assert Shape(g.nodes[i]) == Shape(g0.nodes[i]);
    NodeOfPhaseA(PackageNodes(Groups(facts)), env, ProjectFiles(facts), i);
  }

  /** A node of the package nodes followed by the project nodes is one or
      the other. */
  lemma NodeOfPhaseA(packageNodes: seq<DependencyNode>, env: Platform, files: seq<string>, i: nat)
    requires i < |packageNodes| + |files|
    ensures i < |packageNodes| ==> (packageNodes + ProjectNodes(env, files))[i] == packageNodes[i]
    ensures i >= |packageNodes| ==>
      (packageNodes + ProjectNodes(env, files))[i] == ProjectNode(env, files[i - |packageNodes|])
  {
  }

  /** Some edge enters an id that no node has. */
  ghost predicate HasDanglingEdge(g: DependencyGraph) {
    exists e :: e in g.edges && forall n :: n in g.nodes ==> n.id != e.target
  }

  /** Edge targets are spelled from each reference's own casing while the
      node takes the group's first casing: `A 1.0` in one project and
      `a 1.0` in another yield the node `A_1.0` and an edge into `a_1.0`,
      which is no node's id. */
  lemma EdgeTargetCanMissNode(facts: seq<PackageReference>, env: Platform)
    requires facts == [Fact("A", "1.0", "p"), Fact("a", "1.0", "q")]
    ensures HasDanglingEdge(Build(facts, None, env))
  {
    assert facts[1] in facts;
    BuildEdgeIntoReference(facts, None, env, facts[1]);
    var e :| e in Build(facts, None, env).edges && e.target == PackageNodeId(facts[1].packageName, facts[1].version);
    CaseVariantSecondId(facts);
    CaseVariantNoNode(facts, env);
    var g := Build(facts, None, env);
    assert forall n :: n in g.nodes ==> n.id != e.target;
    assert e in g.edges;
  }

  /** Every reference has an edge entering the id spelled from its own name
      and version. */
  lemma BuildEdgeIntoReference(facts: seq<PackageReference>, options: Option<DependencyGraphOptions>,
                               env: Platform, p: PackageReference)
    requires p in facts
    ensures exists e :: e in Build(facts, options, env).edges && e.target == PackageNodeId(p.packageName, p.version)
  {
    BuildHasDirectEdge(facts, options, env, p);
  }

  lemma CaseVariantSecondId(facts: seq<PackageReference>)
    requires facts == [Fact("A", "1.0", "p"), Fact("a", "1.0", "q")]
    ensures PackageNodeId(facts[1].packageName, facts[1].version) == "a_1.0"
  {
  }

  /** In the example no node has the id `a_1.0`. */
  lemma CaseVariantNoNode(facts: seq<PackageReference>, env: Platform)
    requires facts == [Fact("A", "1.0", "p"), Fact("a", "1.0", "q")]
    ensures forall n :: n in Build(facts, None, env).nodes ==> n.id != "a_1.0"
  {
    forall n | n in Build(facts, None, env).nodes ensures n.id != "a_1.0" {
      CaseVariantNodes(facts, env, n);
      assert "A_1.0"[0] == 'A' && "a_1.0"[0] == 'a';
    }
  }

  /** `Split("||", 2)` cuts at the first `||`, so a package name ending in
      `|` loses it to the version. */
  lemma SplitKeyNameEndingInBar()
    ensures var p := Fact("A|", "1.0", "p");
      NameOf(p) == "A" && VersionOf(p) == "|1.0"
  {
    var key := "A|||1.0";
    assert GroupKey(Fact("A|", "1.0", "p")) == key;
    assert key[1..3] == "||";
    assert !ContainsAt(key, "||", 0) by {
      assert key[0..2][0] == 'A';
    }
    SplitOnceAt(key, "||", 1);
    assert key[..1] == "A" && key[3..] == "|1.0";
  }
}

=== FILE: health_score.dfy ===
/**
 * The composite package health score: four component tiers (downloads,
 * freshness, vulnerabilities, deprecation), their weighted sum, and the
 * status bands over the result.
 *
 * Times are real numbers of days, so an age is `now - lastPublished` and
 * compares exactly as `TimeSpan.TotalDays` does; the clock `now` is a
 * parameter. Rounding the weighted sum, which the system does in double
 * arithmetic, is a parameter too.
 */
module HealthScores {
  import opened Wrappers
  import opened Numeric

  datatype HealthStatus = Healthy | Warning | Critical

  /** The status band of an overall score. */
  function Status(score: int): (s: HealthStatus)
    ensures s == Healthy <==> score >= 80
    ensures s == Warning <==> 60 <= score < 80
    ensures s == Critical <==> score < 60
  {
    if score >= 80 then Healthy
    else if score >= 60 then Warning
    else Critical
  }

  /** A status is never better for a lower score. */
  lemma StatusMonotone(a: int, b: int)
    requires a <= b
    ensures Status(b) == Critical ==> Status(a) == Critical
    ensures Status(a) == Healthy ==> Status(b) == Healthy
  {
  }

  // ---------------------------------------------------------------------------
  // Components

  /** Downloads tier, on a decade scale up to 10 million. */
  function DownloadsScore(totalDownloads: int): (r: int)
    ensures r in {5, 20, 40, 60, 80, 100}
    ensures r == 100 <==> totalDownloads >= 10_000_000
    ensures r == 5 <==> totalDownloads < 1_000
  {
    if totalDownloads >= 10_000_000 then 100
    else if totalDownloads >= 1_000_000 then 80
    else if totalDownloads >= 100_000 then 60
    else if totalDownloads >= 10_000 then 40
    else if totalDownloads >= 1_000 then 20
    else 5
  }

  /** More downloads never lower the tier. */
  lemma DownloadsScoreMonotone(a: int, b: int)
    requires a <= b
    ensures DownloadsScore(a) <= DownloadsScore(b)
  {
  }

  /** Freshness tier of a release `days` old. */
  function AgeScore(days: real): (r: int)
    ensures r in {10, 30, 50, 70, 85, 100}
    ensures r == 100 <==> days <= 30.0
    ensures r == 10 <==> days > 730.0
  {
    if days <= 30.0 then 100
    else if days <= 90.0 then 85
    else if days <= 180.0 then 70
    else if days <= 365.0 then 50
    else if days <= 730.0 then 30
    else 10
  }

  /** Freshness tier; an unknown publish date is scored neutrally. */
  function FreshnessScore(lastPublished: Option<real>, now: real): (r: int)
    ensures lastPublished.None? ==> r == 50
    ensures lastPublished.Some? ==> r == AgeScore(now - lastPublished.value)
  {
    match lastPublished
    case None => 50
    case Some(p) => AgeScore(now - p)
  }

  /** An older release never scores fresher. */
  lemma AgeScoreNonIncreasing(a: real, b: real)
    requires a <= b
    ensures AgeScore(b) <= AgeScore(a)
  {
  }

  /** Vulnerability tier: 25 points off per vulnerability, floored at 0, in
      unchecked 32-bit arithmetic. */
  function VulnerabilityScore(count: int): (r: int)
    requires IsInt32(count)
    ensures 0 <= r <= Int32Max
  {
    var penalty := Wrap32(count * 25);
    var diff := Wrap32(100 - penalty);
    if diff > 0 then diff else 0
  }

  /** Without overflow the tier is `max(0, 100 - 25 * count)`: 100 with no
      vulnerability, 0 from four on. */
  lemma VulnerabilityScoreExact(count: int)
    requires 0 <= count <= 85_899_345
    ensures VulnerabilityScore(count) == if 100 - 25 * count > 0 then 100 - 25 * count else 0
    ensures 0 <= VulnerabilityScore(count) <= 100
    ensures VulnerabilityScore(count) == 100 <==> count == 0
    ensures VulnerabilityScore(count) == 0 <==> count >= 4
  {
  }

  /** More vulnerabilities never raise the tier, within the range where the
      multiplication does not overflow. */
  lemma VulnerabilityScoreMonotone(a: int, b: int)
    requires 0 <= a <= b <= 85_899_345
    ensures VulnerabilityScore(b) <= VulnerabilityScore(a)
  {
    VulnerabilityScoreExact(a);
    VulnerabilityScoreExact(b);
  }

  /** A negative count raises the tier above 100. */
  lemma VulnerabilityScoreNegative(count: int)
    requires -85_899_341 <= count < 0
    ensures VulnerabilityScore(count) == 100 - 25 * count > 100
  {
  }

  /** A count large enough for `count * 25` to wrap scores as if almost
      nothing were wrong. */
  lemma VulnerabilityScoreWraps()
    ensures VulnerabilityScore(171_798_692) == 96
  {
    assert 171_798_692 * 25 == 0x1_0000_0000 + 4;
    assert Wrap32(171_798_692 * 25) == 4;
  }

  /** Deprecation tier. */
  function DeprecationScore(isDeprecated: bool): (r: int)
    ensures r == 0 <==> isDeprecated
    ensures r == 100 <==> !isDeprecated
  {
    if isDeprecated then 0 else 100
  }

  // ---------------------------------------------------------------------------
  // The composite

  datatype HealthScore = HealthScore(
    score: int,
    downloadsScore: int,
    freshnessScore: int,
    vulnerabilityScore: int,
    deprecationScore: int,
    vulnerabilityCount: int,
    isDeprecated: bool)

  /** The weighted sum 30% downloads, 30% freshness, 25% vulnerabilities and
      15% deprecation, before rounding. */
  function Weighted(dl: int, freshness: int, vuln: int, dep: int): real {
    (dl as real) * 0.30 + (freshness as real) * 0.30 + (vuln as real) * 0.25 + (dep as real) * 0.15
  }

  /** The weights sum to one, so components within [0, 100] give a sum
      within [0, 100]. */
  lemma WeightedBounds(dl: int, freshness: int, vuln: int, dep: int)
    requires 0 <= dl <= 100 && 0 <= freshness <= 100 && 0 <= vuln <= 100 && 0 <= dep <= 100
    ensures 0.0 <= Weighted(dl, freshness, vuln, dep) <= 100.0
    ensures Weighted(100, 100, 100, 100) == 100.0
  {
  }

  /** `HealthScore.Compute`; `round` stands for `(int)Math.Round` of the
      double sum. */
  function Compute(totalDownloads: int, lastPublished: Option<real>, now: real,
                   vulnerabilityCount: int, isDeprecated: bool, round: real -> int): (h: HealthScore)
    requires IsInt32(vulnerabilityCount)
    ensures h.vulnerabilityCount == vulnerabilityCount && h.isDeprecated == isDeprecated
    ensures h.downloadsScore == DownloadsScore(totalDownloads)
    ensures h.freshnessScore == FreshnessScore(lastPublished, now)
    ensures h.vulnerabilityScore == VulnerabilityScore(vulnerabilityCount)
    ensures h.deprecationScore == DeprecationScore(isDeprecated)
    ensures h.score == round(Weighted(h.downloadsScore, h.freshnessScore, h.vulnerabilityScore, h.deprecationScore))
  {
    var dl := DownloadsScore(totalDownloads);
    var freshness := FreshnessScore(lastPublished, now);
    var vuln := VulnerabilityScore(vulnerabilityCount);
    var dep := DeprecationScore(isDeprecated);
    HealthScore(round(Weighted(dl, freshness, vuln, dep)), dl, freshness, vuln, dep, vulnerabilityCount, isDeprecated)
  }

  /** `round` lands within half a unit of its argument. */
  ghost predicate RoundsToNearest(round: real -> int) {
    forall x: real :: -0.5 <= (round(x) as real) - x <= 0.5
  }

  /** With a non-negative count that does not overflow and a rounding to the
      nearest integer, the overall score lies in [0, 100]. */
  lemma ComputeInRange(totalDownloads: int, lastPublished: Option<real>, now: real,
                       vulnerabilityCount: int, isDeprecated: bool, round: real -> int)
    requires 0 <= vulnerabilityCount <= 85_899_345
    requires RoundsToNearest(round)
    ensures 0 <= Compute(totalDownloads, lastPublished, now, vulnerabilityCount, isDeprecated, round).score <= 100
  {
    var h := Compute(totalDownloads, lastPublished, now, vulnerabilityCount, isDeprecated, round);
    VulnerabilityScoreExact(vulnerabilityCount);
    WeightedBounds(h.downloadsScore, h.freshnessScore, h.vulnerabilityScore, h.deprecationScore);
    var w := Weighted(h.downloadsScore, h.freshnessScore, h.vulnerabilityScore, h.deprecationScore);
    assert -0.5 <= (round(w) as real) - w <= 0.5;
  }
}

=== FILE: nuget_service.dfy ===
/**
 * The post-processing the NuGet service applies to registry data before it
 * builds the statistics page: bar widths relative to the most downloaded
 * version, and the normalised, de-duplicated, sorted list of target
 * frameworks.
 *
 * The culture-sensitive string order of the framework sort is a parameter
 * `le`.
 */
module NuGetService {
  import opened Wrappers
  import opened Text
  import opened Numeric
  import Seqs
  import opened Stats

  // ---------------------------------------------------------------------------
  // Bar widths

  /** The largest download count among the versions. */
  function MaxDownloads(vs: seq<VersionDownload>): (m: int)
    requires |vs| > 0
    ensures exists i :: 0 <= i < |vs| && vs[i].downloads == m
    ensures forall i :: 0 <= i < |vs| ==> vs[i].downloads <= m
    decreases |vs|
  {
    if |vs| == 1 then vs[0].downloads
    else
      var m := MaxDownloads(vs[1..]);
      assert forall i :: 1 <= i < |vs| ==> vs[i] == vs[1..][i - 1];
      if vs[0].downloads > m then vs[0].downloads else m
  }

  /** `(int)(downloads * 100 / maxDl)` in unchecked `long` and `int`
      arithmetic. */
  function BarWidth(downloads: int, maxDl: int): (w: int)
    requires maxDl > 0
    ensures IsInt32(w)
    ensures downloads == 0 ==> w == 0
  {
    Wrap32(TruncDiv(Wrap64(downloads * 100), maxDl))
  }

  /** Without overflow a width is the percentage of the maximum, rounded
      down, so it lies in [0, 100] and the maximum itself gets 100. */
  lemma BarWidthBounds(downloads: int, maxDl: int)
    requires 0 <= downloads <= maxDl && 0 < maxDl && maxDl * 100 <= Int64Max
    ensures 0 <= BarWidth(downloads, maxDl) <= 100
    ensures downloads == maxDl ==> BarWidth(downloads, maxDl) == 100
  {
    var a := downloads * 100;
    assert 0 <= a <= 100 * maxDl;
    assert Wrap64(a) == a;
    assert TruncDiv(a, maxDl) == a / maxDl;
    DivideBounded(a, maxDl, 100);
  }

  /** Once `downloads * 100` exceeds the `long` range the width is garbage:
      a version at the maximum of 10^17 downloads gets -84. */
  lemma BarWidthOverflow()
    ensures BarWidth(100_000_000_000_000_000, 100_000_000_000_000_000) == -84
  {
    var d := 100_000_000_000_000_000;
    assert Wrap64(d * 100) == d * 100 - 0x1_0000_0000_0000_0000;
    assert TruncDiv(d * 100 - 0x1_0000_0000_0000_0000, d) == -84;
  }

  /** Sets each version's bar width relative to the most downloaded one,
      when there is a positive maximum; otherwise leaves the list as it is. */
  function NormalizeBarWidths(vs: seq<VersionDownload>): (r: seq<VersionDownload>)
    ensures |r| == |vs|
    ensures forall i :: 0 <= i < |vs| ==>
      r[i].version == vs[i].version && r[i].downloads == vs[i].downloads
    ensures |vs| == 0 || MaxDownloads(vs) <= 0 ==> r == vs
    ensures |vs| > 0 && MaxDownloads(vs) > 0 ==>
      forall i :: 0 <= i < |vs| ==> r[i].barWidthPercent == BarWidth(vs[i].downloads, MaxDownloads(vs))
  {
    if |vs| == 0 then vs
    else
      var maxDl := MaxDownloads(vs);
      if maxDl <= 0 then vs
      else seq(|vs|, i requires 0 <= i < |vs| => vs[i].(barWidthPercent := BarWidth(vs[i].downloads, maxDl)))
  }

  /** With non-negative counts and no overflow every width lies in
      [0, 100], and the most downloaded versions get 100. */
  lemma BarWidthsInRange(vs: seq<VersionDownload>)
    requires |vs| > 0 && MaxDownloads(vs) > 0 && MaxDownloads(vs) * 100 <= Int64Max
    requires forall i :: 0 <= i < |vs| ==> vs[i].downloads >= 0
    ensures forall i :: 0 <= i < |vs| ==> 0 <= NormalizeBarWidths(vs)[i].barWidthPercent <= 100
    ensures forall i :: 0 <= i < |vs| && vs[i].downloads == MaxDownloads(vs) ==>
      NormalizeBarWidths(vs)[i].barWidthPercent == 100
  {
    var r := NormalizeBarWidths(vs);
    forall i | 0 <= i < |vs|
      ensures 0 <= r[i].barWidthPercent <= 100
      ensures vs[i].downloads == MaxDownloads(vs) ==> r[i].barWidthPercent == 100
    {
      BarWidthBounds(vs[i].downloads, MaxDownloads(vs));
    }
  }

  // ---------------------------------------------------------------------------
  // Target frameworks

  /** `NormalizeFramework`: lower-cases a framework moniker and drops the
      leading dot of the `.NET...` spellings, `.NETFramework` becoming plain
      `net`. Each rewrite replaces every occurrence, not only the prefix. */
  function NormalizeFramework(tfm: Option<string>): (r: string)
    ensures IsNullOrEmpty(tfm) ==> r == ""
    ensures IsLowerCase(r)
    ensures !IsNullOrEmpty(tfm) && !StartsWith(Lower(tfm.value), ".net") ==> r == Lower(tfm.value)
    ensures !IsNullOrEmpty(tfm) && StartsWith(Lower(tfm.value), ".net") ==> StartsWith(r, "net")
  {
    if IsNullOrEmpty(tfm) then ""
    else
      var t := Lower(tfm.value);
      LowerCaseFixed(tfm.value);
      if StartsWith(t, ".netcoreapp") then
        PrefixOfPrefix(t, ".netcoreapp", ".net");
        Rewrite(t, ".netcoreapp", "netcoreapp")
      else if StartsWith(t, ".netstandard") then
        PrefixOfPrefix(t, ".netstandard", ".net");
        Rewrite(t, ".netstandard", "netstandard")
      else if StartsWith(t, ".netframework") then
        PrefixOfPrefix(t, ".netframework", ".net");
        Rewrite(t, ".netframework", "net")
      else if StartsWith(t, ".net") then Rewrite(t, ".net", "net")
      else t
  }

  /** The four rewrite rules, tried in the order `.netcoreapp`,
      `.netstandard`, `.netframework`, `.net`: the first whose prefix the
      lower-cased moniker starts with turns that prefix into its replacement
      and also replaces every later occurrence of the prefix. */
  lemma NormalizeFrameworkRules(tfm: Option<string>)
    ensures !IsNullOrEmpty(tfm) && StartsWith(Lower(tfm.value), ".netcoreapp") ==>
      NormalizeFramework(tfm) == "netcoreapp" + ReplaceAll(Lower(tfm.value)[11..], ".netcoreapp", "netcoreapp")
    ensures (!IsNullOrEmpty(tfm) && StartsWith(Lower(tfm.value), ".netstandard")
             && !StartsWith(Lower(tfm.value), ".netcoreapp")) ==>
      NormalizeFramework(tfm) == "netstandard" + ReplaceAll(Lower(tfm.value)[12..], ".netstandard", "netstandard")
    ensures (!IsNullOrEmpty(tfm) && StartsWith(Lower(tfm.value), ".netframework")
             && !StartsWith(Lower(tfm.value), ".netcoreapp") && !StartsWith(Lower(tfm.value), ".netstandard")) ==>
      NormalizeFramework(tfm) == "net" + ReplaceAll(Lower(tfm.value)[13..], ".netframework", "net")
    ensures (!IsNullOrEmpty(tfm) && StartsWith(Lower(tfm.value), ".net")
             && !StartsWith(Lower(tfm.value), ".netcoreapp") && !StartsWith(Lower(tfm.value), ".netstandard")
             && !StartsWith(Lower(tfm.value), ".netframework")) ==>
      NormalizeFramework(tfm) == "net" + ReplaceAll(Lower(tfm.value)[4..], ".net", "net")
  {
    if !IsNullOrEmpty(tfm) {
      var t := Lower(tfm.value);
      if StartsWith(t, ".netcoreapp") {
        ReplaceLeading(t, ".netcoreapp", "netcoreapp");
      } else if StartsWith(t, ".netstandard") {
        ReplaceLeading(t, ".netstandard", "netstandard");
      } else if StartsWith(t, ".netframework") {
        ReplaceLeading(t, ".netframework", "net");
      } else if StartsWith(t, ".net") {
        ReplaceLeading(t, ".net", "net");
      }
    }
  }

  /** A string starting with `q` starts with every prefix of `q`. */
  lemma PrefixOfPrefix(t: string, q: string, p: string)
    requires StartsWith(t, q) && StartsWith(q, p)
    ensures StartsWith(t, p)
  {
    assert t[..|p|] == t[..|q|][..|p|];
  }

  /** One rewrite rule: every `pat` in a lower-case string starting with it
      becomes `rep`. */
  function Rewrite(t: string, pat: string, rep: string): (r: string)
    requires |pat| > 0 && StartsWith(t, pat) && IsLowerCase(t)
    requires IsLowerCase(rep) && StartsWith(rep, "net")
    ensures StartsWith(r, "net") && IsLowerCase(r)
  {
    ReplaceAtStart(t, pat, rep);
    ReplaceAllLowerCase(t, pat, rep);
    var r := ReplaceAll(t, pat, rep);
    assert r[..3] == r[..|rep|][..3];
    r
  }

  /** Normalising twice changes nothing. */
  lemma NormalizeFrameworkIdempotent(tfm: Option<string>)
    ensures NormalizeFramework(Some(NormalizeFramework(tfm))) == NormalizeFramework(tfm)
  {
    var r := NormalizeFramework(tfm);
    LowerCaseFixed(r);
    if |r| > 0 {
      assert !StartsWith(Lower(r), ".net") by {
        if !StartsWith(Lower(tfm.value), ".net") {
          LowerCaseFixed(tfm.value);
        } else {
          assert r[0] == 'n';
        }
      }
    }
  }

  /** Every `.net` in the moniker is rewritten, not only the leading one. */
  lemma NormalizeReplacesEveryOccurrence()
    ensures NormalizeFramework(Some(".NET.net")) == "netnet"
  {
    var t := Lower(".NET.net");
    assert t == ".net.net" by {
      assert |t| == 8;
      assert t[0] == '.' && t[1] == 'n' && t[2] == 'e' && t[3] == 't';
      assert t[4] == '.' && t[5] == 'n' && t[6] == 'e' && t[7] == 't';
    }
    assert |t| == 8 < |".netcoreapp"| < |".netstandard"| < |".netframework"|;
    assert ReplaceAll(".net", ".net", "net") == "net" + ReplaceAll("", ".net", "net");
    assert ReplaceAll(t, ".net", "net") == "net" + ReplaceAll(t[4..], ".net", "net");
    assert t[4..] == ".net";
  }

  /** The .NET Framework spelling becomes the short `net` form. */
  lemma NormalizeFrameworkExample()
    ensures NormalizeFramework(Some(".NETFramework4.5")) == "net4.5"
  {
    var t := Lower(".NETFramework4.5");
    assert t == ".netframework4.5";
    assert !StartsWith(t, ".netcoreapp") by { assert t[..11][4] != ".netcoreapp"[4]; }
    assert !StartsWith(t, ".netstandard") by { assert t[..12][4] != ".netstandard"[4]; }
    assert StartsWith(t, ".netframework");
    assert t[13..] == "4.5";
    assert ReplaceAll(t, ".netframework", "net") == "net" + ReplaceAll(t[13..], ".netframework", "net");
  }

  /** A framework name that survives the filter. */
  predicate NonEmpty(f: string) {
    |f| > 0
  }

  /** Every group's framework, normalised. */
  function NormalizedAll(gs: seq<Option<string>>): (r: seq<string>)
    ensures |r| == |gs|
    ensures forall k :: 0 <= k < |gs| ==> r[k] == NormalizeFramework(gs[k])
  {
    seq(|gs|, k requires 0 <= k < |gs| => NormalizeFramework(gs[k]))
  }

  /** Normalise, drop empty names, `Distinct()`, `OrderBy(f => f)`. */
  function FrameworkPipeline(gs: seq<Option<string>>, le: (string, string) -> bool): seq<string> {
    Seqs.SortBy(Seqs.DistinctBy(Seqs.Filter(NormalizedAll(gs), NonEmpty), Seqs.Self), le)
  }

  /** A name is listed exactly when it is non-empty and some group
      normalises to it. */
  lemma PipelineMembers(gs: seq<Option<string>>, le: (string, string) -> bool, f: string)
    ensures f in FrameworkPipeline(gs, le) <==>
      (|f| > 0 && exists k :: 0 <= k < |gs| && NormalizeFramework(gs[k]) == f)
  {
    var normalized := NormalizedAll(gs);
    var nonEmpty := Seqs.Filter(normalized, NonEmpty);
    var distinct := Seqs.DistinctBy(nonEmpty, Seqs.Self);
    var r := Seqs.SortBy(distinct, le);
    assert f in r <==> f in multiset(distinct);
    Seqs.DistinctMembers(nonEmpty, f);
    Seqs.FilterMembers(normalized, NonEmpty, f);
    if f in normalized {
      var k :| 0 <= k < |normalized| && normalized[k] == f;
    }
  }

  /** No name is listed twice, and the list is ordered under a total
      preorder. */
  lemma PipelineShape(gs: seq<Option<string>>, le: (string, string) -> bool)
    ensures Seqs.NoDuplicates(FrameworkPipeline(gs, le))
    ensures Seqs.Total(le) && Seqs.Transitive(le) ==> Seqs.SortedBy(FrameworkPipeline(gs, le), le)
  {
    var distinct := Seqs.DistinctBy(Seqs.Filter(NormalizedAll(gs), NonEmpty), Seqs.Self);
    Seqs.DistinctMembers(Seqs.Filter(NormalizedAll(gs), NonEmpty), "");
    Seqs.NoDuplicatesCounts(distinct);
    Seqs.NoDuplicatesCounts(FrameworkPipeline(gs, le));
    if Seqs.Total(le) && Seqs.Transitive(le) {
      Seqs.SortBySorted(distinct, le);
    }
  }

  /** The framework list: the groups' normalised frameworks without empty
      ones and repetitions, sorted; none when there are no groups. */
  function Frameworks(groups: Option<seq<Option<string>>>, le: (string, string) -> bool): (r: seq<string>)
    ensures groups.None? ==> r == []
    ensures forall i :: 0 <= i < |r| ==> |r[i]| > 0
    ensures Seqs.NoDuplicates(r)
    ensures Seqs.Total(le) && Seqs.Transitive(le) ==> Seqs.SortedBy(r, le)
    ensures groups.Some? ==> forall f :: f in r <==>
      (|f| > 0 && exists k :: 0 <= k < |groups.value| && NormalizeFramework(groups.value[k]) == f)
  {
    match groups
    case None => []
    case Some(gs) =>
      var r := FrameworkPipeline(gs, le);
      PipelineShape(gs, le);
      forall f ensures f in r <==> (|f| > 0 && exists k :: 0 <= k < |gs| && NormalizeFramework(gs[k]) == f) {
        PipelineMembers(gs, le, f);
      }
      r
  }
}

=== FILE: numeric.dfy ===
/**
 * C# machine integers: the `int` and `long` ranges, unchecked wrap-around
 * of an arithmetic result into them, and integer division, which truncates
 * toward zero.
 */
module Numeric {
  const Int32Min: int := -0x8000_0000
  const Int32Max: int := 0x7FFF_FFFF
  const Int64Min: int := -0x8000_0000_0000_0000
  const Int64Max: int := 0x7FFF_FFFF_FFFF_FFFF

  predicate IsInt32(x: int) {
    Int32Min <= x <= Int32Max
  }

  predicate IsInt64(x: int) {
    Int64Min <= x <= Int64Max
  }

  /** The `int` an unchecked 32-bit operation yields for the exact result `x`:
      the one value in range that agrees with `x` modulo 2^32. */
  function Wrap32(x: int): (r: int)
    ensures IsInt32(r)
    ensures (x - r) % 0x1_0000_0000 == 0
    ensures IsInt32(x) ==> r == x
  {
    var m := x % 0x1_0000_0000;
    if m > Int32Max then m - 0x1_0000_0000 else m
  }

  /** The same for `long`. */
  function Wrap64(x: int): (r: int)
    ensures IsInt64(r)
    ensures (x - r) % 0x1_0000_0000_0000_0000 == 0
    ensures IsInt64(x) ==> r == x
  {
    var m := x % 0x1_0000_0000_0000_0000;
    if m > Int64Max then m - 0x1_0000_0000_0000_0000 else m
  }

  /** C# `a / b`: the quotient rounded toward zero. */
  function TruncDiv(a: int, b: int): (q: int)
    requires b != 0
    ensures var rem := a - q * b;
      && (rem == 0 || (rem > 0 <==> a > 0))
      && (if rem >= 0 then rem else -rem) < (if b >= 0 then b else -b)
  {
    if b > 0 then (if a >= 0 then a / b else -((-a) / b))
    else (if a >= 0 then -(a / -b) else (-a) / -b)
  }

  /** A product with a positive factor is non-positive only if the other
      factor is. */
  lemma MulCancel(x: int, b: int)
    requires b > 0 && x * b <= 0
    ensures x <= 0
  {
  }

  /** Dividing a value within [0, c * b] by `b` gives a quotient within
      [0, c], and exactly `c` at the top. */
  lemma DivideBounded(a: int, b: int, c: int)
    requires b > 0 && 0 <= a <= c * b
    ensures 0 <= a / b <= c
    ensures a == c * b ==> a / b == c
  {
    var q := a / b;
    var r := a % b;
    assert a == q * b + r && 0 <= r < b;
    assert (q - c) * b == q * b - c * b;
    MulCancel(q - c, b);
    assert (-1 - q) * b == -b - q * b;
    MulCancel(-1 - q, b);
    if a == c * b {
      assert (c - 1 - q) * b == c * b - b - q * b;
      MulCancel(c - 1 - q, b);
    }
  }
}

=== FILE: osv.dfy ===
/**
 * Mapping the OSV.dev vulnerability records of a query response to the
 * system's vulnerability entries, and reading a severity label.
 *
 * The JSON layer is an input: a record arrives as `VulnRecord`, whose
 * nullable fields and nullable list elements are `Option`s. Timestamps are
 * opaque integers.
 */
module Osv {
  import opened Wrappers
  import opened Text

  datatype OsvSeverity = Critical | High | Medium | Low | Unknown

  /** `ParseSeverity`: the label, upper-cased, as one of the four levels;
      anything else, or no label, is `Unknown`. */
  function ParseSeverity(score: Option<string>): (r: OsvSeverity)
    ensures r == Critical <==> score.Some? && EqIgnoreCase(score.value, "CRITICAL")
    ensures r == High <==> score.Some? && EqIgnoreCase(score.value, "HIGH")
    ensures r == Medium <==> score.Some? && EqIgnoreCase(score.value, "MEDIUM")
    ensures r == Low <==> score.Some? && EqIgnoreCase(score.value, "LOW")
  {
    match score
    case None => Unknown
    case Some(s) =>
      var u := Upper(s);
      UpperIdempotent("CRITICAL");
      UpperIdempotent("HIGH");
      UpperIdempotent("MEDIUM");
      UpperIdempotent("LOW");
      if u == "CRITICAL" then Critical
      else if u == "HIGH" then High
      else if u == "MEDIUM" then Medium
      else if u == "LOW" then Low
      else Unknown
  }

  /** Labels that are none of the four levels, and a missing label, are
      `Unknown`. */
  lemma ParseSeverityUnknown(score: Option<string>)
    ensures ParseSeverity(score) == Unknown <==>
      (score.None? || (!EqIgnoreCase(score.value, "CRITICAL") && !EqIgnoreCase(score.value, "HIGH")
       && !EqIgnoreCase(score.value, "MEDIUM") && !EqIgnoreCase(score.value, "LOW")))
  {
  }

  /** Upper-casing a string of upper-case letters changes nothing. */
  lemma UpperIdempotent(s: string)
    requires forall i :: 0 <= i < |s| ==> 'A' <= s[i] <= 'Z'
    ensures Upper(s) == s
  {
  }

  // ---------------------------------------------------------------------------
  // Records

  /** One `severity` entry: its scheme and score. */
  datatype SeverityEntry = SeverityEntry(kind: Option<string>, score: Option<string>)

  /** One `references` entry. */
  datatype ReferenceEntry = ReferenceEntry(kind: Option<string>, url: Option<string>)

  /** The `database_specific` object. */
  datatype DatabaseSpecific = DatabaseSpecific(severity: Option<string>)

  /** A vulnerability record as the JSON layer delivers it. */
  datatype VulnRecord = VulnRecord(
    id: Option<string>,
    summary: Option<string>,
    details: Option<string>,
    aliases: Option<seq<string>>,
    published: Option<int>,
    modified: Option<int>,
    severity: Option<seq<Option<SeverityEntry>>>,
    references: Option<seq<Option<ReferenceEntry>>>,
    databaseSpecific: Option<DatabaseSpecific>)

  /** The system's vulnerability entry. */
  datatype OsvVulnerability = OsvVulnerability(
    id: string,
    summary: string,
    details: Option<string>,
    severity: OsvSeverity,
    cvssScore: Option<string>,
    aliases: seq<string>,
    referenceUrl: Option<string>,
    published: Option<int>,
    modified: Option<int>)

  /** `list?.FirstOrDefault()`: the first element, null for a null or empty
      list; the element itself may be null. */
  function FirstOrNull<T>(xs: Option<seq<Option<T>>>): (r: Option<T>)
    ensures xs.None? || |xs.value| == 0 ==> r.None?
    ensures xs.Some? && |xs.value| > 0 ==> r == xs.value[0]
  {
    if xs.Some? && |xs.value| > 0 then xs.value[0] else None
  }

  /** The score of the first `severity` entry. */
  function FirstSeverityScore(dto: VulnRecord): Option<string> {
    match FirstOrNull(dto.severity)
    case None => None
    case Some(e) => e.score
  }

  /** The severity label the entry is rated by: the database-specific one if
      present, else the first `severity` entry's score. */
  function SeveritySource(dto: VulnRecord): (r: Option<string>)
    ensures dto.databaseSpecific.Some? && dto.databaseSpecific.value.severity.Some? ==>
      r == dto.databaseSpecific.value.severity
    ensures !(dto.databaseSpecific.Some? && dto.databaseSpecific.value.severity.Some?) ==>
      r == FirstSeverityScore(dto)
  {
    var specific := match dto.databaseSpecific case None => None case Some(d) => d.severity;
    match specific
    case Some(s) => Some(s)
    case None => FirstSeverityScore(dto)
  }

  /** One record mapped to an entry. */
  function MapVulnerability(dto: VulnRecord): (v: OsvVulnerability)
    ensures v.id == dto.id.GetOr("") && v.summary == dto.summary.GetOr("")
    ensures v.details == dto.details
    ensures v.severity == ParseSeverity(SeveritySource(dto))
    ensures v.cvssScore == FirstSeverityScore(dto)
    ensures v.aliases == dto.aliases.GetOr([])
    ensures dto.references.None? || |dto.references.value| == 0 ==> v.referenceUrl.None?
    ensures dto.references.Some? && |dto.references.value| > 0 && dto.references.value[0].Some? ==>
      v.referenceUrl == dto.references.value[0].value.url
    ensures dto.references.Some? && |dto.references.value| > 0 && dto.references.value[0].None? ==>
      v.referenceUrl.None?
    ensures v.published == dto.published && v.modified == dto.modified
  {
    OsvVulnerability(
      dto.id.GetOr(""),
      dto.summary.GetOr(""),
      dto.details,
      ParseSeverity(SeveritySource(dto)),
      FirstSeverityScore(dto),
      dto.aliases.GetOr([]),
      match FirstOrNull(dto.references) case None => None case Some(r) => r.url,
      dto.published,
      dto.modified)
  }

  /** `MapVulnerabilities`: one entry per record, in order; none for a null
      or empty list. */
  function MapVulnerabilities(dtos: Option<seq<VulnRecord>>): (r: seq<OsvVulnerability>)
    ensures dtos.None? ==> r == []
    ensures dtos.Some? ==> |r| == |dtos.value|
    ensures dtos.Some? ==> forall i :: 0 <= i < |r| ==> r[i] == MapVulnerability(dtos.value[i])
  {
    match dtos
    case None => []
    case Some(ds) =>
      if |ds| == 0 then []
      else seq(|ds|, i requires 0 <= i < |ds| => MapVulnerability(ds[i]))
  }

  /** Mapping distributes over concatenation, so record order is kept. */
  lemma MapVulnerabilitiesAppend(a: seq<VulnRecord>, b: seq<VulnRecord>)
    ensures MapVulnerabilities(Some(a + b)) == MapVulnerabilities(Some(a)) + MapVulnerabilities(Some(b))
  {
  }
}

=== FILE: package_reference.dfy ===
/** The package reference record that scanners produce and the graph builder
    consumes. */
module PackageModels {
  import opened Wrappers

  /** Which kind of file a reference was read from. */
  datatype PackageSourceType =
    | ProjectFile
    | PackagesConfig
    | DirectoryPackagesProps
    | DirectoryBuildProps
    | DirectoryBuildTargets

  /** How the reference is declared. */
  datatype PackageType = PackageReferenceType | PackagesConfigType | ProjectReferenceType

  /** One package reference found in a project file. `versionOverride` and
      the repository id are never set by the modelled code and are omitted. */
  datatype PackageReference = PackageReference(
    packageName: string,
    version: string,
    projectFile: string,
    kind: PackageType,
    isCentrallyManaged: bool,
    sourceFile: Option<string>,
    sourceType: PackageSourceType)

  /** A reference with only the three fields the graph builder reads set; the
      others keep their C# defaults. */
  function Fact(name: string, version: string, projectFile: string): (p: PackageReference)
    ensures p.packageName == name && p.version == version && p.projectFile == projectFile
    ensures p.kind == PackageReferenceType && !p.isCentrallyManaged
    ensures p.sourceFile.None? && p.sourceType == ProjectFile
  {
    PackageReference(name, version, projectFile, PackageReferenceType, false, None, ProjectFile)
  }
}

=== FILE: package_stats.dfy ===
/**
 * The web page's package statistics: its own 0-100 health score built from
 * five point tiers, the three band labels over that score, and the top and
 * recent version lists.
 */
module Stats {
  import opened Wrappers
  import Seqs

  /** Downloads of one version, with the bar width the page draws for it. */
  datatype VersionDownload = VersionDownload(version: string, downloads: int, barWidthPercent: int)

  /** The statistics the score reads. Description, authors, icon, tags,
      target frameworks and the verification flag are display-only and
      omitted. Times are real numbers of days. */
  datatype PackageStats = PackageStats(
    id: string,
    version: string,
    projectUrl: Option<string>,
    licenseExpression: Option<string>,
    totalDownloads: int,
    published: Option<real>,
    versions: seq<VersionDownload>)

  // ---------------------------------------------------------------------------
  // Health score

  /** Up to 40 points for downloads. */
  function DownloadPoints(totalDownloads: int): (r: int)
    ensures r in {5, 10, 20, 30, 40}
    ensures r == 40 <==> totalDownloads >= 1_000_000
    ensures r == 5 <==> totalDownloads < 1_000
  {
    if totalDownloads >= 1_000_000 then 40
    else if totalDownloads >= 100_000 then 30
    else if totalDownloads >= 10_000 then 20
    else if totalDownloads >= 1_000 then 10
    else 5
  }

  /** Up to 20 points for the number of published versions. */
  function VersionCountPoints(count: nat): (r: int)
    ensures r in {0, 5, 10, 15, 20}
    ensures r == 0 <==> count < 2
    ensures r == 20 <==> count >= 20
  {
    if count >= 20 then 20
    else if count >= 10 then 15
    else if count >= 5 then 10
    else if count >= 2 then 5
    else 0
  }

  /** Up to 20 points for recent activity, in months of 30 days; nothing
      without a publish date. */
  function RecencyPoints(published: Option<real>, now: real): (r: int)
    ensures r in {0, 5, 10, 15, 20}
    ensures published.None? ==> r == 0
    ensures published.Some? ==> (r == 20 <==> now - published.value <= 90.0)
  {
    match published
    case None => 0
    case Some(p) =>
      var monthsAgo := (now - p) / 30.0;
      if monthsAgo <= 3.0 then 20
      else if monthsAgo <= 6.0 then 15
      else if monthsAgo <= 12.0 then 10
      else if monthsAgo <= 24.0 then 5
      else 0
  }

  /** Ten points for a non-empty optional text. */
  function PresencePoints(s: Option<string>): (r: int)
    ensures r == 10 <==> s.Some? && |s.value| > 0
    ensures r == 0 <==> s.None? || |s.value| == 0
  {
    if s.Some? && |s.value| > 0 then 10 else 0
  }

  /** The five tiers added up. */
  function TierSum(s: PackageStats, now: real): int {
    DownloadPoints(s.totalDownloads) + VersionCountPoints(|s.versions|)
    + RecencyPoints(s.published, now) + PresencePoints(s.projectUrl)
    + PresencePoints(s.licenseExpression)
  }

  /** `PackageStats.HealthScore`: the tier sum capped at 100. */
  function HealthScore(s: PackageStats, now: real): (r: int)
    ensures 5 <= r <= 100
  {
    var sum := TierSum(s, now);
    if sum < 100 then sum else 100
  }

  /** The cap never binds: the score is exactly the tier sum. */
  lemma HealthScoreIsTierSum(s: PackageStats, now: real)
    ensures HealthScore(s, now) == TierSum(s, now)
    ensures TierSum(s, now) <= 100
  {
  }

  /** Setting a project URL on a package without one adds exactly 10. */
  lemma ProjectUrlAddsTen(s: PackageStats, now: real, url: string)
    requires s.projectUrl.None? || |s.projectUrl.value| == 0
    requires |url| > 0
    ensures HealthScore(s.(projectUrl := Some(url)), now) == HealthScore(s, now) + 10
  {
    HealthScoreIsTierSum(s, now);
    HealthScoreIsTierSum(s.(projectUrl := Some(url)), now);
  }

  /** Setting a license on a package without one adds exactly 10. */
  lemma LicenseAddsTen(s: PackageStats, now: real, license: string)
    requires s.licenseExpression.None? || |s.licenseExpression.value| == 0
    requires |license| > 0
    ensures HealthScore(s.(licenseExpression := Some(license)), now) == HealthScore(s, now) + 10
  {
    HealthScoreIsTierSum(s, now);
    HealthScoreIsTierSum(s.(licenseExpression := Some(license)), now);
  }

  // ---------------------------------------------------------------------------
  // Labels

  /** `HealthLabel`. */
  function HealthLabel(score: int): (text: string)
    ensures text == "Excellent" <==> score >= 80
    ensures text == "Good" <==> 60 <= score < 80
    ensures text == "Fair" <==> 40 <= score < 60
    ensures text == "Needs Attention" <==> score < 40
  {
    if score >= 80 then "Excellent"
    else if score >= 60 then "Good"
    else if score >= 40 then "Fair"
    else "Needs Attention"
  }

  /** `HealthBadgeClass`. */
  function HealthBadgeClass(score: int): (css: string)
    ensures css == "badge bg-success" <==> score >= 80
    ensures css == "badge bg-primary" <==> 60 <= score < 80
    ensures css == "badge bg-warning text-dark" <==> 40 <= score < 60
    ensures css == "badge bg-danger" <==> score < 40
  {
    if score >= 80 then "badge bg-success"
    else if score >= 60 then "badge bg-primary"
    else if score >= 40 then "badge bg-warning text-dark"
    else "badge bg-danger"
  }

  /** `HealthBarClass`. */
  function HealthBarClass(score: int): (css: string)
    ensures css == "bg-success" <==> score >= 80
    ensures css == "bg-primary" <==> 60 <= score < 80
    ensures css == "bg-warning" <==> 40 <= score < 60
    ensures css == "bg-danger" <==> score < 40
  {
    if score >= 80 then "bg-success"
    else if score >= 60 then "bg-primary"
    else if score >= 40 then "bg-warning"
    else "bg-danger"
  }

  /** The three labels split scores into the same bands: two scores share a
      label exactly when they share a badge and exactly when they share a
      bar colour. */
  lemma LabelsAgree(a: int, b: int)
    ensures HealthLabel(a) == HealthLabel(b) <==> HealthBadgeClass(a) == HealthBadgeClass(b)
    ensures HealthBadgeClass(a) == HealthBadgeClass(b) <==> HealthBarClass(a) == HealthBarClass(b)
  {
  }

  // ---------------------------------------------------------------------------
  // Version lists

  /** "Sorts before" for `OrderByDescending(v => v.Downloads)`. */
  predicate MoreDownloads(a: VersionDownload, b: VersionDownload) {
    a.downloads >= b.downloads
  }

  lemma MoreDownloadsPreorder()
    ensures Seqs.Total(MoreDownloads) && Seqs.Transitive(MoreDownloads)
  {
  }

  /** Cutting a list sorted by downloads after `k` entries gives a head in
      non-increasing order, none of whose entries has fewer downloads than
      any entry of the tail. */
  lemma SortedCut(vs: seq<VersionDownload>, sorted: seq<VersionDownload>, k: nat)
    requires multiset(sorted) == multiset(vs) && k <= |sorted|
    requires Seqs.SortedBy(sorted, MoreDownloads)
    ensures forall i, j :: 0 <= i < j < k ==> sorted[..k][i].downloads >= sorted[..k][j].downloads
    ensures multiset(sorted[..k]) + multiset(sorted[k..]) == multiset(vs)
    ensures forall i, j :: 0 <= i < k && 0 <= j < |sorted| - k ==>
      sorted[..k][i].downloads >= sorted[k..][j].downloads
  {
    assert sorted == sorted[..k] + sorted[k..];
    forall i, j | 0 <= i < k && 0 <= j < |sorted| - k
      ensures sorted[..k][i].downloads >= sorted[k..][j].downloads
    {
      assert MoreDownloads(sorted[i], sorted[k + j]);
    }
    forall i, j | 0 <= i < j < k ensures sorted[..k][i].downloads >= sorted[..k][j].downloads {
      assert MoreDownloads(sorted[i], sorted[j]);
    }
  }

  /** `TopVersions`: the five most downloaded versions, most downloaded
      first. */
  function TopVersions(vs: seq<VersionDownload>): (r: seq<VersionDownload>)
    ensures |r| == if |vs| < 5 then |vs| else 5
    ensures forall i, j :: 0 <= i < j < |r| ==> r[i].downloads >= r[j].downloads
    ensures exists rest: seq<VersionDownload> :: (multiset(r) + multiset(rest) == multiset(vs)
      && forall i, j :: 0 <= i < |r| && 0 <= j < |rest| ==> r[i].downloads >= rest[j].downloads)
  {
    var sorted := Seqs.SortBy(vs, MoreDownloads);
    MoreDownloadsPreorder();
    Seqs.SortBySorted(vs, MoreDownloads);
    assert |sorted| == |vs| by {
      assert |sorted| == |multiset(sorted)| == |multiset(vs)| == |vs|;
    }
    var k := if |vs| < 5 then |vs| else 5;
    SortedCut(vs, sorted, k);
    var rest := sorted[k..];
    assert |rest| == |sorted| - k;
    sorted[..k]
  }

  /** `RecentVersions`: the last six versions, in their order. */
  function RecentVersions(vs: seq<VersionDownload>): (r: seq<VersionDownload>)
    ensures |r| == if |vs| < 6 then |vs| else 6
    ensures vs == vs[..|vs| - |r|] + r
  {
    var k := if |vs| < 6 then |vs| else 6;
    vs[|vs| - k..]
  }
}

=== FILE: scanner.dfy ===
/**
 * The package scanner: which files it accepts, how each XML element of a
 * project file, `packages.config` or `Directory.Packages.props` becomes a
 * package reference, and how a directory scan gathers and de-duplicates the
 * references of all files below it.
 *
 * The file system and the XML parser are inputs: a file is `Missing`,
 * `Malformed` (the parser throws) or `Parsed` into the sequence of matching
 * elements in document order. Paths use '/' as the only separator.
 */
module Scanner {
  import opened Wrappers
  import opened Text
  import Seqs
  import opened PackageModels

  // ---------------------------------------------------------------------------
  // Paths

  /** `s` ends with `e`, ordinally. */
  predicate EndsWith(s: string, e: string) {
    |e| <= |s| && s[|s| - |e|..] == e
  }

  /** `s` ends with `e`, ignoring case. */
  predicate EndsWithIgnoreCase(s: string, e: string) {
    |e| <= |s| && EqIgnoreCase(s[|s| - |e|..], e)
  }

  /** The position of the last `c` in `s`. */
  function LastIndexOf(s: string, c: char): (r: Option<nat>)
    ensures r.Some? ==> (r.value < |s| && s[r.value] == c
      && forall k :: r.value < k < |s| ==> s[k] != c)
    ensures r.None? ==> forall k :: 0 <= k < |s| ==> s[k] != c
    decreases |s|
  {
    if |s| == 0 then None
    else if s[|s| - 1] == c then Some(|s| - 1)
    else LastIndexOf(s[..|s| - 1], c)
  }

  /** `Path.GetFileName`: the longest suffix of `path` without a separator. */
  function FileName(path: string): (r: string)
    ensures '/' !in r
    ensures EndsWith(path, r)
    ensures |r| < |path| ==> path[|path| - |r| - 1] == '/'
  {
    match LastIndexOf(path, '/')
    case None => path
    case Some(i) => path[i + 1..]
  }

  /** The extension of a file name: from its last '.', or nothing when the
      name has no '.' or ends with it. */
  function NameExtension(name: string): (r: string)
    ensures r == [] || (|r| >= 2 && r[0] == '.' && EndsWith(name, r)
      && forall k :: 1 <= k < |r| ==> r[k] != '.')
  {
    var last := LastIndexOf(name, '.');
    if last.None? || last.value == |name| - 1 then []
    else
      var i := last.value;
      assert name[|name| - |name[i..]|..] == name[i..];
      name[i..]
  }

  /** `Path.GetExtension`. */
  function Extension(path: string): string {
    NameExtension(FileName(path))
  }

  /** The directory part `Path.Combine` puts before a file name. */
  function DirectoryPrefix(dir: string): (r: string)
    ensures r == [] || r[|r| - 1] == '/'
  {
    if |dir| == 0 then dir
    else if dir[|dir| - 1] == '/' then dir
    else dir + "/"
  }

  /** `Path.Combine(dir, name)` for a plain file name. */
  function Combine(dir: string, name: string): string {
    DirectoryPrefix(dir) + name
  }

  /** The file name of a combined path is the name that was appended. */
  lemma CombineFileName(dir: string, name: string)
    requires '/' !in name
    ensures FileName(Combine(dir, name)) == name
  {
    var pre := DirectoryPrefix(dir);
    var p := pre + name;
    var last := LastIndexOf(p, '/');
    if |pre| == 0 {
      assert p == name;
    } else {
      assert p[|pre| - 1] == '/';
      assert forall k :: |pre| <= k < |p| ==> p[k] == name[k - |pre|];
      assert last == Some(|pre| - 1);
      assert p[|pre|..] == name;
    }
  }

  /** A name ending in `.xyz` ignoring case has that suffix as its
      extension. */
  lemma SuffixIsExtension(name: string, e: string)
    requires |e| >= 2 && e[0] == '.' && forall k :: 1 <= k < |e| ==> e[k] != '.'
    ensures EndsWithIgnoreCase(name, e) ==> NameExtension(name) == name[|name| - |e|..]
    ensures EndsWithIgnoreCase(name, e) ==> EqIgnoreCase(NameExtension(name), e)
  {
    if EndsWithIgnoreCase(name, e) {
      var j := |name| - |e|;
      var t := name[j..];
      assert Upper(t)[0] == Upper(e)[0];
      assert name[j] == '.';
      forall k | j < k < |name| ensures name[k] != '.' {
        assert Upper(t)[k - j] == Upper(e)[k - j];
      }
      assert LastIndexOf(name, '.') == Some(j);
    }
  }

  /** An extension equal to `.xyz` ignoring case is a suffix of the name. */
  lemma ExtensionIsSuffix(name: string, e: string)
    requires |e| >= 2
    ensures EqIgnoreCase(NameExtension(name), e) ==> EndsWithIgnoreCase(name, e)
  {
    var x := NameExtension(name);
    if EqIgnoreCase(x, e) {
      assert |Upper(x)| == |Upper(e)|;
      assert name[|name| - |x|..] == x;
    }
  }

  /** Extension test for extensions of the form ".xyz". */
  lemma ExtensionMatches(path: string, e: string)
    requires |e| >= 2 && e[0] == '.' && forall k :: 1 <= k < |e| ==> e[k] != '.'
    ensures EqIgnoreCase(Extension(path), e) <==> EndsWithIgnoreCase(FileName(path), e)
  {
    var name := FileName(path);
    assert Extension(path) == NameExtension(name);
    SuffixIsExtension(name, e);
    ExtensionIsSuffix(name, e);
  }

  /** The scanner's file filter: a `.csproj` or `.fsproj` extension, or a file
      named `packages.config`, all ignoring case. */
  predicate IsSupportedProjectFile(path: string) {
    EqIgnoreCase(Extension(path), ".csproj") || EqIgnoreCase(Extension(path), ".fsproj")
    || EqIgnoreCase(FileName(path), "packages.config")
  }

  /** The filter stated on the file name alone. */
  lemma SupportedProjectFileByName(path: string)
    ensures IsSupportedProjectFile(path) <==>
      (EndsWithIgnoreCase(FileName(path), ".csproj")
       || EndsWithIgnoreCase(FileName(path), ".fsproj")
       || EqIgnoreCase(FileName(path), "packages.config"))
  {
    ExtensionMatches(path, ".csproj");
    ExtensionMatches(path, ".fsproj");
  }

  // ---------------------------------------------------------------------------
  // Files and errors

  /** A file as the scanner finds it. */
  datatype XmlFile<E> = Missing | Malformed | Parsed(elements: seq<E>)

  /** The exceptions the scanner throws: `ArgumentException`,
      `FileNotFoundException`, `XmlException`, `DirectoryNotFoundException`. */
  datatype ScanError = InvalidArgument | FileNotFound | MalformedXml | DirectoryNotFound

  /** The checks every single-file scan starts with. */
  function ValidateFile<E>(path: string, file: XmlFile<E>): (r: Option<ScanError>)
    ensures r == Some(InvalidArgument) <==> AllWhiteSpace(path)
    ensures r == Some(FileNotFound) <==> !AllWhiteSpace(path) && file.Missing?
    ensures r.None? <==> !AllWhiteSpace(path) && !file.Missing?
  {
    if AllWhiteSpace(path) then Some(InvalidArgument)
    else if file.Missing? then Some(FileNotFound)
    else None
  }

  // ---------------------------------------------------------------------------
  // Elements

  /** A `<PackageReference>`: its `Include` and `Version` attributes and the
      text of its `<Version>` child, each possibly absent. */
  datatype ProjectElement = ProjectElement(
    includeAttr: Option<string>,
    versionAttr: Option<string>,
    versionChild: Option<string>)

  /** A `<package>` of `packages.config`: its `id` and `version` attributes. */
  datatype ConfigElement = ConfigElement(id: Option<string>, version: Option<string>)

  /** A `<PackageVersion>` of `Directory.Packages.props`. */
  datatype PropsElement = PropsElement(includeAttr: Option<string>, version: Option<string>)

  /** The version a `<PackageReference>` declares: the attribute, else the
      child element, else the "CPM" placeholder of centrally managed
      versions. */
  function DeclaredVersion(el: ProjectElement): string {
    match el.versionAttr
    case Some(v) => v
    case None => el.versionChild.GetOr("CPM")
  }

  /** The reference a project-file element yields, if its name is not blank. */
  function ProjectEntry(path: string, el: ProjectElement): (r: Option<PackageReference>)
    ensures r.Some? <==> !IsNullOrWhiteSpace(el.includeAttr)
    ensures r.Some? ==> (
      && r.value.packageName == Trim(el.includeAttr.value) && |r.value.packageName| > 0
      && (el.versionAttr.Some? ==> r.value.version == Trim(el.versionAttr.value))
      && (el.versionAttr.None? && el.versionChild.Some? ==> r.value.version == Trim(el.versionChild.value))
      && (el.versionAttr.None? && el.versionChild.None? ==> r.value.version == "CPM")
      && r.value.projectFile == path && r.value.sourceFile == Some(path)
      && r.value.kind == PackageReferenceType && !r.value.isCentrallyManaged
      && r.value.sourceType == ProjectFile)
  {
    if IsNullOrWhiteSpace(el.includeAttr) then None
    else
      TrimBlank(el.includeAttr.value);
      TrimUnpadded("CPM");
      Some(PackageReference(Trim(el.includeAttr.value), Trim(DeclaredVersion(el)), path,
        PackageReferenceType, false, Some(path), ProjectFile))
  }

  /** The reference a `packages.config` element yields, if both its id and
      version are present and not blank. */
  function ConfigEntry(path: string, el: ConfigElement): (r: Option<PackageReference>)
    ensures r.Some? <==> !IsNullOrWhiteSpace(el.id) && !IsNullOrWhiteSpace(el.version)
    ensures r.Some? ==> (
      && r.value.packageName == Trim(el.id.value) && |r.value.packageName| > 0
      && r.value.version == Trim(el.version.value) && |r.value.version| > 0
      && r.value.projectFile == path && r.value.sourceFile == Some(path)
      && r.value.kind == PackagesConfigType && !r.value.isCentrallyManaged
      && r.value.sourceType == PackagesConfig)
  {
    if IsNullOrWhiteSpace(el.id) || IsNullOrWhiteSpace(el.version) then None
    else
      TrimBlank(el.id.value);
      TrimBlank(el.version.value);
      Some(PackageReference(Trim(el.id.value), Trim(el.version.value), path,
        PackagesConfigType, false, Some(path), PackagesConfig))
  }

  /** The reference a `Directory.Packages.props` element yields: always
      centrally managed. */
  function PropsEntry(path: string, el: PropsElement): (r: Option<PackageReference>)
    ensures r.Some? <==> !IsNullOrWhiteSpace(el.includeAttr) && !IsNullOrWhiteSpace(el.version)
    ensures r.Some? ==> (
      && r.value.packageName == Trim(el.includeAttr.value) && |r.value.packageName| > 0
      && r.value.version == Trim(el.version.value) && |r.value.version| > 0
      && r.value.projectFile == path && r.value.sourceFile == Some(path)
      && r.value.kind == PackageReferenceType && r.value.isCentrallyManaged
      && r.value.sourceType == DirectoryPackagesProps)
  {
    if IsNullOrWhiteSpace(el.includeAttr) || IsNullOrWhiteSpace(el.version) then None
    else
      TrimBlank(el.includeAttr.value);
      TrimBlank(el.version.value);
      Some(PackageReference(Trim(el.includeAttr.value), Trim(el.version.value), path,
        PackageReferenceType, true, Some(path), DirectoryPackagesProps))
  }

  // ---------------------------------------------------------------------------
  // Whole documents

  /** The references of a project file's elements. */
  function ProjectEntries(path: string, els: seq<ProjectElement>): (r: seq<PackageReference>)
    ensures |r| <= |els|
    ensures forall i :: 0 <= i < |r| ==> (
      && |r[i].packageName| > 0 && r[i].projectFile == path && r[i].sourceFile == Some(path)
      && r[i].kind == PackageReferenceType && !r[i].isCentrallyManaged
      && r[i].sourceType == ProjectFile)
  {
    var r := Seqs.FilterMap(els, el => ProjectEntry(path, el));
    forall i | 0 <= i < |r|
      ensures |r[i].packageName| > 0 && r[i].projectFile == path && r[i].sourceFile == Some(path)
      ensures r[i].kind == PackageReferenceType && !r[i].isCentrallyManaged
      ensures r[i].sourceType == ProjectFile
    {
      var j :| 0 <= j < |els| && ProjectEntry(path, els[j]) == Some(r[i]);
    }
    r
  }

  /** The references of a `packages.config`'s elements. */
  function ConfigEntries(path: string, els: seq<ConfigElement>): (r: seq<PackageReference>)
    ensures |r| <= |els|
    ensures forall i :: 0 <= i < |r| ==> (
      && |r[i].packageName| > 0 && |r[i].version| > 0
      && r[i].projectFile == path && r[i].sourceFile == Some(path)
      && r[i].kind == PackagesConfigType && !r[i].isCentrallyManaged
      && r[i].sourceType == PackagesConfig)
  {
    var r := Seqs.FilterMap(els, el => ConfigEntry(path, el));
    forall i | 0 <= i < |r|
      ensures |r[i].packageName| > 0 && |r[i].version| > 0
      ensures r[i].projectFile == path && r[i].sourceFile == Some(path)
      ensures r[i].kind == PackagesConfigType && !r[i].isCentrallyManaged
      ensures r[i].sourceType == PackagesConfig
    {
      var j :| 0 <= j < |els| && ConfigEntry(path, els[j]) == Some(r[i]);
    }
    r
  }

  /** The references of a `Directory.Packages.props`'s elements. */
  function PropsEntries(path: string, els: seq<PropsElement>): (r: seq<PackageReference>)
    ensures |r| <= |els|
    ensures forall i :: 0 <= i < |r| ==> (
      && |r[i].packageName| > 0 && |r[i].version| > 0
      && r[i].projectFile == path && r[i].sourceFile == Some(path)
      && r[i].kind == PackageReferenceType && r[i].isCentrallyManaged
      && r[i].sourceType == DirectoryPackagesProps)
  {
    var r := Seqs.FilterMap(els, el => PropsEntry(path, el));
    forall i | 0 <= i < |r|
      ensures |r[i].packageName| > 0 && |r[i].version| > 0
      ensures r[i].projectFile == path && r[i].sourceFile == Some(path)
      ensures r[i].kind == PackageReferenceType && r[i].isCentrallyManaged
      ensures r[i].sourceType == DirectoryPackagesProps
    {
      var j :| 0 <= j < |els| && PropsEntry(path, els[j]) == Some(r[i]);
    }
    r
  }

  /** A project file's references come element by element, in document
      order. */
  lemma ProjectEntriesInOrder(path: string, a: seq<ProjectElement>, b: seq<ProjectElement>, el: ProjectElement)
    ensures ProjectEntries(path, a + b) == ProjectEntries(path, a) + ProjectEntries(path, b)
    ensures ProjectEntries(path, [el]) == (match ProjectEntry(path, el) case Some(p) => [p] case None => [])
  {
    Seqs.FilterMapAppend(a, b, el => ProjectEntry(path, el));
    Seqs.FilterMapSingle(el, el => ProjectEntry(path, el));
  }

  /** The same for `packages.config`. */
  lemma ConfigEntriesInOrder(path: string, a: seq<ConfigElement>, b: seq<ConfigElement>, el: ConfigElement)
    ensures ConfigEntries(path, a + b) == ConfigEntries(path, a) + ConfigEntries(path, b)
    ensures ConfigEntries(path, [el]) == (match ConfigEntry(path, el) case Some(p) => [p] case None => [])
  {
    Seqs.FilterMapAppend(a, b, el => ConfigEntry(path, el));
    Seqs.FilterMapSingle(el, el => ConfigEntry(path, el));
  }

  /** The same for `Directory.Packages.props`. */
  lemma PropsEntriesInOrder(path: string, a: seq<PropsElement>, b: seq<PropsElement>, el: PropsElement)
    ensures PropsEntries(path, a + b) == PropsEntries(path, a) + PropsEntries(path, b)
    ensures PropsEntries(path, [el]) == (match PropsEntry(path, el) case Some(p) => [p] case None => [])
  {
    Seqs.FilterMapAppend(a, b, el => PropsEntry(path, el));
    Seqs.FilterMapSingle(el, el => PropsEntry(path, el));
  }

  // ---------------------------------------------------------------------------
  // Single-file scans

  /** Scans a `.csproj`, `.fsproj` (or `packages.config`, which passes the
      filter but holds no `<PackageReference>`). */
  function ScanProjectFile(path: string, file: XmlFile<ProjectElement>): (r: Result<seq<PackageReference>, ScanError>)
    ensures r == Failure(InvalidArgument) <==>
      AllWhiteSpace(path) || (!file.Missing? && !IsSupportedProjectFile(path))
    ensures r == Failure(FileNotFound) <==> !AllWhiteSpace(path) && file.Missing?
    ensures r == Failure(MalformedXml) <==>
      !AllWhiteSpace(path) && IsSupportedProjectFile(path) && file.Malformed?
    ensures r.Success? <==> !AllWhiteSpace(path) && IsSupportedProjectFile(path) && file.Parsed?
    ensures r.Success? ==> r.value == ProjectEntries(path, file.elements)
  {
    match ValidateFile(path, file)
    case Some(e) => Failure(e)
    case None =>
      if !IsSupportedProjectFile(path) then Failure(InvalidArgument)
      else match file
        case Malformed => Failure(MalformedXml)
        case Parsed(els) => Success(ProjectEntries(path, els))
  }

  /** Scans a `packages.config`; unlike the project scan it accepts any file
      name. */
  function ScanPackagesConfig(path: string, file: XmlFile<ConfigElement>): (r: Result<seq<PackageReference>, ScanError>)
    ensures r == Failure(InvalidArgument) <==> AllWhiteSpace(path)
    ensures r == Failure(FileNotFound) <==> !AllWhiteSpace(path) && file.Missing?
    ensures r == Failure(MalformedXml) <==> !AllWhiteSpace(path) && file.Malformed?
    ensures r.Success? <==> !AllWhiteSpace(path) && file.Parsed?
    ensures r.Success? ==> r.value == ConfigEntries(path, file.elements)
  {
    match ValidateFile(path, file)
    case Some(e) => Failure(e)
    case None =>
      match file
      case Malformed => Failure(MalformedXml)
      case Parsed(els) => Success(ConfigEntries(path, els))
  }

  /** Scans a `Directory.Packages.props`; it accepts any file name. */
  function ScanDirectoryPackagesProps(path: string, file: XmlFile<PropsElement>): (r: Result<seq<PackageReference>, ScanError>)
    ensures r == Failure(InvalidArgument) <==> AllWhiteSpace(path)
    ensures r == Failure(FileNotFound) <==> !AllWhiteSpace(path) && file.Missing?
    ensures r == Failure(MalformedXml) <==> !AllWhiteSpace(path) && file.Malformed?
    ensures r.Success? <==> !AllWhiteSpace(path) && file.Parsed?
    ensures r.Success? ==> r.value == PropsEntries(path, file.elements)
  {
    match ValidateFile(path, file)
    case Some(e) => Failure(e)
    case None =>
      match file
      case Malformed => Failure(MalformedXml)
      case Parsed(els) => Success(PropsEntries(path, els))
  }

  // ---------------------------------------------------------------------------
  // Directory scans

  /** What a directory scan sees: whether the directory exists, the state of
      its `Directory.Packages.props`, and the files its recursive
      enumerations return (`*.csproj` files then `*.fsproj` files, and the
      `packages.config` files), each with its path and state. */
  datatype DirectoryListing = DirectoryListing(
    found: bool,
    centralProps: XmlFile<PropsElement>,
    projectFiles: seq<(string, XmlFile<ProjectElement>)>,
    configFiles: seq<(string, XmlFile<ConfigElement>)>)

  const CentralPropsName: string := "Directory.Packages.props"

  /** The references of a list of files, each scanned in turn, with a file
      whose scan throws contributing nothing. */
  function Caught<E>(files: seq<(string, XmlFile<E>)>,
                     scan: (string, XmlFile<E>) -> Result<seq<PackageReference>, ScanError>): seq<PackageReference>
    decreases |files|
  {
    if |files| == 0 then []
    else
      (match scan(files[0].0, files[0].1) case Success(refs) => refs case Failure(_) => [])
      + Caught(files[1..], scan)
  }

  /** Scanning a list of files is scanning each, in order, and a failing file
      adds nothing. */
  lemma {:induction false} CaughtAppend<E>(files: seq<(string, XmlFile<E>)>, more: seq<(string, XmlFile<E>)>,
                                           scan: (string, XmlFile<E>) -> Result<seq<PackageReference>, ScanError>)
    ensures Caught(files + more, scan) == Caught(files, scan) + Caught(more, scan)
    decreases |files|
  {
    if |files| > 0 {
      assert (files + more)[1..] == files[1..] + more;
      CaughtAppend(files[1..], more, scan);
    } else {
      assert files + more == more;
    }
  }

  /** The references in scan order, before de-duplication: the central file's
      first, then the project files', then the `packages.config` files'. */
  function Gathered(dir: string, d: DirectoryListing): seq<PackageReference> {
    var central := match d.centralProps
      case Parsed(els) => PropsEntries(Combine(dir, CentralPropsName), els)
      case _ => [];
    central + Caught(d.projectFiles, ScanProjectFile) + Caught(d.configFiles, ScanPackagesConfig)
  }

  /** The de-duplication key: name, version and source file, compared
      ordinally. */
  function DedupKey(p: PackageReference): (string, string, Option<string>) {
    (p.packageName, p.version, p.sourceFile)
  }

  /** `ScanDirectoryAsync`. A malformed central file aborts the scan; every
      other file's failure is swallowed. */
  function ScanDirectory(dir: string, d: DirectoryListing): (r: Result<seq<PackageReference>, ScanError>)
    ensures !d.found ==> r == Failure(DirectoryNotFound)
    ensures d.found && d.centralProps.Malformed? ==> r == Failure(MalformedXml)
    ensures r.Success? <==> d.found && !d.centralProps.Malformed?
    ensures r.Success? ==> (
      var all := Gathered(dir, d);
      && Seqs.KeysDistinct(r.value, DedupKey)
      && Seqs.KeySet(r.value, DedupKey) == Seqs.KeySet(all, DedupKey)
      && (forall i :: 0 <= i < |r.value| ==>
            r.value[i] == all[Seqs.FirstIndex(all, DedupKey, DedupKey(r.value[i]))])
      && (forall i, j :: 0 <= i < j < |r.value| ==>
            Seqs.FirstIndex(all, DedupKey, DedupKey(r.value[i]))
            < Seqs.FirstIndex(all, DedupKey, DedupKey(r.value[j]))))
  {
    if !d.found then Failure(DirectoryNotFound)
    else
      var propsPath := Combine(dir, CentralPropsName);
      assert !AllWhiteSpace(propsPath) by {
        assert propsPath[|propsPath| - 1] == 's';
      }
      var central := if d.centralProps.Missing? then Success([])
        else ScanDirectoryPackagesProps(propsPath, d.centralProps);
      match central
      case Failure(e) => Failure(e)
      case Success(_) => Success(Seqs.DistinctBy(Gathered(dir, d), DedupKey))
  }

  /** A project file whose scan fails leaves a directory scan's result as it
      would be without that file. */
  lemma SkipsFailingProjectFile(dir: string, d: DirectoryListing, path: string, file: XmlFile<ProjectElement>)
    requires ScanProjectFile(path, file).Failure?
    ensures ScanDirectory(dir, d.(projectFiles := d.projectFiles + [(path, file)])) == ScanDirectory(dir, d)
  {
    var d' := d.(projectFiles := d.projectFiles + [(path, file)]);
    var before := Caught(d.projectFiles, ScanProjectFile);
    CaughtAppend(d.projectFiles, [(path, file)], ScanProjectFile);
    assert Caught([(path, file)], ScanProjectFile) == [];
    assert before + [] == before;
    assert Caught(d'.projectFiles, ScanProjectFile) == before;
    assert Gathered(dir, d') == Gathered(dir, d);
    SameGatheredSameScan(dir, d', d);
  }

  /** A directory scan depends on the listing only through the directory's
      presence, its central file and the references gathered. */
  lemma SameGatheredSameScan(dir: string, d1: DirectoryListing, d2: DirectoryListing)
    requires d1.found == d2.found && d1.centralProps == d2.centralProps
    requires Gathered(dir, d1) == Gathered(dir, d2)
    ensures ScanDirectory(dir, d1) == ScanDirectory(dir, d2)
  {
  }

  /** A parsed, supported project file appended to the listing adds its
      references after those found so far, before de-duplication. */
  lemma AppendsProjectFile(dir: string, d: DirectoryListing, path: string, els: seq<ProjectElement>)
    requires !AllWhiteSpace(path) && IsSupportedProjectFile(path)
    ensures Caught(d.projectFiles + [(path, Parsed(els))], ScanProjectFile)
      == Caught(d.projectFiles, ScanProjectFile) + ProjectEntries(path, els)
  {
    CaughtAppend(d.projectFiles, [(path, Parsed(els))], ScanProjectFile);
    assert Caught([(path, Parsed(els))], ScanProjectFile) == ProjectEntries(path, els);
  }
}

=== FILE: seqs.dfy ===
/**
 * The LINQ operators the system uses on lists: `DistinctBy` (first
 * occurrence of each key wins, order kept) and the stable `OrderBy`, with
 * the facts about them that the rest of the model needs.
 */
module Seqs {
  import opened Wrappers

  // ---------------------------------------------------------------------------
  // Keys

  /** The set of keys of the elements of `xs`. */
  function KeySet<T, K(==)>(xs: seq<T>, key: T -> K): set<K> {
    set i | 0 <= i < |xs| :: key(xs[i])
  }

  /** The keys of `xs` are pairwise different. */
  ghost predicate KeysDistinct<T, K>(xs: seq<T>, key: T -> K) {
    forall i, j :: 0 <= i < j < |xs| ==> key(xs[i]) != key(xs[j])
  }

  /** The index of the first element of `xs` whose key is `k`. */
  function FirstIndex<T, K(==)>(xs: seq<T>, key: T -> K, k: K): (i: nat)
    requires k in KeySet(xs, key)
    ensures i < |xs| && key(xs[i]) == k
    ensures forall j :: 0 <= j < i ==> key(xs[j]) != k
    decreases |xs|
  {
    if key(xs[0]) == k then 0
    else
      assert k in KeySet(xs[1..], key) by {
        var j :| 0 <= j < |xs| && key(xs[j]) == k;
        assert key(xs[1..][j - 1]) == k;
      }
      1 + FirstIndex(xs[1..], key, k)
  }

  lemma KeySetAppend<T, K>(xs: seq<T>, x: T, key: T -> K)
    ensures KeySet(xs + [x], key) == KeySet(xs, key) + {key(x)}
  {
    var ys := xs + [x];
    forall k | k in KeySet(ys, key) ensures k in KeySet(xs, key) + {key(x)} {
      var j :| 0 <= j < |ys| && key(ys[j]) == k;
      if j < |xs| { assert key(xs[j]) == k; }
    }
    forall k | k in KeySet(xs, key) ensures k in KeySet(ys, key) {
      var j :| 0 <= j < |xs| && key(xs[j]) == k;
      assert key(ys[j]) == k;
    }
    assert key(ys[|xs|]) == key(x);
  }

  /** The first index of a key that already occurs in a prefix is not moved by
      appending to it. */
  lemma FirstIndexAppend<T, K>(xs: seq<T>, x: T, key: T -> K, k: K)
    requires k in KeySet(xs, key)
    ensures KeySet(xs + [x], key) == KeySet(xs, key) + {key(x)}
    ensures FirstIndex(xs + [x], key, k) == FirstIndex(xs, key, k)
  {
    KeySetAppend(xs, x, key);
    var i := FirstIndex(xs, key, k);
    var i' := FirstIndex(xs + [x], key, k);
    assert (xs + [x])[i] == xs[i];
  }

  /** A sequence of pairwise different keys has as many keys as elements. */
  lemma {:induction false} KeysDistinctCard<T, K>(xs: seq<T>, key: T -> K)
    requires KeysDistinct(xs, key)
    ensures |KeySet(xs, key)| == |xs|
    decreases |xs|
  {
    if |xs| > 0 {
      var init := xs[..|xs| - 1];
      var last := xs[|xs| - 1];
      assert xs == init + [last];
      KeysDistinctCard(init, key);
      KeySetAppend(init, last, key);
      forall j | 0 <= j < |init| ensures key(init[j]) != key(last) {
        assert init[j] == xs[j];
      }
    }
  }

  // ---------------------------------------------------------------------------
  // DistinctBy

  /** `r` holds the first element of `xs` for each key, in order of first
      occurrence. */
  ghost predicate DistinctOf<T, K>(r: seq<T>, xs: seq<T>, key: T -> K) {
    && |r| <= |xs|
    && KeysDistinct(r, key)
    && KeySet(r, key) == KeySet(xs, key)
    && (forall i :: 0 <= i < |r| ==>
          key(r[i]) in KeySet(xs, key) && r[i] == xs[FirstIndex(xs, key, key(r[i]))])
    && (forall i, j :: 0 <= i < j < |r| ==>
          FirstIndex(xs, key, key(r[i])) < FirstIndex(xs, key, key(r[j])))
  }

  /** Appending to a list moves the first index of no key already in it. */
  lemma FirstIndicesKept<T, K>(init: seq<T>, last: T, key: T -> K)
    ensures KeySet(init + [last], key) == KeySet(init, key) + {key(last)}
    ensures forall k :: k in KeySet(init, key) ==>
      FirstIndex(init + [last], key, k) == FirstIndex(init, key, k)
  {
    KeySetAppend(init, last, key);
    forall k | k in KeySet(init, key)
      ensures FirstIndex(init + [last], key, k) == FirstIndex(init, key, k)
    {
      FirstIndexAppend(init, last, key, k);
    }
  }

  /** A key that is new to a list first occurs at the appended element. */
  lemma FirstIndexOfNew<T, K>(init: seq<T>, last: T, key: T -> K)
    requires key(last) !in KeySet(init, key)
    ensures key(last) in KeySet(init + [last], key)
    ensures FirstIndex(init + [last], key, key(last)) == |init|
  {
    KeySetAppend(init, last, key);
    var xs := init + [last];
    forall j | 0 <= j < |init| ensures key(xs[j]) != key(last) {
      assert xs[j] == init[j];
      assert key(init[j]) in KeySet(init, key);
    }
  }

  /** Appending an element whose key was seen leaves the distinct list as it
      is. */
  lemma DistinctSeen<T, K>(init: seq<T>, last: T, key: T -> K, d: seq<T>)
    requires DistinctOf(d, init, key) && key(last) in KeySet(d, key)
    ensures DistinctOf(d, init + [last], key)
  {
    var xs := init + [last];
    FirstIndicesKept(init, last, key);
    forall i | 0 <= i < |d| ensures d[i] == xs[FirstIndex(xs, key, key(d[i]))] {
      assert xs[FirstIndex(init, key, key(d[i]))] == init[FirstIndex(init, key, key(d[i]))];
    }
  }

  /** Appending an element with a new key appends it to the distinct list. */
  lemma DistinctUnseen<T, K>(init: seq<T>, last: T, key: T -> K, d: seq<T>)
    requires DistinctOf(d, init, key) && key(last) !in KeySet(d, key)
    ensures DistinctOf(d + [last], init + [last], key)
  {
    var xs := init + [last];
    var r := d + [last];
    FirstIndicesKept(init, last, key);
    FirstIndexOfNew(init, last, key);
    KeySetAppend(d, last, key);
    forall i | 0 <= i < |d| ensures r[i] == d[i] && key(d[i]) in KeySet(init, key) {
      assert key(d[i]) in KeySet(d, key);
    }
    assert KeysDistinct(r, key) by {
      forall i, j | 0 <= i < j < |r| ensures key(r[i]) != key(r[j]) {
        assert key(d[i]) in KeySet(d, key);
      }
    }
    forall i | 0 <= i < |r|
      ensures key(r[i]) in KeySet(xs, key) && r[i] == xs[FirstIndex(xs, key, key(r[i]))]
    {
      if i < |d| {
        assert xs[FirstIndex(init, key, key(d[i]))] == init[FirstIndex(init, key, key(d[i]))];
      }
    }
    forall i, j | 0 <= i < j < |r|
      ensures FirstIndex(xs, key, key(r[i])) < FirstIndex(xs, key, key(r[j]))
    {
      if j == |d| {
        assert FirstIndex(init, key, key(d[i])) < |init|;
      }
    }
  }

  /** `xs.DistinctBy(key)`: the first element for each key, in order. */
  function DistinctBy<T, K(==)>(xs: seq<T>, key: T -> K): (r: seq<T>)
    ensures |r| <= |xs|
    ensures KeysDistinct(r, key)
    ensures KeySet(r, key) == KeySet(xs, key)
    ensures forall i :: 0 <= i < |r| ==>
      key(r[i]) in KeySet(xs, key) && r[i] == xs[FirstIndex(xs, key, key(r[i]))]
    ensures forall i, j :: 0 <= i < j < |r| ==>
      FirstIndex(xs, key, key(r[i])) < FirstIndex(xs, key, key(r[j]))
    decreases |xs|
  {
    if |xs| == 0 then []
    else
      var init := xs[..|xs| - 1];
      var last := xs[|xs| - 1];
      assert xs == init + [last];
      var d := DistinctBy(init, key);
      if key(last) in KeySet(d, key) then
        DistinctSeen(init, last, key, d);
        d
      else
        DistinctUnseen(init, last, key, d);
        d + [last]
  }

  /** `DistinctBy` keeps exactly as many elements as there are keys. */
  lemma DistinctByCard<T, K>(xs: seq<T>, key: T -> K)
    ensures |DistinctBy(xs, key)| == |KeySet(xs, key)|
  {
    KeysDistinctCard(DistinctBy(xs, key), key);
  }

  // ---------------------------------------------------------------------------
  // Stable sorting

  /** Every pair of values is comparable. */
  ghost predicate Total<T(!new)>(le: (T, T) -> bool) {
    forall a, b :: le(a, b) || le(b, a)
  }

  ghost predicate Transitive<T(!new)>(le: (T, T) -> bool) {
    forall a, b, c :: le(a, b) && le(b, c) ==> le(a, c)
  }

  /** `xs` is in non-decreasing order under `le`. */
  ghost predicate SortedBy<T>(xs: seq<T>, le: (T, T) -> bool) {
    forall i, j :: 0 <= i < j < |xs| ==> le(xs[i], xs[j])
  }

  /** Inserts `x` before the first element it is `le` to. */
  function Insert<T>(x: T, s: seq<T>, le: (T, T) -> bool): (r: seq<T>)
    ensures multiset(r) == multiset(s) + multiset{x}
    decreases |s|
  {
    if |s| == 0 || le(x, s[0]) then [x] + s
    else
      assert s == [s[0]] + s[1..];
      [s[0]] + Insert(x, s[1..], le)
  }

  /** `xs.OrderBy(...)`, as a stable insertion sort under `le`. */
  function SortBy<T>(xs: seq<T>, le: (T, T) -> bool): (r: seq<T>)
    ensures multiset(r) == multiset(xs)
    decreases |xs|
  {
    if |xs| == 0 then []
    else
      assert xs == [xs[0]] + xs[1..];
      Insert(xs[0], SortBy(xs[1..], le), le)
  }

  lemma {:induction false} InsertSorted<T(!new)>(x: T, s: seq<T>, le: (T, T) -> bool)
    requires Total(le) && Transitive(le)
    requires SortedBy(s, le)
    ensures SortedBy(Insert(x, s, le), le)
    decreases |s|
  {
    if |s| > 0 && !le(x, s[0]) {
      var tail := s[1..];
      assert SortedBy(tail, le);
      InsertSorted(x, tail, le);
      var t := Insert(x, tail, le);
      assert le(s[0], x);
      forall k | 0 <= k < |t| ensures le(s[0], t[k]) {
        assert t[k] in multiset(t);
        if t[k] != x {
          assert t[k] in multiset(tail);
          var m :| 0 <= m < |tail| && tail[m] == t[k];
          assert s[m + 1] == t[k];
        }
      }
    }
  }

  /** Under a total preorder, the sort's result is ordered. */
  lemma {:induction false} SortBySorted<T(!new)>(xs: seq<T>, le: (T, T) -> bool)
    requires Total(le) && Transitive(le)
    ensures SortedBy(SortBy(xs, le), le)
    decreases |xs|
  {
    if |xs| > 0 {
      SortBySorted(xs[1..], le);
      InsertSorted(xs[0], SortBy(xs[1..], le), le);
    }
  }

  /** Elements of `xs` paired with their count (`Count(pred)`). */
  function CountWhere<T>(xs: seq<T>, p: T -> bool): (n: nat)
    ensures n <= |xs|
    decreases |xs|
  {
    if |xs| == 0 then 0 else (if p(xs[0]) then 1 else 0) + CountWhere(xs[1..], p)
  }

  /** `xs.Where(p)`, in order. */
  function Filter<T>(xs: seq<T>, p: T -> bool): (r: seq<T>)
    ensures |r| == CountWhere(xs, p)
    ensures forall i :: 0 <= i < |r| ==> p(r[i])
    ensures multiset(r) <= multiset(xs)
    decreases |xs|
  {
    if |xs| == 0 then []
    else
      assert xs == [xs[0]] + xs[1..];
      (if p(xs[0]) then [xs[0]] else []) + Filter(xs[1..], p)
  }

  /** `Where` drops only the elements failing the predicate. */
  lemma {:induction false} FilterContains<T>(xs: seq<T>, p: T -> bool, x: T)
    requires x in xs && p(x)
    ensures x in Filter(xs, p)
    decreases |xs|
  {
    if xs[0] != x {
      assert x in xs[1..];
      FilterContains(xs[1..], p, x);
    }
  }

  /** The elements of `xs` are pairwise different. */
  ghost predicate NoDuplicates<T>(xs: seq<T>) {
    forall i, j :: 0 <= i < j < |xs| ==> xs[i] != xs[j]
  }

  /** Pairwise different elements occur once each, and conversely, so
      having no duplicates survives any permutation. */
  lemma {:induction false} NoDuplicatesCounts<T>(xs: seq<T>)
    ensures NoDuplicates(xs) <==> forall x :: multiset(xs)[x] <= 1
    decreases |xs|
  {
    if |xs| > 0 {
      var rest := xs[1..];
      assert xs == [xs[0]] + rest;
      NoDuplicatesCounts(rest);
      if NoDuplicates(xs) {
        assert NoDuplicates(rest) by {
          forall i, j | 0 <= i < j < |rest| ensures rest[i] != rest[j] {
            assert rest[i] == xs[i + 1] && rest[j] == xs[j + 1];
          }
        }
        assert xs[0] !in rest by {
          forall k | 0 <= k < |rest| ensures rest[k] != xs[0] {
            assert rest[k] == xs[k + 1];
          }
        }
      }
      if forall x :: multiset(xs)[x] <= 1 {
        assert forall x :: multiset(rest)[x] <= 1 by {
          forall x ensures multiset(rest)[x] <= 1 {
            assert multiset(xs)[x] == multiset([xs[0]])[x] + multiset(rest)[x];
          }
        }
        assert xs[0] !in multiset(rest) by {
          assert multiset(xs)[xs[0]] == 1 + multiset(rest)[xs[0]];
        }
        forall i, j | 0 <= i < j < |xs| ensures xs[i] != xs[j] {
          if i == 0 {
            assert xs[j] == rest[j - 1];
          } else {
            assert xs[i] == rest[i - 1] && xs[j] == rest[j - 1];
          }
        }
      }
    }
  }

  /** A sequence without repetitions has as many elements as values. */
  lemma {:induction false} NoDuplicatesCard<T>(vs: seq<T>)
    requires NoDuplicates(vs)
    ensures |set v | v in vs| == |vs|
    decreases |vs|
  {
    if |vs| > 0 {
      var init := vs[..|vs| - 1];
      assert NoDuplicates(init);
      NoDuplicatesCard(init);
      assert (set v | v in vs) == (set v | v in init) + {vs[|vs| - 1]};
      assert vs[|vs| - 1] !in init by {
        forall j | 0 <= j < |init| ensures init[j] != vs[|vs| - 1] {
          assert init[j] == vs[j];
        }
      }
    }
  }

  /** An element is kept by `Where` exactly when it passes. */
  lemma FilterMembers<T>(xs: seq<T>, p: T -> bool, x: T)
    ensures x in Filter(xs, p) <==> x in xs && p(x)
  {
    var r := Filter(xs, p);
    if x in xs && p(x) {
      FilterContains(xs, p, x);
    }
    if x in r {
      assert x in multiset(r);
    }
  }

  /** The identity, as the key of a plain `Distinct()`. */
  function Self<T>(x: T): T {
    x
  }

  /** `Distinct()` keeps every value and adds none. */
  lemma DistinctMembers<T>(xs: seq<T>, x: T)
    ensures x in DistinctBy(xs, Self) <==> x in xs
    ensures NoDuplicates(DistinctBy(xs, Self))
  {
    var r := DistinctBy(xs, Self);
    if x in xs {
      var j :| 0 <= j < |xs| && xs[j] == x;
      assert Self(xs[j]) == x;
      assert x in KeySet(r, Self);
    }
    if x in r {
      var j :| 0 <= j < |r| && r[j] == x;
      assert Self(r[j]) in KeySet(xs, Self);
    }
  }

  // ---------------------------------------------------------------------------
  // Filtering while mapping

  /** The present results of `f` over `xs`, in order: the shape of a loop that
      adds an item for each element passing its checks. */
  function FilterMap<T, U>(xs: seq<T>, f: T -> Option<U>): (r: seq<U>)
    ensures |r| <= |xs|
    ensures forall i :: 0 <= i < |r| ==> exists j :: 0 <= j < |xs| && f(xs[j]) == Some(r[i])
    decreases |xs|
  {
    if |xs| == 0 then []
    else
      var rest := FilterMap(xs[1..], f);
      assert forall i :: 0 <= i < |rest| ==> exists j :: 0 <= j < |xs| && f(xs[j]) == Some(rest[i]) by {
        forall i | 0 <= i < |rest| ensures exists j :: 0 <= j < |xs| && f(xs[j]) == Some(rest[i]) {
          var j :| 0 <= j < |xs[1..]| && f(xs[1..][j]) == Some(rest[i]);
          assert f(xs[j + 1]) == Some(rest[i]);
        }
      }
      match f(xs[0])
      case None => rest
      case Some(y) => [y] + rest
  }

  /** Extraction distributes over concatenation, which together with its
      value on one element fixes both the contents and the order of the
      result. */
  lemma {:induction false} FilterMapAppend<T, U>(xs: seq<T>, ys: seq<T>, f: T -> Option<U>)
    ensures FilterMap(xs + ys, f) == FilterMap(xs, f) + FilterMap(ys, f)
    decreases |xs|
  {
    if |xs| > 0 {
      assert (xs + ys)[1..] == xs[1..] + ys;
      FilterMapAppend(xs[1..], ys, f);
    } else {
      assert xs + ys == ys;
    }
  }

  /** On one element, extraction keeps the element's result if there is one. */
  lemma FilterMapSingle<T, U>(x: T, f: T -> Option<U>)
    ensures FilterMap([x], f) == if f(x).Some? then [f(x).value] else []
  {
    assert [x][1..] == [];
  }
}

=== FILE: text.dfy ===
/**
 * The .NET string primitives the system relies on: invariant upper/lower
 * casing (ASCII letters only), ordinal and ordinal-ignore-case comparison,
 * white-space tests and trimming, prefix tests, `Replace` and `Split`.
 */
module Text {
  import opened Wrappers

  // ---------------------------------------------------------------------------
  // Casing

  /** Invariant upper-casing of one character, restricted to ASCII letters. */
  function UpperChar(c: char): char {
    if 'a' <= c <= 'z' then (c as int - 32) as char else c
  }

  /** Invariant lower-casing of one character, restricted to ASCII letters. */
  function LowerChar(c: char): char {
    if 'A' <= c <= 'Z' then (c as int + 32) as char else c
  }

  /** `ToUpperInvariant`. */
  function Upper(s: string): (r: string)
    ensures |r| == |s|
    ensures forall i :: 0 <= i < |s| ==> r[i] == UpperChar(s[i])
  {
    seq(|s|, i requires 0 <= i < |s| => UpperChar(s[i]))
  }

  /** `ToLowerInvariant`. */
  function Lower(s: string): (r: string)
    ensures |r| == |s|
    ensures forall i :: 0 <= i < |s| ==> r[i] == LowerChar(s[i])
  {
    seq(|s|, i requires 0 <= i < |s| => LowerChar(s[i]))
  }

  /** `string.Equals(a, b, StringComparison.OrdinalIgnoreCase)`. */
  predicate EqIgnoreCase(a: string, b: string) {
    Upper(a) == Upper(b)
  }

  /** Lower-casing keeps a string equal to itself ignoring case, and
      upper-casing then lower-casing is lower-casing. */
  lemma CaseMapsAgree(s: string)
    ensures Upper(Lower(s)) == Upper(s)
    ensures Lower(Upper(s)) == Lower(s)
  {
  }

  /** Upper-casing moves each lower-case ASCII letter 32 code units down,
      onto its upper-case letter, and keeps every other character. */
  lemma UpperCaseMap(s: string)
    ensures forall i :: 0 <= i < |s| && 'a' <= s[i] <= 'z' ==>
      Upper(s)[i] as int == s[i] as int - 32 && 'A' <= Upper(s)[i] <= 'Z'
    ensures forall i :: 0 <= i < |s| && !('a' <= s[i] <= 'z') ==> Upper(s)[i] == s[i]
  {
  }

  /** Lower-casing moves each upper-case ASCII letter 32 code units up,
      onto its lower-case letter, and keeps every other character. */
  lemma LowerCaseMap(s: string)
    ensures forall i :: 0 <= i < |s| && 'A' <= s[i] <= 'Z' ==>
      Lower(s)[i] as int == s[i] as int + 32 && 'a' <= Lower(s)[i] <= 'z'
    ensures forall i :: 0 <= i < |s| && !('A' <= s[i] <= 'Z') ==> Lower(s)[i] == s[i]
  {
  }

  lemma UpperAppend(a: string, b: string)
    ensures Upper(a + b) == Upper(a) + Upper(b)
  {
  }

  /** Every character of `s` is already lower-case. */
  predicate IsLowerCase(s: string) {
    forall i :: 0 <= i < |s| ==> LowerChar(s[i]) == s[i]
  }

  /** Lower-casing yields a lower-case string and leaves one unchanged. */
  lemma LowerCaseFixed(s: string)
    ensures IsLowerCase(Lower(s))
    ensures IsLowerCase(s) ==> Lower(s) == s
  {
  }

  // ---------------------------------------------------------------------------
  // Ordering

  /** Ordinal "strictly less than" on strings, by code point (a `char`
      here is a Unicode scalar value). */
  predicate OrdinalLess(a: string, b: string)
    decreases |a|
  {
    if |a| == 0 then |b| > 0
    else if |b| == 0 then false
    else if a[0] != b[0] then a[0] < b[0]
    else OrdinalLess(a[1..], b[1..])
  }

  /** `StringComparer.OrdinalIgnoreCase.Compare(a, b) < 0`. */
  predicate LessIgnoreCase(a: string, b: string) {
    OrdinalLess(Upper(a), Upper(b))
  }

  lemma {:induction false} OrdinalLessIrreflexive(a: string)
    ensures !OrdinalLess(a, a)
    decreases |a|
  {
    if |a| > 0 {
      OrdinalLessIrreflexive(a[1..]);
    }
  }

  lemma {:induction false} OrdinalLessTransitive(a: string, b: string, c: string)
    requires OrdinalLess(a, b) && OrdinalLess(b, c)
    ensures OrdinalLess(a, c)
    decreases |a|
  {
    if |a| > 0 && |b| > 0 && |c| > 0 && a[0] == b[0] && b[0] == c[0] {
      OrdinalLessTransitive(a[1..], b[1..], c[1..]);
    }
  }

  /** Ordinal order is total: two different strings are ordered one way. */
  lemma {:induction false} OrdinalLessTotal(a: string, b: string)
    requires a != b
    ensures OrdinalLess(a, b) || OrdinalLess(b, a)
    decreases |a|
  {
    if |a| > 0 && |b| > 0 && a[0] == b[0] {
      assert a == [a[0]] + a[1..] && b == [b[0]] + b[1..];
      OrdinalLessTotal(a[1..], b[1..]);
    }
  }

  lemma LessIgnoreCaseTransitive(a: string, b: string, c: string)
    requires LessIgnoreCase(a, b) && LessIgnoreCase(b, c)
    ensures LessIgnoreCase(a, c)
  {
    OrdinalLessTransitive(Upper(a), Upper(b), Upper(c));
  }

  lemma LessIgnoreCaseIrreflexive(a: string)
    ensures !LessIgnoreCase(a, a)
  {
    OrdinalLessIrreflexive(Upper(a));
  }

  // ---------------------------------------------------------------------------
  // White space

  /** `char.IsWhiteSpace`: the Unicode space separators, line and paragraph
      separators, U+0009..U+000D, U+0085 and U+00A0. */
  predicate IsWhiteSpace(c: char) {
    var n := c as int;
    n == 0x20 || (0x09 <= n <= 0x0D) || n == 0x85 || n == 0xA0 || n == 0x1680
    || (0x2000 <= n <= 0x200A) || n == 0x2028 || n == 0x2029 || n == 0x202F
    || n == 0x205F || n == 0x3000
  }

  predicate AllWhiteSpace(s: string) {
    forall i :: 0 <= i < |s| ==> IsWhiteSpace(s[i])
  }

  /** `string.IsNullOrWhiteSpace`. */
  predicate IsNullOrWhiteSpace(s: Option<string>) {
    s.None? || AllWhiteSpace(s.value)
  }

  /** `string.IsNullOrEmpty`. */
  predicate IsNullOrEmpty(s: Option<string>) {
    s.None? || |s.value| == 0
  }

  /** Number of leading white-space characters of `s`. */
  function LeadingWhiteSpace(s: string): (n: nat)
    ensures n <= |s|
    ensures AllWhiteSpace(s[..n])
    ensures n < |s| ==> !IsWhiteSpace(s[n])
    decreases |s|
  {
    if |s| > 0 && IsWhiteSpace(s[0]) then 1 + LeadingWhiteSpace(s[1..]) else 0
  }

  /** Number of white-space characters immediately before position `j`. */
  function WhiteSpaceBefore(s: string, j: nat): (n: nat)
    requires j <= |s|
    ensures n <= j
    ensures forall i :: j - n <= i < j ==> IsWhiteSpace(s[i])
    ensures n < j ==> !IsWhiteSpace(s[j - n - 1])
    decreases j
  {
    if j > 0 && IsWhiteSpace(s[j - 1]) then 1 + WhiteSpaceBefore(s, j - 1) else 0
  }

  /** `string.Trim()`: removes leading and trailing white space. */
  function Trim(s: string): (r: string)
    ensures exists i, j :: (0 <= i <= j <= |s| && r == s[i..j]
      && AllWhiteSpace(s[..i]) && AllWhiteSpace(s[j..]))
    ensures |r| > 0 ==> !IsWhiteSpace(r[0]) && !IsWhiteSpace(r[|r| - 1])
  {
    var i := LeadingWhiteSpace(s);
    var n := WhiteSpaceBefore(s, |s|);
    var j := if |s| - n < i then i else |s| - n;
    var tail := s[j..];
    forall k | 0 <= k < |tail| ensures IsWhiteSpace(tail[k]) {
      assert tail[k] == s[j + k];
    }
    assert j > i ==> s[i..j][j - i - 1] == s[j - 1];
    s[i..j]
  }

  /** Trimming leaves nothing exactly when the string is all white space. */
  lemma TrimBlank(s: string)
    ensures |Trim(s)| == 0 <==> AllWhiteSpace(s)
  {
    var r := Trim(s);
    var i, j :| 0 <= i <= j <= |s| && r == s[i..j] && AllWhiteSpace(s[..i]) && AllWhiteSpace(s[j..]);
    if |r| == 0 {
      forall k | 0 <= k < |s| ensures IsWhiteSpace(s[k]) {
        if k < i { assert s[..i][k] == s[k]; } else { assert s[j..][k - j] == s[k]; }
      }
    }
  }

  /** A string without white space at either end is its own trim. */
  lemma TrimUnpadded(s: string)
    requires |s| > 0 ==> !IsWhiteSpace(s[0]) && !IsWhiteSpace(s[|s| - 1])
    ensures Trim(s) == s
  {
    assert LeadingWhiteSpace(s) == 0;
    assert s[0..] == s;
    assert WhiteSpaceBefore(s, |s|) == 0;
  }

  // ---------------------------------------------------------------------------
  // Searching and rewriting

  /** Ordinal `s.StartsWith(p)`. */
  predicate StartsWith(s: string, p: string) {
    |p| <= |s| && s[..|p|] == p
  }

  /** `p` occurs in `s` at some position. */
  predicate ContainsAt(s: string, p: string, i: int) {
    0 <= i && i + |p| <= |s| && s[i..i + |p|] == p
  }

  /** `s.Replace(pat, rep)`: every non-overlapping occurrence of `pat`, scanned
      left to right, is replaced by `rep`. */
  function ReplaceAll(s: string, pat: string, rep: string): string
    requires |pat| > 0
    decreases |s|
  {
    if |s| < |pat| then s
    else if s[..|pat|] == pat then rep + ReplaceAll(s[|pat|..], pat, rep)
    else [s[0]] + ReplaceAll(s[1..], pat, rep)
  }

  /** A string with no occurrence of `pat` is returned unchanged by `Replace`. */
  lemma {:induction false} ReplaceAbsent(s: string, pat: string, rep: string)
    requires |pat| > 0
    requires forall i :: !ContainsAt(s, pat, i)
    ensures ReplaceAll(s, pat, rep) == s
    decreases |s|
  {
    if |s| >= |pat| {
      assert !ContainsAt(s, pat, 0);
      forall i ensures !ContainsAt(s[1..], pat, i) {
        if ContainsAt(s[1..], pat, i) {
          assert s[1..][i..i + |pat|] == s[i + 1..i + 1 + |pat|];
          assert ContainsAt(s, pat, i + 1);
        }
      }
      ReplaceAbsent(s[1..], pat, rep);
    }
  }

  /** A string that starts with `pat` has its first occurrence rewritten. */
  lemma ReplaceAtStart(s: string, pat: string, rep: string)
    requires |pat| > 0 && StartsWith(s, pat)
    ensures StartsWith(ReplaceAll(s, pat, rep), rep)
  {
  }

  /** `Replace` on a string starting with the pattern: the leading
      occurrence becomes the replacement and the rest is rewritten alike. */
  lemma ReplaceLeading(t: string, pat: string, rep: string)
    requires |pat| > 0 && StartsWith(t, pat)
    ensures ReplaceAll(t, pat, rep) == rep + ReplaceAll(t[|pat|..], pat, rep)
  {
  }

  /** Replacing inside a lower-case string with a lower-case replacement
      keeps it lower-case. */
  lemma {:induction false} ReplaceAllLowerCase(s: string, pat: string, rep: string)
    requires |pat| > 0 && IsLowerCase(s) && IsLowerCase(rep)
    ensures IsLowerCase(ReplaceAll(s, pat, rep))
    decreases |s|
  {
    if |s| >= |pat| {
      if s[..|pat|] == pat {
        ReplaceAllLowerCase(s[|pat|..], pat, rep);
        var t := ReplaceAll(s[|pat|..], pat, rep);
        assert forall k :: |rep| <= k < |rep + t| ==> (rep + t)[k] == t[k - |rep|];
      } else {
        ReplaceAllLowerCase(s[1..], pat, rep);
        var t := ReplaceAll(s[1..], pat, rep);
        assert forall k :: 1 <= k < |[s[0]] + t| ==> ([s[0]] + t)[k] == t[k - 1];
      }
    }
  }

  /** The parts of `s` between occurrences of the separator `c`, as
      `s.Split(c)` returns them (always at least one part). */
  function SplitChar(s: string, c: char): (parts: seq<string>)
    ensures |parts| >= 1
    ensures |parts| - 1 == CountChar(s, c)
    ensures forall i :: 0 <= i < |parts| ==> c !in parts[i]
    decreases |s|
  {
    if |s| == 0 then [""]
    else
      var rest := SplitChar(s[1..], c);
      if s[0] == c then [""] + rest
      else [[s[0]] + rest[0]] + rest[1..]
  }

  /** Number of occurrences of `c` in `s`. */
  function CountChar(s: string, c: char): nat
    decreases |s|
  {
    if |s| == 0 then 0 else (if s[0] == c then 1 else 0) + CountChar(s[1..], c)
  }

  /** Splitting a string that does not contain the separator yields the string
      itself as the only part. */
  lemma {:induction false} SplitCharAbsent(s: string, c: char)
    requires c !in s
    ensures SplitChar(s, c) == [s]
    decreases |s|
  {
    if |s| > 0 {
      assert c !in s[1..];
      SplitCharAbsent(s[1..], c);
      assert [s[0]] + s[1..] == s;
    }
  }

  /** Joining the parts of a split with the separator gives back the string. */
  lemma {:induction false} SplitCharJoin(s: string, c: char)
    ensures Join(SplitChar(s, c), c) == s
    decreases |s|
  {
    if |s| > 0 {
      SplitCharJoin(s[1..], c);
      var rest := SplitChar(s[1..], c);
      assert s == [s[0]] + s[1..];
      if s[0] != c {
        var parts := [[s[0]] + rest[0]] + rest[1..];
        assert SplitChar(s, c) == parts;
        assert parts[1..] == rest[1..];
        assert Join(parts, c) == [s[0]] + (rest[0] + JoinTail(rest[1..], c));
      } else {
        var parts := [""] + rest;
        assert SplitChar(s, c) == parts;
        assert parts[1..] == rest;
        assert Join(parts, c) == [c] + Join(rest, c);
      }
    }
  }

  /** `string.Join(c, parts)`. */
  function Join(parts: seq<string>, c: char): string
    requires |parts| >= 1
  {
    parts[0] + JoinTail(parts[1..], c)
  }

  function JoinTail(parts: seq<string>, c: char): string
    decreases |parts|
  {
    if |parts| == 0 then "" else [c] + parts[0] + JoinTail(parts[1..], c)
  }

  /** The position of the first occurrence of `sep` in `s` at or after `k`. */
  function IndexFrom(s: string, sep: string, k: nat): (r: Option<nat>)
    requires |sep| > 0 && k <= |s|
    requires forall i :: 0 <= i < k ==> !ContainsAt(s, sep, i)
    ensures r.Some? ==> (ContainsAt(s, sep, r.value)
      && forall i :: 0 <= i < r.value ==> !ContainsAt(s, sep, i))
    ensures r.None? ==> forall i :: !ContainsAt(s, sep, i)
    decreases |s| - k
  {
    if k + |sep| > |s| then None
    else if s[k..k + |sep|] == sep then Some(k)
    else IndexFrom(s, sep, k + 1)
  }

  /** `s.Split(sep, 2)`: the text before the first occurrence of `sep` and,
      when there is one, the text after it. */
  function SplitOnce(s: string, sep: string): (r: (string, Option<string>))
    requires |sep| > 0
    ensures r.1.None? ==> r.0 == s && forall i :: !ContainsAt(s, sep, i)
    ensures r.1.Some? ==> (s == r.0 + sep + r.1.value
      && forall i :: 0 <= i < |r.0| ==> !ContainsAt(s, sep, i))
  {
    match IndexFrom(s, sep, 0)
    case None => (s, None)
    case Some(k) =>
      assert s == s[..k] + sep + s[k + |sep|..];
      (s[..k], Some(s[k + |sep|..]))
  }

  /** `Split(sep, 2)` cuts at the first occurrence of `sep`. */
  lemma SplitOnceAt(s: string, sep: string, k: nat)
    requires |sep| > 0 && ContainsAt(s, sep, k)
    requires forall i :: 0 <= i < k ==> !ContainsAt(s, sep, i)
    ensures SplitOnce(s, sep) == (s[..k], Some(s[k + |sep|..]))
  {
    var r := SplitOnce(s, sep);
    assert r.1.Some?;
    var n := |r.0|;
    assert s[n..n + |sep|] == sep;
    assert n == k;
    assert r.0 == s[..k];
    assert r.1.value == s[k + |sep|..];
  }
}

=== FILE: versions.dfy ===
/**
 * The version heuristics of the conflict detector: the numeric-prefix parse
 * of a version string, the severity of a set of versions, and the suggested
 * version (the ordinal-ignore-case maximum).
 */
module Versions {
  import opened Wrappers
  import opened Text
  import opened Numeric

  // ---------------------------------------------------------------------------
  // int.TryParse

  predicate IsDigit(c: char) {
    '0' <= c <= '9'
  }

  predicate AllDigits(s: string) {
    forall i :: 0 <= i < |s| ==> IsDigit(s[i])
  }

  /** The white space `int.Parse` skips around a number: U+0009..U+000D and
      the space. */
  predicate IsNumberWhite(c: char) {
    c == ' ' || '\t' <= c <= '\r'
  }

  /** `s` without its leading and trailing number white space. */
  function StripNumberWhite(s: string): (r: string)
    ensures |r| <= |s|
    decreases |s|
  {
    if |s| > 0 && IsNumberWhite(s[0]) then StripNumberWhite(s[1..])
    else if |s| > 0 && IsNumberWhite(s[|s| - 1]) then StripNumberWhite(s[..|s| - 1])
    else s
  }

  /** The value of a string of decimal digits. */
  function DigitsValue(ds: string): nat
    requires AllDigits(ds)
    decreases |ds|
  {
    if |ds| == 0 then 0
    else DigitsValue(ds[..|ds| - 1]) * 10 + (ds[|ds| - 1] as int - '0' as int)
  }

  /** `s` without its trailing run of NUL characters: the longest prefix
      that is followed only by `'\0'` and does not itself end in one. */
  function TrimTrailingNul(s: string): (r: string)
    ensures |r| <= |s| && r == s[..|r|]
    ensures forall i :: |r| <= i < |s| ==> s[i] == '\0'
    ensures |r| == 0 || r[|r| - 1] != '\0'
    decreases |s|
  {
    if |s| > 0 && s[|s| - 1] == '\0' then TrimTrailingNul(s[..|s| - 1]) else s
  }

  /** `int.TryParse(s, out n)`: the `Integer` number style of the current
      culture, with `-` and `+` as its sign strings. Optional surrounding
      white space, an optional sign, then decimal digits; after the trailing
      white space a run of NUL characters is also accepted, as .NET does for
      compatibility. Values outside the 32-bit range fail. */
  function TryParseInt32(s: string): (r: Option<int>)
    ensures r.Some? ==> Int32Min <= r.value <= Int32Max
  {
    var t := StripNumberWhite(TrimTrailingNul(s));
    if |t| == 0 then None
    else
      var negative := t[0] == '-';
      var digits := if t[0] == '+' || t[0] == '-' then t[1..] else t;
      if |digits| == 0 || !AllDigits(digits) then None
      else
        var magnitude: int := DigitsValue(digits);
        var v := if negative then -magnitude else magnitude;
        if Int32Min <= v <= Int32Max then Some(v) else None
  }

  /** A trailing NUL never changes the outcome of the parse. */
  lemma TrailingNulIgnored(s: string)
    ensures TryParseInt32(s + ['\0']) == TryParseInt32(s)
  {
    assert (s + ['\0'])[..|s|] == s;
  }

  /** NULs are accepted after the digits and after trailing white space,
      but not before trailing white space. */
  lemma TrailingNulExamples()
    ensures TryParseInt32("1\0") == Some(1)
    ensures TryParseInt32("1 \0") == Some(1)
    ensures TryParseInt32("1\0 ") == None
  {
    assert TrimTrailingNul("1\0") == "1";
    assert TrimTrailingNul("1 \0") == "1 ";
    assert StripNumberWhite("1 ") == "1";
    assert DigitsValue("1") == 1;
    assert StripNumberWhite("1\0 ") == "1\0";
    assert !AllDigits("1\0");
  }

  /** The decimal rendering of a natural number, without leading zeros. */
  function DecimalString(n: nat): (s: string)
    ensures |s| > 0 && AllDigits(s) && IsDigit(s[0])
    decreases n
  {
    var d := ['0' + (n % 10) as char];
    if n < 10 then d else DecimalString(n / 10) + d
  }

  lemma {:induction false} DecimalStringValue(n: nat)
    ensures DigitsValue(DecimalString(n)) == n
    decreases n
  {
    var s := DecimalString(n);
    if n >= 10 {
      DecimalStringValue(n / 10);
      assert s[..|s| - 1] == DecimalString(n / 10);
    }
  }

  /** Parsing the decimal rendering of an in-range number gives it back. */
  lemma DecimalRoundTrip(n: nat)
    requires n <= Int32Max
    ensures TryParseInt32(DecimalString(n)) == Some(n)
  {
    DecimalStringValue(n);
    var s := DecimalString(n);
    assert TrimTrailingNul(s) == s;
    assert !IsNumberWhite(s[0]) && !IsNumberWhite(s[|s| - 1]);
  }

  // ---------------------------------------------------------------------------
  // The numeric prefix of a version

  /** `v.Split('-')[0].Split('.').Take(3)`, each part read with `int.TryParse`
      and 0 when that fails. */
  function ParseVersion(v: string): (parts: seq<int>)
    ensures 1 <= |parts| <= 3
  {
    var core := SplitChar(v, '-')[0];
    var pieces := SplitChar(core, '.');
    var taken := if |pieces| > 3 then pieces[..3] else pieces;
    seq(|taken|, i requires 0 <= i < |taken| => TryParseInt32(taken[i]).GetOr(0))
  }

  /** A version has one component more than it has dots before its first
      `-`, and at most three. */
  lemma ParseVersionLength(v: string)
    ensures |ParseVersion(v)| == if CountChar(SplitChar(v, '-')[0], '.') >= 2 then 3
                                 else CountChar(SplitChar(v, '-')[0], '.') + 1
  {
  }

  /** Two parsed versions differ in their first component. */
  predicate MajorDiff(a: seq<int>, b: seq<int>) {
    |a| > 0 && |b| > 0 && a[0] != b[0]
  }

  /** Two parsed versions, both with a second component, differ in it. */
  predicate MinorDiff(a: seq<int>, b: seq<int>) {
    |a| > 1 && |b| > 1 && a[1] != b[1]
  }

  /** Two version strings differ in the major component. */
  predicate MajorApart(a: string, b: string) {
    MajorDiff(ParseVersion(a), ParseVersion(b))
  }

  /** Two version strings agree on the major component and differ in the
      minor one. */
  predicate MinorOnlyApart(a: string, b: string) {
    !MajorDiff(ParseVersion(a), ParseVersion(b)) && MinorDiff(ParseVersion(a), ParseVersion(b))
  }

  /** Some pair of the versions differs in the major component. */
  ghost predicate AnyMajorDiff(vs: seq<string>) {
    exists i, j :: 0 <= i < j < |vs| && MajorApart(vs[i], vs[j])
  }

  /** Some pair of the versions differs in the minor component. */
  ghost predicate AnyMinorDiff(vs: seq<string>) {
    exists i, j :: 0 <= i < j < |vs| && MinorDiff(ParseVersion(vs[i]), ParseVersion(vs[j]))
  }

  /** Some pair differs in the minor component but not in the major one. */
  ghost predicate AnyMinorOnlyDiff(vs: seq<string>) {
    exists i, j :: 0 <= i < j < |vs| && MinorOnlyApart(vs[i], vs[j])
  }

  /** The inner loop of the pair scan: the flags one version raises against
      every later one. The minor flag is raised only by a pair that did not
      raise the major flag (the `else if`). */
  function RowFlags(a: string, rest: seq<string>): (r: (bool, bool))
    ensures r.0 <==> exists j :: 0 <= j < |rest| && MajorApart(a, rest[j])
    ensures r.1 <==> exists j :: 0 <= j < |rest| && MinorOnlyApart(a, rest[j])
    decreases |rest|
  {
    if |rest| == 0 then (false, false)
    else
      var tail := RowFlags(a, rest[1..]);
      assert forall j :: 1 <= j < |rest| ==> rest[j] == rest[1..][j - 1];
      var major := MajorApart(a, rest[0]);
      var minor := !major && MinorOnlyApart(a, rest[0]);
      (major || tail.0, minor || tail.1)
  }

  /** The outer loop of the pair scan: (hasMajorDiff, hasMinorDiff). */
  function PairFlags(vs: seq<string>): (r: (bool, bool))
    ensures r.0 <==> AnyMajorDiff(vs)
    ensures r.1 <==> AnyMinorOnlyDiff(vs)
    decreases |vs|
  {
    if |vs| == 0 then (false, false)
    else
      var row := RowFlags(vs[0], vs[1..]);
      var rest := PairFlags(vs[1..]);
      AnyMajorDiffSplit(vs);
      AnyMinorOnlyDiffSplit(vs);
      (row.0 || rest.0, row.1 || rest.1)
  }

  lemma AnyMajorDiffFromTail(vs: seq<string>)
    requires |vs| > 0 && AnyMajorDiff(vs[1..])
    ensures AnyMajorDiff(vs)
  {
    var i, j :| 0 <= i < j < |vs[1..]| && MajorApart(vs[1..][i], vs[1..][j]);
    assert vs[i + 1] == vs[1..][i] && vs[j + 1] == vs[1..][j];
  }

  lemma AnyMajorDiffFromRow(vs: seq<string>)
    requires |vs| > 0 && RowFlags(vs[0], vs[1..]).0
    ensures AnyMajorDiff(vs)
  {
    var j :| 0 <= j < |vs[1..]| && MajorApart(vs[0], vs[1..][j]);
    assert vs[j + 1] == vs[1..][j];
  }

  lemma AnyMajorDiffCases(vs: seq<string>)
    requires |vs| > 0 && AnyMajorDiff(vs)
    ensures RowFlags(vs[0], vs[1..]).0 || AnyMajorDiff(vs[1..])
  {
    var i, j :| 0 <= i < j < |vs| && MajorApart(vs[i], vs[j]);
    assert vs[j] == vs[1..][j - 1];
    if i > 0 {
      assert vs[i] == vs[1..][i - 1];
    }
  }

  /** Some pair differs in the major component iff the first version differs
      from a later one or some pair of the rest does. */
  lemma AnyMajorDiffSplit(vs: seq<string>)
    requires |vs| > 0
    ensures AnyMajorDiff(vs) <==> RowFlags(vs[0], vs[1..]).0 || AnyMajorDiff(vs[1..])
  {
    if AnyMajorDiff(vs[1..]) { AnyMajorDiffFromTail(vs); }
    if RowFlags(vs[0], vs[1..]).0 { AnyMajorDiffFromRow(vs); }
    if AnyMajorDiff(vs) { AnyMajorDiffCases(vs); }
  }

  lemma AnyMinorOnlyDiffFromTail(vs: seq<string>)
    requires |vs| > 0 && AnyMinorOnlyDiff(vs[1..])
    ensures AnyMinorOnlyDiff(vs)
  {
    var i, j :| 0 <= i < j < |vs[1..]| && MinorOnlyApart(vs[1..][i], vs[1..][j]);
    assert vs[i + 1] == vs[1..][i] && vs[j + 1] == vs[1..][j];
  }

  lemma AnyMinorOnlyDiffFromRow(vs: seq<string>)
    requires |vs| > 0 && RowFlags(vs[0], vs[1..]).1
    ensures AnyMinorOnlyDiff(vs)
  {
    var j :| 0 <= j < |vs[1..]| && MinorOnlyApart(vs[0], vs[1..][j]);
    assert vs[j + 1] == vs[1..][j];
  }

  lemma AnyMinorOnlyDiffCases(vs: seq<string>)
    requires |vs| > 0 && AnyMinorOnlyDiff(vs)
    ensures RowFlags(vs[0], vs[1..]).1 || AnyMinorOnlyDiff(vs[1..])
  {
    var i, j :| 0 <= i < j < |vs| && MinorOnlyApart(vs[i], vs[j]);
    assert vs[j] == vs[1..][j - 1];
    if i > 0 {
      assert vs[i] == vs[1..][i - 1];
    }
  }

  /** The same decomposition for minor-only differences. */
  lemma AnyMinorOnlyDiffSplit(vs: seq<string>)
    requires |vs| > 0
    ensures AnyMinorOnlyDiff(vs) <==> RowFlags(vs[0], vs[1..]).1 || AnyMinorOnlyDiff(vs[1..])
  {
    if AnyMinorOnlyDiff(vs[1..]) { AnyMinorOnlyDiffFromTail(vs); }
    if RowFlags(vs[0], vs[1..]).1 { AnyMinorOnlyDiffFromRow(vs); }
    if AnyMinorOnlyDiff(vs) { AnyMinorOnlyDiffCases(vs); }
  }

  /** `CalculateSeverity`: 0 for at most one version; otherwise 3 when some
      pair differs in the major component, else 2 when some pair differs in
      the minor component, else 1. */
  function CalculateSeverity(versions: seq<string>): (sev: int)
    ensures sev == 0 <==> |versions| <= 1
    ensures |versions| > 1 ==> sev in {1, 2, 3}
    ensures sev == 3 <==> |versions| > 1 && AnyMajorDiff(versions)
    ensures sev == 2 <==> |versions| > 1 && !AnyMajorDiff(versions) && AnyMinorDiff(versions)
    ensures sev == 1 <==> |versions| > 1 && !AnyMajorDiff(versions) && !AnyMinorDiff(versions)
  {
    if |versions| <= 1 then 0
    else
      var flags := PairFlags(versions);
      assert !AnyMajorDiff(versions) ==> (AnyMinorDiff(versions) <==> AnyMinorOnlyDiff(versions));
      if flags.0 then 3 else if flags.1 then 2 else 1
  }

  // ---------------------------------------------------------------------------
  // The suggested version

  /** `versions.OrderByDescending(v => v, OrdinalIgnoreCase).First()`: the
      first of the versions that no other version exceeds. */
  function MaxIgnoreCase(versions: seq<string>): (m: string)
    requires |versions| > 0
    ensures m in versions
    ensures forall v :: v in versions ==> !LessIgnoreCase(m, v)
    ensures exists k :: (0 <= k < |versions| && versions[k] == m
      && forall i :: 0 <= i < k ==> LessIgnoreCase(versions[i], m))
    decreases |versions|
  {
    LessIgnoreCaseIrreflexive(versions[0]);
    if |versions| == 1 then versions[0]
    else
      var init := versions[..|versions| - 1];
      var last := versions[|versions| - 1];
      assert versions == init + [last];
      var m := MaxIgnoreCase(init);
      if LessIgnoreCase(m, last) then
        forall v | v in init ensures !LessIgnoreCase(last, v) && LessIgnoreCase(v, last) {
          if LessIgnoreCase(last, v) {
            LessIgnoreCaseTransitive(m, last, v);
          }
          if Upper(v) != Upper(m) {
            OrdinalLessTotal(Upper(v), Upper(m));
            LessIgnoreCaseTransitive(v, m, last);
          }
        }
        LessIgnoreCaseIrreflexive(last);
        assert forall i :: 0 <= i < |init| ==> versions[i] == init[i] && init[i] in init;
        assert forall i :: 0 <= i < |versions| - 1 ==> LessIgnoreCase(versions[i], last);
        assert versions[|versions| - 1] == last;
        last
      else
        var k :| 0 <= k < |init| && init[k] == m && forall i :: 0 <= i < k ==> LessIgnoreCase(init[i], m);
        assert versions[k] == m;
        m
  }

  /** Ordinal order compares text, not numbers: among 1.0.0, 1.2.0 and
      1.10.0 the suggestion is 1.2.0. */
  lemma SuggestedVersionExample()
    ensures MaxIgnoreCase(["1.0.0", "1.2.0", "1.10.0"]) == "1.2.0"
  {
    var vs := ["1.0.0", "1.2.0", "1.10.0"];
    assert Upper("1.0.0") == "1.0.0" && Upper("1.2.0") == "1.2.0" && Upper("1.10.0") == "1.10.0";
    assert OrdinalLess("1.0.0", "1.2.0") by {
      assert OrdinalLess("1.0.0"[2..], "1.2.0"[2..]);
    }
    assert OrdinalLess("1.10.0", "1.2.0") by {
      assert OrdinalLess("1.10.0"[2..], "1.2.0"[2..]);
    }
    var m := MaxIgnoreCase(vs);
    assert m in vs;
  }

  /** A version with neither `-` nor `.` has the single component its
      parse gives. */
  lemma ParseSinglePart(v: string, n: int)
    requires '-' !in v && '.' !in v && TryParseInt32(v) == Some(n)
    ensures ParseVersion(v) == [n]
  {
    SplitCharAbsent(v, '-');
    SplitCharAbsent(v, '.');
    var parts := ParseVersion(v);
    assert |parts| == 1 && parts[0] == TryParseInt32(v).GetOr(0);
  }

  /** A version that differs from another only by trailing NULs parses to
      the same components, so the pair is rated 1, not 3. */
  lemma TrailingNulSameSeverity()
    ensures CalculateSeverity(["1\0", "1"]) == 1
  {
    var vs := ["1\0", "1"];
    TrailingNulExamples();
    assert TryParseInt32("1") == Some(1) by {
      assert DecimalString(1) == "1";
      DecimalRoundTrip(1);
    }
    ParseSinglePart(vs[0], 1);
    ParseSinglePart(vs[1], 1);
    assert !AnyMajorDiff(vs) && !AnyMinorDiff(vs);
  }
}

=== FILE: wrappers.dfy ===
/** Nullable values and error-or-value results, as used by every other module. */
module Wrappers {

  /** A C# nullable reference: `None` stands for `null`. */
  datatype Option<+T> = None | Some(value: T) {

    /** The `??` operator: the value, or `default` when null. */
    function GetOr(default: T): T {
      match this
      case Some(v) => v
      case None => default
    }
  }

  /** The outcome of an operation that either returns a value or throws. */
  datatype Result<+R, +E> = Success(value: R) | Failure(error: E) {

    predicate IsFailure() {
      Failure?
    }

    function PropagateFailure<U>(): Result<U, E>
      requires Failure?
    {
      Failure(error)
    }

    function Extract(): R
      requires Success?
    {
      value
    }
  }
}
